=== FILE: README.md ===
# Sales dashboard metric pipeline — a Dafny model

This project models the metric-extraction core of a Dash sales dashboard for a car dealership. The dashboard reads a daily report sheet. The sheet has an indicator column ("Показатель") and one column per day.

The model covers:

- **Period aggregation.** `DataProcessor` (core/processor.py) treats every column after the first two as a day column. It slices a 1-based inclusive day range positionally. It re-resolves each sliced label through a map from `normalize_date` keys to columns; the map is built as a dict, so on a key collision the later column wins. It then selects the chosen labels from the table, pandas-style: each label brings every column that carries it. Each indicator row is summed over that selection, with non-numeric cells counting as 0. It also caches the aggregate and answers `find_metric_value` lookups.
- **Metric resolution.** Two resolvers turn a name fragment into a period total:
  - the substring resolver: the first row whose indicator contains the fragment, ignoring case. It is used by `ChartGenerator._safe_find_metric`, `_safe_value` in viz/charts.py and `find_metric_value`. Unlike the other two, `_safe_value` has no exception guard, so a fragment that does not compile would raise there instead of giving 0; the names it is given are all plain (`Charts.FixedNamesPlain`);
  - the tiered resolver (`MetricsCalculator._safe_find_metric`): an exact stripped match, then containment, then the "траты"+"таргет" keyword pair, then 0.
- **Key metrics.** `calculate_key_metrics` computes:
  - the acceptance rate;
  - the leads fallback chain (`a or b or …`);
  - the zero-guarded cost ratios;
  - the all-zero default record.
- **Chart values** (the values only, not the figures):
  - staff forwarding counts, internet-lead statuses and the calls funnel, in both the viz module and `ChartGenerator`;
  - script-compliance averages with their colour bands;
  - the sales funnel;
  - the ranked and truncated refusal-reasons list;
  - the calls trend, as far as whether its day axis and its four series have one length, which decides between the charts and the error view.
- **Period comparison.** `update_dashboard` builds two independent processors, computes both periods' key metrics and the `get_delta` comparison cards, and shows a no-data view when the main period has no aggregate. When building the trend chart raises, it shows the error view.
- **Ingestion.**
  - The Google Sheets loader: header-row detection, label stripping and the per-sheet cache.
  - The Excel loader's sheet choice.
  - The stock sheet: `extract_model_and_mod` and the propagation of header-row statuses to the cars below each header.

Cells are text, as the Google Sheets grid delivers them. Two pandas conversions are parameters of the model, bundled in `Table.Coercion`:

- `pd.to_numeric` (and `float()` after `%` removal);
- `pd.to_datetime`.

`str.contains` compiles its argument as a regular expression. `Pattern` models the part of that syntax the fixed metric fragments use: backslash escapes and plain groups. A pattern that does not compile makes the resolvers answer 0, as their `except` branches do. Python's `round` is modelled as round-half-to-even on exact reals.

Behaviours of the code the model keeps:

- Every sliced day key is a key of the column map, so the `if col in col_mapping` filter never drops anything (`Processor.SliceKeysMapped`). A key collision instead makes the selection name the later column (`Processor.CollisionResolvesToLaterColumn`). That column is then selected more than once. `data_period` gets one copy of it per selection entry, and `data_period[selected_cols]` takes every copy for each entry, so a column selected m times counts m² times in the total (`Processor.AggregateWeighsRepeats`, `Processor.RepeatedLabelCountsSquared`). The script averages read `matched_row[selected_cols]` the same way.
- The callback accepts any pair of days. The trend chart builds a frame from a day axis of `end - start + 1` days and series as long as the selection. A range running past the last day column makes pandas refuse that frame, and the callback shows its error view (`Comparison.RangePastSheetShowsError`). The slider keeps ranges inside the sheet (`Comparison.SliderRangeShowsCharts`).
- The funnels' drop-off percentages are computed by Plotly from the stage values (`textinfo="value+percent previous"`), so they are not part of this model.
- When more reasons are positive than the display limit, `nlargest(keep='first')` keeps, among reasons with equal counts, the ones earliest in the sheet (`Reasons.TieKeepsEarlier`, and `KeepsFirstTies` in the contract of `Reasons.TopAscending`).
- The dashboard callback draws its charts through `ChartGenerator`. That class keeps zero-valued staff and internet-lead entries. The viz module's `make_staff_charts` and `make_internet_pie` drop them. `Comparison.Dashboard` uses the `ChartGenerator` values. `Charts.StaffValuesUnfiltered` and `Charts.InternetPieUnfiltered` relate the two versions.
- The sales funnel's traffic sums the forwarded calls of "Мади" and "Алишер" (`Charts.TrafficStaff`). The configured staff list is "Мади" and "Ильяс" (`Config.StaffNames`). The model keeps both lists as the source has them.

## Model

| member | source | states |
|---|---|---|
| Processor.DayColumns | core/processor.py:44-45 | the day columns are exactly the columns after the first two, in source order (none when there are at most two columns) |
| Processor.LoadFromGsheet | core/processor.py:37-50 | loading replaces the table, max_day is the number of its day columns, and the cached aggregate is untouched |
| Processor.NormalizeDate | core/processor.py:93-104 | normalize_date is total: the key of a timestamp or parseable label reads back as that date; any other label keeps its str() form |
| Processor.DistinctDatesDistinctKeys | core/processor.py:93-104 | labels denoting different dates never share a key |
| Processor.SlicePositions | core/processor.py:55 | Python slice semantics for data_columns[start_day-1:end_day], including negative and out-of-range bounds: which positions are selected and how many |
| Processor.ColumnMap | core/processor.py:58 | every day column's key is in col_mapping, and each key maps to the last day column carrying it (a later column overwrites an earlier one) |
| Processor.Resolve | core/processor.py:59 | the lookup keeps the order of the keys, yields only map values, and drops nothing when every key is mapped |
| Processor.SliceKeysMapped | core/processor.py:57-59 | every normalised sliced key is a key of col_mapping, so the `if col in col_mapping` filter never drops a column |
| Processor.SelectedDays | core/processor.py:55-59 | the selection is as long as the positional slice, names only day columns, and each entry is the last day column sharing the sliced column's key |
| Processor.SelectionIsPositional | core/processor.py:55-59 | without key collisions and with 1 <= start <= end <= max_day, the selection is exactly day columns start..end in order |
| Processor.CollisionResolvesToLaterColumn | core/processor.py:58-59 | when a later day column shares a selected column's key, that selection entry names the later column or one beyond it, so the sliced column itself is not read |
| Processor.DistinctDatesNoCollision | core/processor.py:57-58 | day columns denoting pairwise different dates cannot collide |
| Processor.SelectCells | core/processor.py:64 | data_period keeps every source row with its indicator; its column labels are the label selection of the frame's own labels, and each row is the same label selection of the source row |
| Processor.ProcessData | core/processor.py:52-74 | an empty selection or a missing indicator column gives two empty results; otherwise data_period is the label selection of the frame, and each total re-selects the selected labels among data_period's columns, coerces non-numeric cells to 0 and sums |
| Processor.AggregatePeriod | core/processor.py:65-68 | one aggregate row per period row, with its indicator, totalling the coerced cells that num_data = data_period[selected_cols] selects, non-numeric as 0 |
| Processor.AggregateWeighsRepeats | core/processor.py:55-68 | on a frame with distinct labels, each total weighs the value of a selected column by the number of times its label is selected, once per selection entry: a column selected m times counts m² times |
| Processor.RepeatedLabelCountsSquared | core/processor.py:58-65 | a label selected twice next to another label: the total is 4x + z |
| Table.Matching | core/processor.py:64-65 | selecting one label yields the cells of every column carrying it, as many as the label occurs; a single column is taken exactly when it carries the label |
| Table.SelectByLabels | core/processor.py:64-65 | a label list selects, label by label, every column carrying that label; the width is the sum of the match counts, and a single label selects exactly its matching columns |
| Table.MatchingAppend | core/processor.py:64-65 | matching one label over two runs of columns is matching it over each run in turn, so column order and repeats are kept |
| Table.SelectByLabelsAppend | core/processor.py:64-65 | selecting a concatenated label list is selecting each part in turn |
| Table.SelectDistinctLabels | core/processor.py:64-65 | with distinct labels, selecting a row by its own labels gives the row back |
| Processor.PeriodSumIsPositionalSum | core/processor.py:55-68 | for an in-range selection on a frame with distinct labels and no key collision, each indicator's total is the sum of its coerced cells in day columns start..end |
| Processor.PeriodIsPositional | core/processor.py:55-64 | for an in-range selection on a frame with distinct labels and no key collision, data_period's row i is exactly the source row's cells of day columns start..end, and its labels are distinct |
| Processor.Process | core/processor.py:61-70 | the aggregate is cached only when process_data produces one; otherwise the previous cache stays |
| Processor.FindMetricValue | core/processor.py:76-91 | 0 for an empty table, a table without an indicator column, or no cached aggregate; otherwise the substring resolver on the cached aggregate |
| Processor.LookupAfterProcess | core/processor.py:61-91 | after process_data selects days on a non-empty table with an indicator column, find_metric_value reads that run's aggregate; a run selecting no days leaves every lookup as it was |
| Resolver.FirstMentionTotal | app_old_full.py:615-618 | the total of the first row whose indicator contains the literal ignoring case, 0 when no row does |
| Resolver.SubstringValue | app_old_full.py:610-621 | a fragment that does not compile gives 0; otherwise the total of the first row containing its literal text, else 0 |
| Resolver.TargetSpendTotal | app_old_full.py:199-210 | the total of the first row naming both "траты" and "таргет", 0 when none does |
| Resolver.ContainmentTiers | app_old_full.py:191-213 | first containment match; without one, the keyword pair only for spend-related fragments; else 0 |
| Resolver.ExactIndex | app_old_full.py:184 | the first row whose stripped indicator equals the stripped fragment, or none |
| Resolver.FirstExactUnique | app_old_full.py:184-186 | the first exact match is unique |
| Resolver.TieredValue | app_old_full.py:177-217 | 0 for an empty aggregate; an exact stripped match wins; otherwise the containment and keyword tiers decide |
| Resolver.EmptyAggregateResolvesToZero | app_old_full.py:179-180 | with no rows, both resolvers answer 0 for every fragment |
| Resolver.MissedMentionsAccepted | app_old_full.py:126-127 | "Непринятые ВЗ" contains "Принятые ВЗ" once lower-cased |
| Resolver.ExactTierOverridesEarlierContainment | app_old_full.py:184-197 | with an earlier containing row and a later exactly named row, the substring resolver answers the first and the tiered resolver the second |
| Resolver.TwoRowOverride | app_old_full.py:184-197 | two rows, the first only containing a plain fragment and the second named by it: the resolvers disagree in that way |
| Resolver.AcceptedCallsMisattributed | app_old_full.py:696-697 | with "Непринятые ВЗ" listed before "Принятые ВЗ", the substring resolver reports missed calls as accepted calls; the tiered resolver does not |
| Resolver.TieredAgreesWithSubstring | app_old_full.py:191-197 | without an exact match, and with some row containing the fragment, the two resolvers agree |
| Pattern.CompilePlain | app_old_full.py:192 | a fragment without pattern syntax is searched for literally |
| Pattern.Compile | app_old_full.py:192 | a compiled pattern matches text no longer than itself, and a plain fragment matches itself |
| Pattern.CompileEscape | app_old_full.py:140 | escaping every metacharacter gives a pattern that searches for exactly the original text |
| Pattern.CompileGroup | app_old_full.py:141 | a plain group between plain texts matches the text without its parentheses |
| Pattern.CompileEscapedParens | app_old_full.py:140 | escaped parentheses match literal parentheses |
| Metrics.LeadFragmentsSearchText | app_old_full.py:140-141 | the first leads fragment searches for "Лиды (ИЗ)" and the second for "Лиды ИЗ" |
| Metrics.AcceptanceRate | app_old_full.py:130 | 0 without incoming calls; otherwise accepted/incoming*100 to within the one-decimal rounding step |
| Metrics.AcceptanceRateIsPercentage | app_old_full.py:130 | when accepted does not exceed incoming, the rate lies in [0, 100] |
| Metrics.AcceptanceRateExample | app_old_full.py:130 | 51 of 60 calls accepted is a rate of 85.0 |
| Metrics.CostRatio | app_old_full.py:157-160 | 0 unless both the volume and the spend are positive; otherwise a whole, non-negative number within 0.5 of spend/volume |
| Metrics.FirstNonZero | app_old_full.py:139-145 | an `or` chain yields the first non-zero value, or 0 when all are 0 |
| Metrics.FirstNonZeroIsZeroIff | app_old_full.py:139-145 | the chain is 0 exactly when every value in it is 0 |
| Metrics.FirstNonZeroIndex | app_old_full.py:139-145 | the position of the first non-zero value: it is non-zero and everything before it is 0 |
| Metrics.Leads | app_old_full.py:139-145 | the leads count is the first non-zero tiered total of the five leads fragments in order, and 0 exactly when all five are 0 |
| Metrics.CalculateKeyMetrics | app_old_full.py:121-171 | incoming, accepted and missed calls and the target spend are the tiered resolver's totals; the rate comes from accepted and incoming, the three costs from the spend and leads/visits/deliveries; the record is well formed |
| Metrics.EmptyAggregateGivesDefaults | app_old_full.py:253-264 | an aggregate with no rows yields the all-zero default record, which is well formed |
| Numbers.RoundToInt | app_old_full.py:130 | the nearest integer: within one half, and the floor or the next integer |
| Numbers.Round | app_old_full.py:130 | round(x, digits) is within half a unit of the last kept digit |
| Numbers.RoundMonotone | app_old_full.py:157 | rounding never reverses order |
| Numbers.RoundFixesWhole | app_old_full.py:157 | whole numbers round to themselves |
| Numbers.RoundWithin | app_old_full.py:441 | rounding a value between two whole numbers stays between them |
| Numbers.MeanBounds | app_old_full.py:438 | the mean lies between any bounds of the values |
| Charts.KeepPositive | viz/charts.py:20 | the filter keeps exactly the positive entries and keeps everything when all are positive; one entry is kept or dropped by its sign |
| Charts.KeepPositiveAppend | viz/charts.py:20 | the filter distributes over concatenation, so it keeps the source order and every repeated entry |
| Charts.Resolved | viz/charts.py:15-18 | one entry per name, in order, each with the substring resolver's value |
| Charts.KeepPositiveIdempotent | viz/charts.py:36 | filtering twice drops nothing more |
| Charts.StaffValues | viz/charts.py:15-20 | the first configured staff member's entry if its value is positive, then the second's if positive: config order, with the resolved values |
| Charts.StaffValuesUnfiltered | app_old_full.py:322-330 | one entry per configured name in config order with its resolved value, zeros included; filtering it gives the viz module's values |
| Charts.PositiveOrNone | viz/charts.py:34-38 | none exactly when every resolved value is non-positive; otherwise the order-preserving filter of the resolved entries |
| Charts.InternetPie | viz/charts.py:32-38 | an empty figure exactly when no status is positive; otherwise the positive ones of the three statuses in fixed order, with their resolved values |
| Charts.InternetPieUnfiltered | app_old_full.py:360-369 | all three statuses in fixed order with their resolved values; filtering them gives the viz module's pie |
| Charts.CallsFunnel | viz/charts.py:43-50 | exactly four stages (incoming, accepted, forwarded, missed) with the substring resolver's values |
| Charts.CallsFunnelShowsMissedAsAccepted | app_old_full.py:695-697 | with the missed-calls row first, the accepted stage shows the missed count |
| Charts.SumMentioning | app_old_full.py:509-515 | the sum adds up the total of every row containing the word: a one-row aggregate contributes its total exactly when it mentions the word, and sums over concatenated aggregates add |
| Charts.SumMentioningAppend | app_old_full.py:509-515 | summing over two aggregates concatenated is the sum of the two sums |
| Charts.SumMentioningCoversFirstMention | app_old_full.py:509-515 | with non-negative totals, the sum over every match is at least the first match's total |
| Charts.SalesFunnel | app_old_full.py:494-518 | six stages; traffic is both staff members' forwarded calls plus the two internet-lead rows; contracts and deliveries sum every matching row |
| Charts.SalesFunnelCountsEveryContract | app_old_full.py:509-511 | the contracts stage is never below the first contract row's total |
| Scripts.Parsed | app_old_full.py:420-430 | one cell yields its parsed value or nothing; every parseable cell's value appears and nothing else |
| Scripts.ParsedAppend | app_old_full.py:420-430 | cleaning distributes over concatenation, so values keep the cells' order and multiplicity |
| Scripts.PercentSignIgnored | app_old_full.py:424-426 | a "%" inside a cell does not change the value read from it |
| Scripts.PlainCellIsNumber | app_old_full.py:424-426 | a cell without "%" reads as the number of its stripped text |
| Scripts.CleanValues | app_old_full.py:419-430 | one cell yields its value with "%" removed or nothing; every readable cell's value appears and nothing else |
| Scripts.CleanValuesAppend | app_old_full.py:419-430 | cleaning two runs of cells concatenated is the concatenation of the two cleanings |
| Scripts.ScriptCells | app_old_full.py:416 | matched_row[selected_cols] takes cells only from the matched row, one per (label, column) match |
| Scripts.ScriptCellsArePositional | app_old_full.py:410-416 | for an in-range selection on a frame with distinct labels and no key collision, matched_row[selected_cols] is exactly the row's cells of day columns start..end |
| Scripts.ScriptRow | app_old_full.py:401-416 | the first period row whose indicator contains the script metric, ignoring case |
| Scripts.ScriptAverage | app_old_full.py:398-441 | 0 without a matching period row or readable cells; otherwise the mean of the cleaned cells selected by label, to within one-decimal rounding |
| Scripts.ScriptAverageWithin | app_old_full.py:420-441 | when every parseable cell, and 0, lies in [lo, hi], so does the average |
| Scripts.BandOf | app_old_full.py:448-455 | red below 50, orange from 50 to below 80, green from 80 |
| Scripts.BandMonotone | app_old_full.py:448-455 | a higher percentage never gets a worse band |
| Scripts.ScriptBars | app_old_full.py:444-455 | one bar per configured staff member, in order, with that member's script average and its band |
| Reasons.FirstColumn | app_old_full.py:537-538 | the stripped first-column cell of every row |
| Reasons.BlockStart | app_old_full.py:540-545 | just after the first "ОТКАЗЫ" row, or REASONS_START_ROW when there is none |
| Reasons.BlockEnd | app_old_full.py:547-552 | the first row containing "траты на таргет", or the row count |
| Reasons.ReasonLabels | app_old_full.py:537-557 | the first-column cells from the block start up to the first target-spend row, empty when the block is empty; none is a target-spend row |
| Reasons.PositiveReasons | app_old_full.py:557-561 | exactly the labels whose resolved count is positive, each with its count; one label gives its reason or nothing |
| Reasons.PositiveReasonsAppend | app_old_full.py:557-561 | the filter distributes over concatenation, so reasons keep sheet order and repeated labels stay separate bars |
| Reasons.InsertDescending | app_old_full.py:564 | insertion keeps the order descending and adds exactly the one entry |
| Reasons.SortDescending | app_old_full.py:564 | a descending permutation of the entries |
| Reasons.ReverseDescending | app_old_full.py:566 | reversing a descending order gives an ascending one |
| Reasons.TopAscending | app_old_full.py:563-566 | ascending, min(limit, n) entries taken from the input, every entry left out counts no more than any entry kept, and among equal counts the entries shown are the earliest ones of the input |
| Reasons.ReasonsBar | app_old_full.py:534-566 | ascending; min(MAX_REASONS_DISPLAY, n) of the n positive reasons, all of them when n is within the limit; every reason left out counts no more than any shown, and among equal counts the earliest in the sheet are shown; each shown one is a block label with its positive count |
| Reasons.WithCount | app_old_full.py:563-566 | the entries of one count, in input order: never more than the input, and one entry is kept exactly when it has that count |
| Reasons.SortStable | app_old_full.py:564 | the descending sort keeps the input order among entries of equal count |
| Reasons.TieKeepsEarlier | app_old_full.py:563-564 | two reasons tying for one place: the earlier one is shown |
| Comparison.GetDelta | app_old_full.py:71-77 | "—" exactly when previous is 0; otherwise "+" and green exactly when the change is positive |
| Comparison.DeltaReconstructsCurrent | app_old_full.py:74 | applying the percentage to the previous value gives the current one |
| Comparison.GreenIffRose | app_old_full.py:74-75 | with a positive baseline, green exactly when the metric rose |
| Comparison.NegativeBaselineRiseIsRed | app_old_full.py:74-75 | with a negative baseline, a rise shows red |
| Comparison.ComparisonCards | app_old_full.py:80-103 | four cards (incoming, accepted, rate, spend), each with both periods' values and their delta |
| Comparison.FromStore | app_old_full.py:1215-1216 | an absent or empty store becomes the empty table; otherwise the stored table |
| Comparison.ComparePeriods | app_old_full.py:1218-1229 | each period is processed by its own fresh processor, and its metrics come from its own aggregate |
| Comparison.EmptyTableAggregatesNothing | app_old_full.py:1216 | the empty table has no day columns, so any range produces nothing |
| Comparison.NoBaselineAgainstDefaults | app_old_full.py:72-73 | against the all-zero record every card shows "—" |
| Comparison.AbsentComparisonHasNoBaseline | app_old_full.py:1216-1231 | without a comparison sheet the previous metrics are the defaults and every card shows "—" |
| Comparison.CurrentIndependentOfComparison | app_old_full.py:1218-1226 | the current metrics do not depend on the comparison sheet or range |
| Comparison.Dashboard | app_old_full.py:1231-1270 | no-data exactly when the main aggregate is empty; the error view exactly when the trend chart's series and day axis differ in length; otherwise the cards and each chart are the chart functions applied to the main period |
| Comparison.PanelsShape | app_old_full.py:1231-1270 | in the charts view there are four cards and four calls-funnel stages, and at most MAX_REASONS_DISPLAY reasons in ascending order |
| Comparison.UpdateDashboard | app_old_full.py:1206-1270 | the view is Dashboard over both periods' results and the stored main table; no-data exactly when the main period's aggregate is empty |
| Comparison.SliderRangeShowsCharts | app_old_full.py:1164-1171 | a slider range (1 <= start <= end <= max_day) with data on a frame with distinct labels shows the charts |
| Comparison.RangePastSheetShowsError | app_old_full.py:1249-1270 | a range that runs past the last day column, with data, shows the error view |
| Trend.DayCount | app_old_full.py:645 | the day axis has end - start + 1 days, none when end < start |
| Trend.SeriesLength | app_old_full.py:648-652 | a found metric row gives one value per data_period day column; a missing one gives one 0 per selected label |
| Trend.InRangeSelectsEveryDay | app_old_full.py:1164-1171 | a range inside the sheet selects one label per day |
| Trend.InRangeTrendBuilds | app_old_full.py:645-665 | with distinct labels and a range inside the sheet, all four series are as long as the day axis |
| Trend.RangePastLastDayFails | app_old_full.py:645-665 | with distinct labels, a range past the last day column gives a series shorter than the day axis |
| Comparison.EmptyMainSheetShowsNoData | app_old_full.py:1233-1236 | a missing main sheet always shows the no-data view |
| Loaders.BuildFrame | core/loaders/gsheet_loader.py:41-55 | an empty grid fails; the header is row 0 when a stripped first-row cell is "Модель" or "Показатель", else row 1; labels are stripped and the data rows are the rows after the header |
| Loaders.HeaderLabelsStripped | core/loaders/gsheet_loader.py:52-55 | stripping the labels again changes nothing |
| Loaders.Load | core/loaders/gsheet_loader.py:27-64 | without a forced reload a cached sheet is returned unchanged; otherwise the fetched grid is built and cached on success |
| Loaders.CacheHitIgnoresFetch | core/loaders/gsheet_loader.py:31-33 | a cache hit does not depend on what the sheet now holds |
| Loaders.LoadThenHit | core/loaders/gsheet_loader.py:63 | after a successful load, the next unforced load of that sheet returns the same table |
| Loaders.LoadKeepsOtherSheets | core/loaders/gsheet_loader.py:63 | loading one sheet leaves every other cached sheet as it was |
| Loaders.FirstReportSheet | core/loaders/excel_loader.py:20-24 | the first sheet, in workbook order, whose name starts with "Отчет" |
| Loaders.SelectSheet | core/loaders/excel_loader.py:11-24 | a missing file fails first; a present requested sheet is chosen; otherwise the first "Отчет" sheet, failing when there is none |
| Stock.SplitAgainst | app_old_full.py:1024-1030 | no split exactly when no root prefixes the value; otherwise the first root in list order that does, with the stripped remainder as modification, or "Base" when nothing remains |
| Stock.ExtractModelAndMod | app_old_full.py:1023-1030 | the same for the stripped model cell against the six Porsche roots |
| Stock.ModificationOf | app_old_full.py:1028-1029 | the stripped remainder when it is non-empty, otherwise "Base": never empty and always stripped |
| Stock.RootModelsDistinctInitials | app_old_full.py:1021 | the six roots start with six different characters |
| Stock.SplitAgainstRootAndModification | app_old_full.py:1025-1029 | with distinct initials, "root modification" splits back into the root and the modification |
| Stock.SplitsRootAndModification | app_old_full.py:1023-1029 | a root, a space and a stripped modification split back into the two |
| Stock.BareRootIsBase | app_old_full.py:1028-1029 | a bare root has the modification "Base" |
| Stock.HeaderStatus | app_old_full.py:1040-1043 | a header's status joins its stripped non-empty body number and engine volume with a space |
| Stock.LastHeaderBefore | app_old_full.py:1038-1046 | the last header strictly above a row, or none |
| Stock.PropagateStatus | app_old_full.py:1035-1048 | headers get no status; every other row gets the status of the closest header above it, or none |
| Stock.Statuses | app_old_full.py:1035-1048 | the "Статус" column: none for header rows, the carried header status for cars |
| Dates.IsoRoundTrip | core/processor.py:97 | strftime('%Y-%m-%d') text reads back as the same date |
| Dates.IsoInjective | core/processor.py:97 | different dates have different ISO texts |
| Text.TrimIdempotent | core/loaders/gsheet_loader.py:52-55 | str.strip is idempotent |
| Table.IndicatorColumn | core/processor.py:77 | the first "Показатель" column, or none exactly when there is no such column |

## Left out

- Numbers.Round: the contract states only that the result is within half a unit of the last kept digit. The half-to-even tie rule is in the body (`RoundToInt`) and is not stated as a contract.
- Metrics.AcceptanceRate: the contract bounds the rate to within 0.05 of accepted/incoming*100. It does not state the exact rounded value.
- Scripts.ScriptAverage: the contract bounds the average to within 0.05 of the mean. It does not state the exact rounded value.
- Charts.SalesFunnel: the contract states the traffic, contracts and deliveries stages. The visits, test-drive and offer stages (single resolver lookups) are in the body only.
- Float arithmetic, NaN and number formatting (`:,.0f`, `:.1f`). Values are exact reals. NaN never reaches the aggregate, because of `fillna(0)`.
- Pattern.Compile: regular-expression syntax other than backslash escapes and plain groups is read literally. The fixed metric fragments use nothing else. The refusal-reason labels come from the sheet, and `str.contains` would interpret a `.`, `?`, `+`, `*`, `[`, `|` or a class such as `\d` in them, or raise `re.error` (giving 0). For such labels the model's counts can differ from the source's.
- Case mapping beyond Latin, Latin-1 and Cyrillic letters.
- `pd.to_datetime`, `pd.to_numeric` and `float()`. They are parameters (`Table.Coercion`). One parser stands in for both `pd.to_numeric` and `float()` after `%` removal.
- A table whose own column labels repeat. Label selection handles repeats (`Table.SelectByLabels`), but the stored table passes through `to_dict('records')`, which keeps one column per label, so such a table never reaches the processor. The lemmas about whole periods assume distinct labels for that reason.
- Ragged grids. The loader's grid is assumed rectangular, as `get_all_values` returns it.
- Reasons.TopAscending: the order of equal counts in the displayed list is not stated, because the default `sort_values` sort is not stable. The model sorts stably and reverses; the contract promises only which entries are shown for each count.
- Guards and exception branches for states the model's tables cannot reach. Examples: the checks for a missing "Сумма за период" column, and the `metrics_calculator is None` guard.
- Stock.Statuses: `load_stock_to_store` (app_old_full.py:1009-1050) catches nothing, so the callback fails in three cases the model does not have:
  - the sheet has no "Модель" column (a `KeyError` at line 1024);
  - a header row is reached and the sheet has no "№ кузова" or "Объем двиг" column (a `KeyError` at line 1040);
  - the sheet has no data rows. `df.apply` on a zero-row frame returns the frame itself, and the two-column assignment at line 1032 then raises `ValueError` unless the sheet has exactly two columns.
  In all three cases the model returns one status per row (`Statuses([]) == []` for the empty sheet), where the source builds no "Статус" column.
- `find_target_spending_alternative`. Its definition is not part of this model. The dashboard never passes `data_period`, so only the standard spend path is modelled.
- The trend chart's values, its moving average and `np.polyfit`, which are floating-point numerics. Only the lengths of its day axis and series are modelled.
- Plotly's "percent previous" funnel text, which the library computes.
- Figures, layouts, callbacks other than `update_dashboard`, and the period title text.
- The unreachable code after a return in `MetricsCalculator`, and the unused helpers `_find_metric_average_daily` and `extract_mod`.
- Google authentication, gspread fetching, `list_sheets`, file existence and `pd.read_excel`. The fetched grid, the sheet names and whether the file exists are parameters.
- The Excel-backed `DataProcessor` constructor. The dashboard only loads processors from Google Sheets tables.
- Logging and print statements.

=== FILE: charts.dfy ===
/**
 The values behind the dashboard's charts, without the figures: staff
 forwarding counts, internet-lead statuses, the calls funnel and the sales
 funnel. The viz module (viz/charts.py) and the older ChartGenerator
 (app_old_full.py) both read values through the substring resolver; they
 differ in whether non-positive entries are dropped. The viz module's
 lookup has no exception guard, so a fragment that failed to compile would
 raise there instead of giving 0; every name it is given is plain text
 (FixedNamesPlain), so on those names the two agree.
 */
module Charts {
  import opened Wrappers
  import opened Table
  import opened Config
  import Resolver
  import Pattern

  /** One bar, slice or funnel stage: its caption and its value. */
  datatype Entry = Entry(name: string, value: real)

  /** Each name with the substring resolver's value for it, in the given order. */
  function Resolved(agg: Aggregate, names: seq<string>): (r: seq<Entry>)
    ensures |r| == |names|
    ensures forall k :: 0 <= k < |names| ==> r[k].name == names[k] && r[k].value == Resolver.SubstringValue(agg, names[k])
  {
    seq(|names|, k requires 0 <= k < |names| => Entry(names[k], Resolver.SubstringValue(agg, names[k])))
  }

  /** One entry if its value is positive, none otherwise. */
  function KeptIf(e: Entry): seq<Entry> {
    if e.value > 0.0 then [e] else []
  }

  /** df[df[value] > 0]: the entries with a positive value, in their original order. */
  function KeepPositive(es: seq<Entry>): (r: seq<Entry>)
    ensures |r| <= |es|
    ensures forall e :: e in r <==> e in es && e.value > 0.0
    ensures (forall i :: 0 <= i < |es| ==> es[i].value > 0.0) ==> r == es
    ensures |es| == 1 ==> r == KeptIf(es[0])
  {
    if |es| == 0 then []
    else if es[0].value > 0.0 then [es[0]] + KeepPositive(es[1..])
    else KeepPositive(es[1..])
  }

  /** Filtering a concatenation filters each part and keeps their order. */
  lemma {:induction false} KeepPositiveAppend(a: seq<Entry>, b: seq<Entry>)
    ensures KeepPositive(a + b) == KeepPositive(a) + KeepPositive(b)
  {
    if |a| == 0 {
      assert a + b == b;
    } else {
      assert (a + b)[0] == a[0] && (a + b)[1..] == a[1..] + b;
      KeepPositiveAppend(a[1..], b);
    }
  }

  /** Filtering two entries keeps each positive one, in order. */
  lemma KeepPositivePair(e0: Entry, e1: Entry)
    ensures KeepPositive([e0, e1]) == KeptIf(e0) + KeptIf(e1)
  {
    KeepPositiveAppend([e0], [e1]);
    assert [e0, e1] == [e0] + [e1];
  }

  /** Filtering three entries keeps each positive one, in order. */
  lemma KeepPositiveTriple(e0: Entry, e1: Entry, e2: Entry)
    ensures KeepPositive([e0, e1, e2]) == KeptIf(e0) + KeptIf(e1) + KeptIf(e2)
  {
    KeepPositivePair(e0, e1);
    KeepPositiveAppend([e0, e1], [e2]);
    assert [e0, e1, e2] == [e0, e1] + [e2];
  }

  /** Dropping non-positive entries twice drops nothing more. */
  lemma KeepPositiveIdempotent(es: seq<Entry>)
    ensures KeepPositive(KeepPositive(es)) == KeepPositive(es)
  {
    var r := KeepPositive(es);
    assert forall i :: 0 <= i < |r| ==> r[i].value > 0.0 by {
      forall i | 0 <= i < |r|
        ensures r[i].value > 0.0
      {
        assert r[i] in r;
      }
    }
  }

  /** The entry the charts show for `name`. */
  function EntryFor(agg: Aggregate, name: string): Entry {
    Entry(name, Resolver.SubstringValue(agg, name))
  }

  /** make_staff_charts: forwarded-call counts per staff member, config order, non-positive ones dropped. */
  function StaffValues(agg: Aggregate): (r: seq<Entry>)
    ensures r == KeptIf(EntryFor(agg, StaffNames[0])) + KeptIf(EntryFor(agg, StaffNames[1]))
    ensures forall e :: e in r ==> e.name in StaffNames && e.value > 0.0 && e.value == Resolver.SubstringValue(agg, e.name)
    ensures forall n :: n in StaffNames && Resolver.SubstringValue(agg, n) > 0.0 ==> Entry(n, Resolver.SubstringValue(agg, n)) in r
  {
    var all := Resolved(agg, StaffNames);
    assert all == [EntryFor(agg, StaffNames[0]), EntryFor(agg, StaffNames[1])];
    KeepPositivePair(EntryFor(agg, StaffNames[0]), EntryFor(agg, StaffNames[1]));
    KeepPositive(all)
  }

  /** ChartGenerator.create_staff_charts: one entry per staff member, zero ones kept. */
  function StaffValuesUnfiltered(agg: Aggregate): (r: seq<Entry>)
    ensures |r| == |StaffNames|
    ensures forall k :: 0 <= k < |r| ==> r[k].name == StaffNames[k] && r[k].value == Resolver.SubstringValue(agg, StaffNames[k])
    ensures KeepPositive(r) == StaffValues(agg)
  {
    Resolved(agg, StaffNames)
  }

  /** The three internet-lead statuses, in pie order. */
  const InternetLeadStatuses: seq<string> := ["Дозвонились ИЗ", "Не обработаны ИЗ", "Не дозвонились ИЗ"]

  /** The positive entries for `names`, in order, or None when none is positive. */
  function PositiveOrNone(agg: Aggregate, names: seq<string>): (r: Option<seq<Entry>>)
    ensures r.None? <==> forall k :: 0 <= k < |names| ==> Resolver.SubstringValue(agg, names[k]) <= 0.0
    ensures r.Some? ==> r.value == KeepPositive(Resolved(agg, names)) && 0 < |r.value| <= |names|
    ensures r.Some? ==> forall e :: e in r.value ==> e.name in names && e.value > 0.0
  {
    var all := Resolved(agg, names);
    var kept := KeepPositive(all);
    if |kept| == 0 then
      assert forall k :: 0 <= k < |names| ==> Resolver.SubstringValue(agg, names[k]) <= 0.0 by {
        forall k | 0 <= k < |names|
          ensures Resolver.SubstringValue(agg, names[k]) <= 0.0
        {
          assert all[k] in all && all[k] !in kept;
        }
      }
      None
    else
      assert kept[0] in all;
      Some(kept)
  }

  /**
   make_internet_pie: the positive statuses in pie order, or None (an empty
   figure) when none is positive.
   */
  function InternetPie(agg: Aggregate): (r: Option<seq<Entry>>)
    ensures r.None? <==> forall k :: 0 <= k < |InternetLeadStatuses| ==> Resolver.SubstringValue(agg, InternetLeadStatuses[k]) <= 0.0
    ensures r.Some? ==>
      r.value == KeptIf(EntryFor(agg, InternetLeadStatuses[0])) + KeptIf(EntryFor(agg, InternetLeadStatuses[1]))
                 + KeptIf(EntryFor(agg, InternetLeadStatuses[2]))
    ensures r.Some? ==> forall e :: e in r.value ==> e.name in InternetLeadStatuses && e.value > 0.0
  {
    var e0, e1, e2 := EntryFor(agg, InternetLeadStatuses[0]), EntryFor(agg, InternetLeadStatuses[1]), EntryFor(agg, InternetLeadStatuses[2]);
    assert Resolved(agg, InternetLeadStatuses) == [e0, e1, e2];
    KeepPositiveTriple(e0, e1, e2);
    PositiveOrNone(agg, InternetLeadStatuses)
  }

  /** ChartGenerator.create_internet_pie: all three statuses, zero or not. */
  function InternetPieUnfiltered(agg: Aggregate): (r: seq<Entry>)
    ensures |r| == |InternetLeadStatuses|
    ensures forall k :: 0 <= k < |r| ==>
      r[k].name == InternetLeadStatuses[k] && r[k].value == Resolver.SubstringValue(agg, InternetLeadStatuses[k])
    ensures InternetPie(agg) == if |KeepPositive(r)| == 0 then None else Some(KeepPositive(r))
  {
    Resolved(agg, InternetLeadStatuses)
  }

  /** Captions and search fragments of the calls funnel, in stage order. */
  const CallsFunnelCaptions: seq<string> := ["Всего входящих", "Принятые ВЗ", "Переадресованные успешно ВЗ", "Непринятые ВЗ"]
  const CallsFunnelFragments: seq<string> := ["Входящие звонки - ВЗ", "Принятые ВЗ", "Переадресованные успешно ВЗ", "Непринятые ВЗ"]

  /** make_calls_funnel / create_calls_funnel: exactly four stages in fixed order. */
  function CallsFunnel(agg: Aggregate): (r: seq<Entry>)
    ensures |r| == 4
    ensures forall k :: 0 <= k < 4 ==> r[k].name == CallsFunnelCaptions[k]
    ensures forall k :: 0 <= k < 4 ==> r[k].value == Resolver.SubstringValue(agg, CallsFunnelFragments[k])
  {
    seq(4, k requires 0 <= k < 4 => Entry(CallsFunnelCaptions[k], Resolver.SubstringValue(agg, CallsFunnelFragments[k])))
  }

  /** With the missed-calls row listed first, the funnel's accepted stage shows the missed count. */
  lemma CallsFunnelShowsMissedAsAccepted(missed: real, accepted: real)
    ensures CallsFunnel([AggRow("Непринятые ВЗ", missed), AggRow("Принятые ВЗ", accepted)])[1].value == missed
  {
    var agg := [AggRow("Непринятые ВЗ", missed), AggRow("Принятые ВЗ", accepted)];
    assert CallsFunnelFragments[1] == "Принятые ВЗ";
    assert CallsFunnel(agg)[1].value == Resolver.SubstringValue(agg, "Принятые ВЗ");
    Resolver.AcceptedCallsMisattributed(missed, accepted);
  }

  /** Sum of the totals of every row whose indicator contains `word`, ignoring case. */
  function SumMentioning(agg: Aggregate, word: string): (r: real)
    ensures Resolver.NoMention(agg, word) ==> r == 0.0
    ensures (forall i :: 0 <= i < |agg| ==> agg[i].total >= 0.0) ==> r >= 0.0
    ensures |agg| == 1 ==> r == if Resolver.Mentions(agg[0], word) then agg[0].total else 0.0
  {
    if |agg| == 0 then 0.0
    else
      assert forall j :: 1 <= j < |agg| ==> agg[1..][j - 1] == agg[j];
      (if Resolver.Mentions(agg[0], word) then agg[0].total else 0.0) + SumMentioning(agg[1..], word)
  }

  /** The sum over a concatenation is the sum over each part: every mentioning row counts once. */
  lemma {:induction false} SumMentioningAppend(a: Aggregate, b: Aggregate, word: string)
    ensures SumMentioning(a + b, word) == SumMentioning(a, word) + SumMentioning(b, word)
  {
    if |a| == 0 {
      assert a + b == b;
    } else {
      assert (a + b)[0] == a[0] && (a + b)[1..] == a[1..] + b;
      SumMentioningAppend(a[1..], b, word);
    }
  }

  /**
   With non-negative totals, summing every mentioning row is at least the
   first mention's total, which is all the substring resolver reports.
   */
  lemma {:induction false} SumMentioningCoversFirstMention(agg: Aggregate, word: string)
    requires forall i :: 0 <= i < |agg| ==> agg[i].total >= 0.0
    ensures SumMentioning(agg, word) >= Resolver.FirstMentionTotal(agg, word)
  {
    if |agg| > 0 {
      var tail := agg[1..];
      assert forall i :: 0 <= i < |tail| ==> tail[i] == agg[i + 1];
      if Resolver.Mentions(agg[0], word) {
        assert Resolver.FirstMention(agg, 0, word);
      } else {
        SumMentioningCoversFirstMention(tail, word);
        if Resolver.NoMention(tail, word) {
          assert Resolver.NoMention(agg, word);
        } else {
          var i :| 0 <= i < |tail| && Resolver.Mentions(tail[i], word);
          var f := Resolver.FirstWhere(tail, (row: AggRow) => Resolver.Mentions(row, word));
          assert f.Some?;
          assert Resolver.FirstMention(tail, f.value, word);
          assert Resolver.FirstMention(agg, f.value + 1, word);
        }
      }
    }
  }

  /** The two staff members whose forwarded calls count toward total traffic. */
  const TrafficStaff: seq<string> := ["Мади", "Алишер"]

  /** create_sales_funnel: total traffic, visits, test drives, offers, then every contract and every delivery row summed. */
  function SalesFunnel(agg: Aggregate): (r: seq<Entry>)
    ensures |r| == 6
    ensures r[0].value == Resolver.SubstringValue(agg, "Переадресованные успешно ВЗ " + TrafficStaff[0])
      + Resolver.SubstringValue(agg, "Переадресованные успешно ВЗ " + TrafficStaff[1])
      + Resolver.SubstringValue(agg, "ИНТЕРНЕТ ЗАЯВКИ - ИЗ")
      + Resolver.SubstringValue(agg, "ИНТЕРНЕТ ЗАЯВКИ Импортер - ИЗ")
    ensures r[4].value == SumMentioning(agg, "Контракт") && r[5].value == SumMentioning(agg, "Выдач")
  {
    var forwarded := Resolver.SubstringValue(agg, "Переадресованные успешно ВЗ " + TrafficStaff[0])
      + Resolver.SubstringValue(agg, "Переадресованные успешно ВЗ " + TrafficStaff[1]);
    var traffic := forwarded + Resolver.SubstringValue(agg, "ИНТЕРНЕТ ЗАЯВКИ - ИЗ")
      + Resolver.SubstringValue(agg, "ИНТЕРНЕТ ЗАЯВКИ Импортер - ИЗ");
    [ Entry("Общий трафик", traffic),
      Entry("Визиты", Resolver.SubstringValue(agg, "Визиты")),
      Entry("Тест-драйвы", Resolver.SubstringValue(agg, "Тест-драйвы")),
      Entry("Коммерческие предложения", Resolver.SubstringValue(agg, "КОММЕРЧЕСКОЕ ПРЕДЛОЖЕНИЕ")),
      Entry("Контракты", SumMentioning(agg, "Контракт")),
      Entry("Выдачи", SumMentioning(agg, "Выдач")) ]
  }

  /**
   The contracts stage counts every contract row: with non-negative totals it
   is never below what the substring resolver would report for "Контракт".
   */
  lemma SalesFunnelCountsEveryContract(agg: Aggregate)
    requires forall i :: 0 <= i < |agg| ==> agg[i].total >= 0.0
    ensures SalesFunnel(agg)[4].value >= Resolver.SubstringValue(agg, "Контракт")
  {
    Pattern.CompilePlain("Контракт");
    SumMentioningCoversFirstMention(agg, "Контракт");
  }

  /** Every name the charts look up is plain text, so it compiles to itself. */
  lemma FixedNamesPlain()
    ensures forall k :: 0 <= k < |StaffNames| ==> Pattern.Plain(StaffNames[k])
    ensures forall k :: 0 <= k < |InternetLeadStatuses| ==> Pattern.Plain(InternetLeadStatuses[k])
    ensures forall k :: 0 <= k < |CallsFunnelFragments| ==> Pattern.Plain(CallsFunnelFragments[k])
  {
  }
}

=== FILE: comparison.dfy ===
/**
 Period comparison and the dashboard update (update_dashboard): both sheets
 are run through independent processors, the key metrics of each period are
 computed, and the comparison cards show the change of each headline metric.
 When the main period has no aggregate the dashboard shows a no-data notice
 instead of its charts; when building a chart raises (the calls trend, whose
 day axis must be as long as its series), it shows its error notice.
 */
module Comparison {
  import opened Wrappers
  import opened Table
  import opened Processor
  import opened Metrics
  import Charts
  import Scripts
  import Reasons
  import Config
  import Trend

  /** Colour of a delta: green for a rise, red otherwise. */
  datatype Tone = Green | Red

  /** get_delta: "—" without a baseline, else the percentage change with its sign text and colour. */
  datatype Delta = NoBaseline | Change(percent: real, sign: string, tone: Tone)

  function GetDelta(current: real, previous: real): (d: Delta)
    ensures d.NoBaseline? <==> previous == 0.0
    ensures d.Change? ==> (d.sign == "+" <==> d.percent > 0.0) && (d.sign == "" <==> d.percent <= 0.0)
    ensures d.Change? ==> (d.tone == Green <==> d.percent > 0.0)
  {
    if previous == 0.0 then NoBaseline
    else
      var delta := (current - previous) / previous * 100.0;
      Change(delta, if delta > 0.0 then "+" else "", if delta > 0.0 then Green else Red)
  }

  /** The percentage is a true relative change: applying it to the previous value gives the current one. */
  lemma DeltaReconstructsCurrent(current: real, previous: real)
    requires previous != 0.0
    ensures previous + previous * GetDelta(current, previous).percent / 100.0 == current
  {
    var delta := (current - previous) / previous * 100.0;
    assert previous * delta / 100.0 == current - previous;
  }

  /** With a positive baseline, the delta is green exactly when the metric rose. */
  lemma GreenIffRose(current: real, previous: real)
    requires previous > 0.0
    ensures GetDelta(current, previous).tone == Green <==> current > previous
  {
    var delta := (current - previous) / previous * 100.0;
    if current > previous {
      assert (current - previous) / previous > 0.0;
    } else {
      assert (current - previous) / previous <= 0.0;
    }
  }

  /** With a negative baseline the sign flips: a rise shows as a red, negative change. */
  lemma NegativeBaselineRiseIsRed(current: real, previous: real)
    requires previous < 0.0 && current > previous
    ensures GetDelta(current, previous).tone == Red
  {
    assert (current - previous) / previous < 0.0;
  }

  /** One comparison card: the metric caption, both values and the delta. */
  datatype Card = Card(caption: string, current: real, previous: real, delta: Delta)

  /** create_comparison_metrics_cards: incoming, accepted, acceptance rate and spend, in that order. */
  function ComparisonCards(cur: KeyMetrics, prev: KeyMetrics): (cards: seq<Card>)
    ensures |cards| == 4
    ensures cards[0].current == cur.totalIncoming && cards[0].previous == prev.totalIncoming
    ensures cards[1].current == cur.totalAccepted && cards[1].previous == prev.totalAccepted
    ensures cards[2].current == cur.acceptanceRate && cards[2].previous == prev.acceptanceRate
    ensures cards[3].current == cur.targetAdsSpend && cards[3].previous == prev.targetAdsSpend
    ensures forall k :: 0 <= k < 4 ==> cards[k].delta == GetDelta(cards[k].current, cards[k].previous)
  {
    [ Card("Входящие звонки", cur.totalIncoming, prev.totalIncoming, GetDelta(cur.totalIncoming, prev.totalIncoming)),
      Card("Принято звонков", cur.totalAccepted, prev.totalAccepted, GetDelta(cur.totalAccepted, prev.totalAccepted)),
      Card("Процент принятых", cur.acceptanceRate, prev.acceptanceRate, GetDelta(cur.acceptanceRate, prev.acceptanceRate)),
      Card("Траты на таргет", cur.targetAdsSpend, prev.targetAdsSpend, GetDelta(cur.targetAdsSpend, prev.targetAdsSpend)) ]
  }

  /** pd.DataFrame(store) for a dcc.Store of records: absent or empty records give the empty table. */
  function FromStore(store: Option<Frame>): (f: Frame)
    ensures store.None? || |store.value.rows| == 0 ==> f == EmptyFrame
    ensures store.Some? && |store.value.rows| > 0 ==> f == store.value
  {
    match store
    case Some(g) => if |g.rows| == 0 then EmptyFrame else g
    case None => EmptyFrame
  }

  /** Both periods' key metrics, each from its own freshly built processor. */
  datatype PeriodPair = PeriodPair(current: PeriodResult, previous: PeriodResult, metricsCurrent: KeyMetrics, metricsPrevious: KeyMetrics)

  /** The part of update_dashboard before the no-data check. */
  function ComparePeriods(co: Coercion, mainStore: Option<Frame>, compareStore: Option<Frame>,
                          start: int, end: int, compareStart: int, compareEnd: int): (pp: PeriodPair)
    ensures pp.current == ProcessData(co, FromStore(mainStore), start, end)
    ensures pp.previous == ProcessData(co, FromStore(compareStore), compareStart, compareEnd)
    ensures pp.metricsCurrent == CalculateKeyMetrics(pp.current.aggregate)
    ensures pp.metricsPrevious == CalculateKeyMetrics(pp.previous.aggregate)
  {
    var (_, cur) := Process(co, FreshProcessor(FromStore(mainStore)), start, end);
    var (_, prev) := Process(co, FreshProcessor(FromStore(compareStore)), compareStart, compareEnd);
    PeriodPair(cur, prev, CalculateKeyMetrics(cur.aggregate), CalculateKeyMetrics(prev.aggregate))
  }

  /** The empty table has no day columns, so any range selects nothing and aggregates nothing. */
  lemma EmptyTableAggregatesNothing(co: Coercion, start: int, end: int)
    ensures ProcessData(co, EmptyFrame, start, end) == NoPeriod
  {
    assert MaxDay(EmptyFrame) == 0;
    assert |SelectedDays(co, EmptyFrame, start, end)| == 0;
  }

  /** Against the all-zero record every card shows "—". */
  lemma NoBaselineAgainstDefaults(cur: KeyMetrics)
    ensures forall c :: c in ComparisonCards(cur, DefaultMetrics) ==> c.delta == NoBaseline
  {
    var cards := ComparisonCards(cur, DefaultMetrics);
    assert forall k :: 0 <= k < 4 ==> cards[k].previous == 0.0;
  }

  /**
   Without a comparison sheet the previous metrics are all zero and every
   comparison card shows "—".
   */
  lemma AbsentComparisonHasNoBaseline(co: Coercion, mainStore: Option<Frame>, start: int, end: int, compareStart: int, compareEnd: int)
    ensures ComparePeriods(co, mainStore, None, start, end, compareStart, compareEnd).metricsPrevious == DefaultMetrics
    ensures var pp := ComparePeriods(co, mainStore, None, start, end, compareStart, compareEnd);
      forall c :: c in ComparisonCards(pp.metricsCurrent, pp.metricsPrevious) ==> c.delta == NoBaseline
  {
    var pp := ComparePeriods(co, mainStore, None, start, end, compareStart, compareEnd);
    EmptyTableAggregatesNothing(co, compareStart, compareEnd);
    assert pp.previous.aggregate == [];
    EmptyAggregateGivesDefaults();
    assert pp.metricsPrevious == DefaultMetrics;
    NoBaselineAgainstDefaults(pp.metricsCurrent);
  }

  /** The current period's metrics do not depend on the comparison sheet or range. */
  lemma CurrentIndependentOfComparison(co: Coercion, mainStore: Option<Frame>, start: int, end: int,
                                       store1: Option<Frame>, s1: int, e1: int, store2: Option<Frame>, s2: int, e2: int)
    ensures ComparePeriods(co, mainStore, store1, start, end, s1, e1).metricsCurrent
         == ComparePeriods(co, mainStore, store2, start, end, s2, e2).metricsCurrent
  {
  }

  /** What the dashboard shows: a no-data notice, the error notice, or the cards and every chart's values. */
  datatype View =
    | NoData
    | Failed
    | Panels(cards: seq<Card>,
             callsFunnel: seq<Charts.Entry>,
             staff: seq<Charts.Entry>,
             internetLeads: seq<Charts.Entry>,
             scripts: seq<Scripts.ScriptBar>,
             salesFunnel: seq<Charts.Entry>,
             reasons: seq<Reasons.Reason>)

  /** The period of a processing result has one cell row per indicator. */
  lemma PeriodShape(co: Coercion, f: Frame, start: int, end: int)
    ensures |ProcessData(co, f, start, end).period.indicators| == |ProcessData(co, f, start, end).period.cells|
  {
  }

  /**
   The view for both periods' results over the main sheet `f` and the main
   range: no data without a main aggregate; the error notice when the calls
   trend cannot be built; else the cards and the main period's charts.
   */
  function Dashboard(co: Coercion, pp: PeriodPair, f: Frame, start: int, end: int): (v: View)
    requires |pp.current.period.indicators| == |pp.current.period.cells|
    ensures v.NoData? <==> |pp.current.aggregate| == 0
    ensures v.Failed? <==>
      |pp.current.aggregate| > 0 && !Trend.TrendBuilds(pp.current.period, SelectedLabels(co, f, start, end), start, end)
    ensures v.Panels? ==> v.cards == ComparisonCards(pp.metricsCurrent, pp.metricsPrevious)
    ensures v.Panels? ==> v.callsFunnel == Charts.CallsFunnel(pp.current.aggregate)
    ensures v.Panels? ==> v.staff == Charts.StaffValuesUnfiltered(pp.current.aggregate)
    ensures v.Panels? ==> v.internetLeads == Charts.InternetPieUnfiltered(pp.current.aggregate)
    ensures v.Panels? ==> v.scripts == Scripts.ScriptBars(co, pp.current.period, SelectedLabels(co, f, start, end))
    ensures v.Panels? ==> v.salesFunnel == Charts.SalesFunnel(pp.current.aggregate)
    ensures v.Panels? ==> v.reasons == Reasons.ReasonsBar(pp.current.aggregate, f)
  {
    var agg := pp.current.aggregate;
    var keys := SelectedLabels(co, f, start, end);
    if |agg| == 0 then NoData
    else if !Trend.TrendBuilds(pp.current.period, keys, start, end) then Failed
    else
      Panels(ComparisonCards(pp.metricsCurrent, pp.metricsPrevious),
             Charts.CallsFunnel(agg),
             Charts.StaffValuesUnfiltered(agg),
             Charts.InternetPieUnfiltered(agg),
             Scripts.ScriptBars(co, pp.current.period, keys),
             Charts.SalesFunnel(agg),
             Reasons.ReasonsBar(agg, f))
  }

  /** The charts view has four cards, a four-stage calls funnel and at most MaxReasonsDisplay reasons in ascending order. */
  lemma PanelsShape(co: Coercion, pp: PeriodPair, f: Frame, start: int, end: int)
    requires |pp.current.period.indicators| == |pp.current.period.cells|
    ensures var v := Dashboard(co, pp, f, start, end);
      v.Panels? ==> |v.cards| == 4 && |v.callsFunnel| == 4 && |v.reasons| <= Config.MaxReasonsDisplay
    ensures var v := Dashboard(co, pp, f, start, end);
      v.Panels? ==> Reasons.Ascending(v.reasons)
  {
    var v := Dashboard(co, pp, f, start, end);
    if v.Panels? {
      var reasons := Reasons.ReasonsBar(pp.current.aggregate, f);
      assert v.reasons == reasons;
      assert |reasons| <= Config.MaxReasonsDisplay;
    }
  }

  /** The main period of a comparison has one cell row per indicator. */
  lemma ComparePeriodsShape(co: Coercion, mainStore: Option<Frame>, compareStore: Option<Frame>,
                            start: int, end: int, compareStart: int, compareEnd: int)
    ensures var pp := ComparePeriods(co, mainStore, compareStore, start, end, compareStart, compareEnd);
      |pp.current.period.indicators| == |pp.current.period.cells|
  {
    PeriodShape(co, FromStore(mainStore), start, end);
  }

  /** update_dashboard: the view of both periods, charts from the main sheet and range, cards from both. */
  function UpdateDashboard(co: Coercion, mainStore: Option<Frame>, compareStore: Option<Frame>,
                           start: int, end: int, compareStart: int, compareEnd: int): (v: View)
    ensures var pp := ComparePeriods(co, mainStore, compareStore, start, end, compareStart, compareEnd);
      && |pp.current.period.indicators| == |pp.current.period.cells|
      && v == Dashboard(co, pp, FromStore(mainStore), start, end)
    ensures var pp := ComparePeriods(co, mainStore, compareStore, start, end, compareStart, compareEnd);
      v.NoData? <==> |pp.current.aggregate| == 0
  {
    ComparePeriodsShape(co, mainStore, compareStore, start, end, compareStart, compareEnd);
    Dashboard(co, ComparePeriods(co, mainStore, compareStore, start, end, compareStart, compareEnd), FromStore(mainStore), start, end)
  }

  /** A main sheet with no rows always shows the no-data notice. */
  lemma EmptyMainSheetShowsNoData(co: Coercion, compareStore: Option<Frame>, start: int, end: int, compareStart: int, compareEnd: int)
    ensures UpdateDashboard(co, None, compareStore, start, end, compareStart, compareEnd) == NoData
  {
    EmptyTableAggregatesNothing(co, start, end);
  }

  /**
   With a main aggregate, a main sheet whose column labels are distinct and
   a main range inside that sheet (what the day slider offers), the
   dashboard shows its charts.
   */
  lemma SliderRangeShowsCharts(co: Coercion, mainStore: Option<Frame>, compareStore: Option<Frame>,
                               start: int, end: int, compareStart: int, compareEnd: int)
    requires DistinctLabels(FromStore(mainStore).columns)
    requires 1 <= start <= end <= MaxDay(FromStore(mainStore))
    requires |ProcessData(co, FromStore(mainStore), start, end).aggregate| > 0
    ensures UpdateDashboard(co, mainStore, compareStore, start, end, compareStart, compareEnd).Panels?
  {
    var f := FromStore(mainStore);
    assert IndicatorColumn(f).Some?;
    Trend.InRangeTrendBuilds(co, f, start, end);
  }

  /**
   A main range running past the last day column of a sheet with distinct
   labels, with a main aggregate, shows the error notice.
   */
  lemma RangePastSheetShowsError(co: Coercion, mainStore: Option<Frame>, compareStore: Option<Frame>,
                                 start: int, end: int, compareStart: int, compareEnd: int)
    requires DistinctLabels(FromStore(mainStore).columns)
    requires 1 <= start <= MaxDay(FromStore(mainStore)) < end
    requires |ProcessData(co, FromStore(mainStore), start, end).aggregate| > 0
    ensures UpdateDashboard(co, mainStore, compareStore, start, end, compareStart, compareEnd) == Failed
  {
    var f := FromStore(mainStore);
    assert IndicatorColumn(f).Some?;
    Trend.RangePastLastDayFails(co, f, start, end);
  }
}

=== FILE: config.dfy ===
/** The dashboard's configuration constants (config.py). */
module Config {

  /** Staff whose forwarded calls and script compliance are charted, in display order. */
  const StaffNames: seq<string> := ["Мади", "Ильяс"]

  /** Row index at which the refusal-reasons block starts when no "ОТКАЗЫ" marker row exists. */
  const ReasonsStartRow: nat := 37

  /** Largest number of refusal reasons shown. */
  const MaxReasonsDisplay: nat := 10
}

=== FILE: dates.dfy ===
/**
 Calendar dates and their ISO text form "YYYY-MM-DD", the form
 strftime('%Y-%m-%d') produces for the dates pandas can hold.
 */
module Dates {
  import opened Wrappers

  predicate LeapYear(y: int) {
    (y % 4 == 0 && y % 100 != 0) || y % 400 == 0
  }

  function DaysInMonth(y: int, m: int): int {
    if m == 2 then (if LeapYear(y) then 29 else 28)
    else if m == 4 || m == 6 || m == 9 || m == 11 then 30
    else 31
  }

  datatype Date = Date(year: int, month: int, day: int) {
    /** A real calendar day with a four-digit year (pandas timestamps span 1677 to 2262). */
    predicate Valid() {
      && 1000 <= year <= 9999
      && 1 <= month <= 12
      && 1 <= day <= DaysInMonth(year, month)
    }
  }

  type CalendarDate = d: Date | d.Valid() witness Date(1970, 1, 1)

  function Pow10(w: nat): (r: nat)
    ensures r >= 1
  {
    if w == 0 then 1 else 10 * Pow10(w - 1)
  }

  function DigitChar(n: nat): (c: char)
    requires n < 10
  {
    ('0' as int + n) as char
  }

  function DigitValue(c: char): Option<nat> {
    if '0' <= c <= '9' then Some(c as int - '0' as int) else None
  }

  /** `n` written in decimal with leading zeros to exactly `width` digits. */
  function PadDigits(n: nat, width: nat): (r: string)
    ensures |r| == width
  {
    if width == 0 then "" else PadDigits(n / 10, width - 1) + [DigitChar(n % 10)]
  }

  /** The value of a string of decimal digits, or None if some character is not a digit. */
  function ReadDigits(s: string): Option<nat> {
    if |s| == 0 then Some(0)
    else match (ReadDigits(s[..|s| - 1]), DigitValue(s[|s| - 1]))
      case (Some(high), Some(low)) => Some(high * 10 + low)
      case _ => None
  }

  /** Reading back a zero-padded number gives the number. */
  lemma {:induction false} ReadPadDigits(n: nat, width: nat)
    requires n < Pow10(width)
    ensures ReadDigits(PadDigits(n, width)) == Some(n)
  {
    if width > 0 {
      var s := PadDigits(n, width);
      var high, low := n / 10, n % 10;
      assert n == high * 10 + low;
      assert high < Pow10(width - 1);
      assert s[..|s| - 1] == PadDigits(high, width - 1);
      assert DigitValue(s[|s| - 1]) == Some(low);
      ReadPadDigits(high, width - 1);
    }
  }

  /** strftime('%Y-%m-%d'). */
  function Iso(d: CalendarDate): (r: string)
    ensures |r| == 10 && r[4] == '-' && r[7] == '-'
  {
    PadDigits(d.year, 4) + "-" + PadDigits(d.month, 2) + "-" + PadDigits(d.day, 2)
  }

  /** Reads "YYYY-MM-DD" back into its three numbers. */
  function ParseIso(s: string): Option<Date> {
    if |s| != 10 || s[4] != '-' || s[7] != '-' then None
    else match (ReadDigits(s[..4]), ReadDigits(s[5..7]), ReadDigits(s[8..]))
      case (Some(y), Some(m), Some(d)) => Some(Date(y, m, d))
      case _ => None
  }

  /** The ISO text of a date determines the date. */
  lemma IsoRoundTrip(d: CalendarDate)
    ensures ParseIso(Iso(d)) == Some(d)
  {
    var s := Iso(d);
    assert s[..4] == PadDigits(d.year, 4);
    assert s[5..7] == PadDigits(d.month, 2);
    assert s[8..] == PadDigits(d.day, 2);
    ReadPadDigits(d.year, 4);
    ReadPadDigits(d.month, 2);
    ReadPadDigits(d.day, 2);
  }

  /** Distinct dates have distinct ISO texts. */
  lemma IsoInjective(d1: CalendarDate, d2: CalendarDate)
    requires Iso(d1) == Iso(d2)
    ensures d1 == d2
  {
    IsoRoundTrip(d1);
    IsoRoundTrip(d2);
  }
}

=== FILE: loaders.dfy ===
/**
 Ingestion rules: building a table from a Google Sheets grid
 (GoogleSheetsLoader.load) with its per-sheet cache, and choosing the sheet
 of an Excel workbook (ExcelLoader.load). Fetching, authentication and file
 access are outside the model: the fetched grid, the workbook's sheet names
 and whether the file exists are parameters.
 */
module Loaders {
  import opened Wrappers
  import opened Text
  import opened Table

  /** Why a load fails. */
  datatype LoadError =
    | EmptySheet       // ValueError("Лист пуст")
    | MissingHeaderRow // values[1] on a one-row grid raises IndexError
    | FileNotFound     // the workbook path does not exist
    | NoReportSheet    // no sheet name starts with "Отчет"

  /** Every row of the grid has the same number of cells, as get_all_values returns it. */
  predicate RectangularGrid(values: seq<seq<string>>) {
    forall i, j :: 0 <= i < |values| && 0 <= j < |values| ==> |values[i]| == |values[j]|
  }

  /** A stripped cell of the first row is exactly "Модель" or "Показатель". */
  predicate FirstRowIsHeader(values: seq<seq<string>>)
    requires |values| > 0
  {
    exists j :: 0 <= j < |values[0]| && (Trim(values[0][j]) == "Модель" || Trim(values[0][j]) == IndicatorName)
  }

  /** The header row: row 0 when the first row holds a header label, else row 1. */
  function HeaderRowIndex(values: seq<seq<string>>): nat
    requires |values| > 0
  {
    if FirstRowIsHeader(values) then 0 else 1
  }

  /** The table a grid yields: stripped header labels and the rows after the header row, or why there is none. */
  function BuildFrame(values: seq<seq<string>>): (r: Result<Frame, LoadError>)
    requires RectangularGrid(values)
    ensures |values| == 0 <==> r == Failure(EmptySheet)
    ensures |values| == 1 && !FirstRowIsHeader(values) <==> r == Failure(MissingHeaderRow)
    ensures r.Success? ==>
      var h := if FirstRowIsHeader(values) then 0 else 1;
      && r.value.rows == values[h + 1..]
      && |r.value.columns| == |values[h]|
      && forall j :: 0 <= j < |values[h]| ==> r.value.columns[j] == Name(Trim(values[h][j]))
  {
    if |values| == 0 then Failure(EmptySheet)
    else
      var h := HeaderRowIndex(values);
      if h >= |values| then Failure(MissingHeaderRow)
      else
        var header := seq(|values[h]|, j requires 0 <= j < |values[h]| => Name(Trim(values[h][j])));
        var f := RawFrame(header, values[h + 1..]);
        assert f.Rectangular() by {
          forall i | 0 <= i < |f.rows|
            ensures |f.rows[i]| == |f.columns|
          {
            assert f.rows[i] == values[h + 1 + i];
          }
        }
        Success(f)
  }

  /** A stripped label is stripped again by df.columns.str.strip(): building the frame strips labels exactly once. */
  lemma HeaderLabelsStripped(values: seq<seq<string>>)
    requires RectangularGrid(values)
    requires BuildFrame(values).Success?
    ensures forall j :: 0 <= j < |BuildFrame(values).value.columns| ==>
      BuildFrame(values).value.columns[j].Name? &&
      Trim(BuildFrame(values).value.columns[j].text) == BuildFrame(values).value.columns[j].text
  {
    var h := HeaderRowIndex(values);
    forall j | 0 <= j < |values[h]|
      ensures Trim(Trim(values[h][j])) == Trim(values[h][j])
    {
      TrimIdempotent(values[h][j]);
    }
  }

  /** The cache key: sheet id and sheet name. */
  datatype SheetKey = SheetKey(sheetId: string, sheetName: string)

  /** The loader's cache. */
  type SheetCache = map<SheetKey, Frame>

  /**
   GoogleSheetsLoader.load: a cached table is returned unless a reload is
   forced; otherwise `fetched` (what get_all_values returns) is built into a
   table, which is cached on success.
   */
  function Load(cache: SheetCache, key: SheetKey, forceReload: bool, fetched: seq<seq<string>>): (out: (Result<Frame, LoadError>, SheetCache))
    requires RectangularGrid(fetched)
    ensures !forceReload && key in cache ==> out == (Success(cache[key]), cache)
    ensures (forceReload || key !in cache) ==> out.0 == BuildFrame(fetched)
    ensures (forceReload || key !in cache) && out.0.Success? ==> out.1 == cache[key := out.0.value]
    ensures out.0.Failure? ==> out.1 == cache
  {
    if !forceReload && key in cache then (Success(cache[key]), cache)
    else match BuildFrame(fetched)
      case Success(f) => (Success(f), cache[key := f])
      case Failure(e) => (Failure(e), cache)
  }

  /** A cache hit does not depend on what the sheet would now return. */
  lemma CacheHitIgnoresFetch(cache: SheetCache, key: SheetKey, g1: seq<seq<string>>, g2: seq<seq<string>>)
    requires RectangularGrid(g1) && RectangularGrid(g2)
    requires key in cache
    ensures Load(cache, key, false, g1) == Load(cache, key, false, g2)
  {
  }

  /** After a successful load, loading the same sheet again without a reload returns the same table, whatever the sheet now holds. */
  lemma LoadThenHit(cache: SheetCache, key: SheetKey, force: bool, g1: seq<seq<string>>, g2: seq<seq<string>>)
    requires RectangularGrid(g1) && RectangularGrid(g2)
    requires Load(cache, key, force, g1).0.Success?
    ensures Load(Load(cache, key, force, g1).1, key, false, g2).0 == Load(cache, key, force, g1).0
  {
  }

  /** Loading one sheet leaves the cached tables of every other sheet as they were. */
  lemma LoadKeepsOtherSheets(cache: SheetCache, key: SheetKey, other: SheetKey, force: bool, g: seq<seq<string>>)
    requires RectangularGrid(g)
    requires other != key && other in cache
    ensures other in Load(cache, key, force, g).1 && Load(cache, key, force, g).1[other] == cache[other]
  {
  }

  /** A requested sheet counts only when the name is non-empty (Python truthiness). */
  predicate Requested(target: Option<string>) {
    target.Some? && target.value != ""
  }

  /** Index of the first sheet whose name starts with "Отчет". */
  function FirstReportSheet(sheets: seq<string>): (r: Option<nat>)
    ensures r.Some? ==> r.value < |sheets| && StartsWith(sheets[r.value], "Отчет")
    ensures r.Some? ==> forall j :: 0 <= j < r.value ==> !StartsWith(sheets[j], "Отчет")
    ensures r.None? ==> forall j :: 0 <= j < |sheets| ==> !StartsWith(sheets[j], "Отчет")
  {
    if |sheets| == 0 then None
    else if StartsWith(sheets[0], "Отчет") then Some(0)
    else match FirstReportSheet(sheets[1..])
      case Some(i) => Some(i + 1)
      case None => None
  }

  /** ExcelLoader.load's choice of sheet. */
  function SelectSheet(fileExists: bool, sheets: seq<string>, target: Option<string>): (r: Result<string, LoadError>)
    ensures !fileExists ==> r == Failure(FileNotFound)
    ensures fileExists && Requested(target) && target.value in sheets ==> r == Success(target.value)
    ensures r.Success? ==> r.value in sheets
    ensures fileExists && !(Requested(target) && target.value in sheets) ==>
      && (r.Success? ==>
            (StartsWith(r.value, "Отчет")
             && exists i :: 0 <= i < |sheets| && sheets[i] == r.value && forall j :: 0 <= j < i ==> !StartsWith(sheets[j], "Отчет")))
      && (r == Failure(NoReportSheet) <==> forall j :: 0 <= j < |sheets| ==> !StartsWith(sheets[j], "Отчет"))
  {
    if !fileExists then Failure(FileNotFound)
    else if Requested(target) && target.value in sheets then Success(target.value)
    else match FirstReportSheet(sheets)
      case Some(i) => Success(sheets[i])
      case None => Failure(NoReportSheet)
  }
}

=== FILE: metrics.dfy ===
/**
 The key metrics shown on the dashboard cards (MetricsCalculator): totals
 read from the period aggregate through the tiered resolver, the
 acceptance rate, the leads fallback chain and the zero-guarded cost ratios.
 */
module Metrics {
  import opened Numbers
  import opened Table
  import Resolver
  import Pattern
  import opened Wrappers

  /** The eight values calculate_key_metrics returns. */
  datatype KeyMetrics = KeyMetrics(
    totalIncoming: real,
    totalAccepted: real,
    totalMissed: real,
    acceptanceRate: real,
    targetAdsSpend: real,
    costPerLead: real,
    costPerVisit: real,
    costPerDelivery: real)

  /** _get_default_metrics: every value 0. */
  const DefaultMetrics := KeyMetrics(0.0, 0.0, 0.0, 0.0, 0.0, 0.0, 0.0, 0.0)

  const IncomingCalls: string := "Входящие звонки - ВЗ"
  const AcceptedCalls: string := "Принятые ВЗ"
  const MissedCalls: string := "Непринятые ВЗ"
  const TargetSpend: string := "Траты на таргет"
  const Visits: string := "Визиты"
  const Deliveries: string := "Выдачи"

  /** The leads fragments, tried in this order; the first is a regular expression with escaped parentheses. */
  const LeadFragments: seq<string> := ["Лиды \\(ИЗ\\)", "Лиды (ИЗ)", "Лиды ИЗ", "ИНТЕРНЕТ ЗАЯВКИ - ИЗ", "Интернет заявки"]

  /** Percentage of accepted calls, to one decimal; 0 when there were no incoming calls. */
  function AcceptanceRate(accepted: real, incoming: real): (r: real)
    ensures incoming <= 0.0 ==> r == 0.0
    ensures incoming > 0.0 ==> -0.05 <= r - accepted / incoming * 100.0 <= 0.05
  {
    if incoming > 0.0 then Round(accepted / incoming * 100.0, One) else 0.0
  }

  /** A rate of accepted calls never accepting more than came in lies between 0 and 100. */
  lemma AcceptanceRateIsPercentage(accepted: real, incoming: real)
    requires 0.0 <= accepted <= incoming
    ensures 0.0 <= AcceptanceRate(accepted, incoming) <= 100.0
  {
    if incoming > 0.0 {
      var x := accepted / incoming * 100.0;
      assert accepted / incoming <= 1.0;
      RoundWithin(x, 0, 100, One);
    }
  }

  /** Spend per unit of volume, rounded to a whole number; 0 unless both are positive. */
  function CostRatio(spend: real, volume: real): (r: real)
    ensures !(volume > 0.0 && spend > 0.0) ==> r == 0.0
    ensures volume > 0.0 && spend > 0.0 ==> -0.5 <= r - spend / volume <= 0.5
    ensures r >= 0.0 && r == r.Floor as real
  {
    if volume > 0.0 && spend > 0.0 then
      var x := spend / volume;
      RoundMonotone(0.0, x, Zero);
      RoundFixesWhole(0, Zero);
      Round(x, Zero)
    else 0.0
  }

  /** Python's `a or b or …` over numbers: the first non-zero value, or 0 when all are 0. */
  function FirstNonZero(values: seq<real>): (r: real)
    ensures (forall k :: 0 <= k < |values| ==> values[k] == 0.0) ==> r == 0.0
    ensures forall k :: 0 <= k < |values| && values[k] != 0.0 && (forall j :: 0 <= j < k ==> values[j] == 0.0) ==> r == values[k]
  {
    if |values| == 0 then 0.0
    else if values[0] != 0.0 then values[0]
    else
      assert forall k :: 1 <= k < |values| ==> values[k] == values[1..][k - 1];
      FirstNonZero(values[1..])
  }

  /** What each leads fragment resolves to, in chain order. */
  function LeadValues(agg: Aggregate): (vs: seq<real>)
    ensures |vs| == |LeadFragments|
    ensures forall k :: 0 <= k < |vs| ==> vs[k] == Resolver.TieredValue(agg, LeadFragments[k])
  {
    seq(|LeadFragments|, k requires 0 <= k < |LeadFragments| => Resolver.TieredValue(agg, LeadFragments[k]))
  }

  /**
   The leads count: the value of the first fragment of the chain that
   resolves to a non-zero value; 0 exactly when none does.
   */
  function Leads(agg: Aggregate): (r: real)
    ensures r == 0.0 <==> forall k :: 0 <= k < |LeadFragments| ==> LeadValues(agg)[k] == 0.0
    ensures forall k :: 0 <= k < |LeadFragments| && LeadValues(agg)[k] != 0.0 && ZeroBefore(LeadValues(agg), k) ==>
      r == LeadValues(agg)[k]
  {
    var values := LeadValues(agg);
    FirstNonZeroIsZeroIff(values);
    FirstNonZero(values)
  }

  /** Every value before position `k` is 0. */
  predicate ZeroBefore(values: seq<real>, k: nat) {
    forall j :: 0 <= j < k && j < |values| ==> values[j] == 0.0
  }

  /** calculate_key_metrics with no data_period: spend is read through the standard resolver path. */
  function CalculateKeyMetrics(agg: Aggregate): (m: KeyMetrics)
    ensures m.totalIncoming == Resolver.TieredValue(agg, IncomingCalls)
    ensures m.totalAccepted == Resolver.TieredValue(agg, AcceptedCalls)
    ensures m.totalMissed == Resolver.TieredValue(agg, MissedCalls)
    ensures m.targetAdsSpend == Resolver.TieredValue(agg, TargetSpend)
    ensures m.acceptanceRate == AcceptanceRate(m.totalAccepted, m.totalIncoming)
    ensures m.costPerLead == CostRatio(m.targetAdsSpend, Leads(agg))
    ensures m.costPerVisit == CostRatio(m.targetAdsSpend, Resolver.TieredValue(agg, Visits))
    ensures m.costPerDelivery == CostRatio(m.targetAdsSpend, Resolver.TieredValue(agg, Deliveries))
    ensures WellFormed(m)
  {
    var incoming := Resolver.TieredValue(agg, IncomingCalls);
    var accepted := Resolver.TieredValue(agg, AcceptedCalls);
    var missed := Resolver.TieredValue(agg, MissedCalls);
    var spend := Resolver.TieredValue(agg, TargetSpend);
    KeyMetrics(
      incoming, accepted, missed,
      AcceptanceRate(accepted, incoming),
      spend,
      CostRatio(spend, Leads(agg)),
      CostRatio(spend, Resolver.TieredValue(agg, Visits)),
      CostRatio(spend, Resolver.TieredValue(agg, Deliveries)))
  }

  /**
   What every metrics record the calculator produces satisfies: a rate only
   when calls came in, and whole, non-negative costs that are 0 without spend.
   */
  predicate WellFormed(m: KeyMetrics) {
    && (m.totalIncoming <= 0.0 ==> m.acceptanceRate == 0.0)
    && m.costPerLead >= 0.0 && m.costPerLead == m.costPerLead.Floor as real
    && m.costPerVisit >= 0.0 && m.costPerVisit == m.costPerVisit.Floor as real
    && m.costPerDelivery >= 0.0 && m.costPerDelivery == m.costPerDelivery.Floor as real
    && (m.targetAdsSpend <= 0.0 ==> m.costPerLead == 0.0 && m.costPerVisit == 0.0 && m.costPerDelivery == 0.0)
  }

  /** The default record is what the calculator yields for an aggregate with no rows. */
  lemma EmptyAggregateGivesDefaults()
    ensures CalculateKeyMetrics([]) == DefaultMetrics
    ensures WellFormed(DefaultMetrics)
  {
    Resolver.EmptyAggregateResolvesToZero(IncomingCalls);
    Resolver.EmptyAggregateResolvesToZero(AcceptedCalls);
    Resolver.EmptyAggregateResolvesToZero(MissedCalls);
    Resolver.EmptyAggregateResolvesToZero(TargetSpend);
  }

  /** The chain yields 0 exactly when every value in it is 0 (so the leads count is 0 only when no fragment finds leads). */
  lemma {:induction false} FirstNonZeroIsZeroIff(values: seq<real>)
    ensures FirstNonZero(values) == 0.0 <==> forall k :: 0 <= k < |values| ==> values[k] == 0.0
  {
    if exists k :: 0 <= k < |values| && values[k] != 0.0 {
      var k := FirstNonZeroIndex(values);
      assert FirstNonZero(values) == values[k];
    }
  }

  /** The position of the first non-zero value. */
  function FirstNonZeroIndex(values: seq<real>): (k: nat)
    requires exists k :: 0 <= k < |values| && values[k] != 0.0
    ensures k < |values| && values[k] != 0.0
    ensures forall j :: 0 <= j < k ==> values[j] == 0.0
  {
    if values[0] != 0.0 then 0
    else
      assert exists k :: 0 <= k < |values[1..]| && values[1..][k] != 0.0 by {
        var k :| 0 <= k < |values| && values[k] != 0.0;
        assert values[1..][k - 1] == values[k];
      }
      1 + FirstNonZeroIndex(values[1..])
  }

  /**
   The first two leads fragments search for different texts: the escaped one
   for "Лиды (ИЗ)" with its parentheses, the grouped one for "Лиды ИЗ".
   */
  lemma LeadFragmentsSearchText()
    ensures Pattern.Compile(LeadFragments[0]) == Some("Лиды (ИЗ)")
    ensures Pattern.Compile(LeadFragments[1]) == Some("Лиды ИЗ")
  {
    EscapedLeadsFragment();
    GroupedLeadsFragment();
  }

  /** The words around the parentheses of the leads fragments have no pattern syntax. */
  lemma LeadsWordsPlain()
    ensures Pattern.Plain("Лиды ") && Pattern.Plain("ИЗ") && Pattern.Plain("")
  {
    CyrillicPlain("Лиды ");
    CyrillicPlain("ИЗ");
  }

  lemma EscapedLeadsFragment()
    ensures Pattern.Compile("Лиды \\(ИЗ\\)") == Some("Лиды (ИЗ)")
  {
    LeadsWordsPlain();
    assert "Лиды \\(ИЗ\\)" == "Лиды " + "\\(" + "ИЗ" + "\\)" + "";
    Pattern.CompileEscapedParens("Лиды ", "ИЗ", "");
    assert "Лиды " + "(" + "ИЗ" + ")" + "" == "Лиды (ИЗ)";
  }

  lemma GroupedLeadsFragment()
    ensures Pattern.Compile("Лиды (ИЗ)") == Some("Лиды ИЗ")
  {
    LeadsWordsPlain();
    assert "Лиды (ИЗ)" == "Лиды " + "(" + "ИЗ" + ")" + "";
    Pattern.CompileGroup("Лиды ", "ИЗ", "");
    assert "Лиды " + "ИЗ" + "" == "Лиды ИЗ";
  }

  /** Text made of Cyrillic letters and spaces has no pattern syntax. */
  lemma CyrillicPlain(s: string)
    requires forall i :: 0 <= i < |s| ==> s[i] == ' ' || 'А' <= s[i] <= 'я'
    ensures Pattern.Plain(s)
  {
  }

  /** Fifty-one of sixty incoming calls accepted is a rate of 85.0. */
  lemma AcceptanceRateExample()
    ensures AcceptanceRate(51.0, 60.0) == 85.0
  {
    assert 51.0 / 60.0 * 100.0 == 85.0;
    RoundFixesWhole(85, One);
  }
}

=== FILE: numbers.dfy ===
/**
 Exact-real stand-ins for the float arithmetic the dashboard performs:
 Python's round(x, digits) (round half to even) and sums and means of
 sequences of values.
 */
module Numbers {

  /** The number of decimal places kept by round(x, digits); the dashboard uses 0 and 1. */
  datatype Digits = Zero | One {
    /** 10 to the power of the number of decimal places. */
    function Scale(): real {
      match this
      case Zero => 1.0
      case One => 10.0
    }
  }

  /** The integer nearest to `y`, ties going to the even neighbour. */
  function RoundToInt(y: real): (n: int)
    ensures -0.5 <= n as real - y <= 0.5
    ensures y.Floor <= n <= y.Floor + 1
  {
    var f := y.Floor;
    var frac := y - f as real;
    if frac < 0.5 then f
    else if frac > 0.5 then f + 1
    else if f % 2 == 0 then f
    else f + 1
  }

  /** Python's round(x, digits) on the exact value of x. */
  function Round(x: real, digits: Digits): (r: real)
    ensures -0.5 <= (r - x) * digits.Scale() <= 0.5
  {
    RoundToInt(x * digits.Scale()) as real / digits.Scale()
  }

  /** Rounding an integer gives it back. */
  lemma RoundToIntFixesIntegers(n: int)
    ensures RoundToInt(n as real) == n
  {
  }

  /** A larger argument never rounds to a smaller integer. */
  lemma RoundToIntMonotone(y1: real, y2: real)
    requires y1 <= y2
    ensures RoundToInt(y1) <= RoundToInt(y2)
  {
    var f1, f2 := y1.Floor, y2.Floor;
    if f1 == f2 {
      assert y1 - f1 as real <= y2 - f2 as real;
    } else {
      assert f1 + 1 <= f2;
    }
  }

  /** Rounding is monotone. */
  lemma RoundMonotone(x1: real, x2: real, digits: Digits)
    requires x1 <= x2
    ensures Round(x1, digits) <= Round(x2, digits)
  {
    if digits == Zero {
      assert x1 * 1.0 == x1 && x2 * 1.0 == x2;
      RoundToIntMonotone(x1, x2);
    } else {
      assert x1 * 10.0 <= x2 * 10.0;
      RoundToIntMonotone(x1 * 10.0, x2 * 10.0);
    }
  }

  /** A whole number is already rounded at any number of digits. */
  lemma RoundFixesWhole(k: int, digits: Digits)
    ensures Round(k as real, digits) == k as real
  {
    var s := digits.Scale();
    if digits == One {
      assert s == 10.0;
      assert k as real * s == (k * 10) as real;
      RoundToIntFixesIntegers(k * 10);
      assert RoundToInt(k as real * s) as real == (k * 10) as real;
      assert (k * 10) as real / 10.0 == k as real;
    } else {
      assert s == 1.0;
      assert k as real * s == k as real;
      RoundToIntFixesIntegers(k);
    }
  }

  /** Rounding a value between two whole numbers stays between them. */
  lemma RoundWithin(x: real, lo: int, hi: int, digits: Digits)
    requires lo as real <= x <= hi as real
    ensures lo as real <= Round(x, digits) <= hi as real
  {
    RoundMonotone(lo as real, x, digits);
    RoundMonotone(x, hi as real, digits);
    RoundFixesWhole(lo, digits);
    RoundFixesWhole(hi, digits);
  }

  function Sum(xs: seq<real>): real {
    if |xs| == 0 then 0.0 else xs[0] + Sum(xs[1..])
  }

  lemma {:induction false} SumAppend(xs: seq<real>, ys: seq<real>)
    ensures Sum(xs + ys) == Sum(xs) + Sum(ys)
  {
    if |xs| == 0 {
      assert xs + ys == ys;
    } else {
      assert (xs + ys)[1..] == xs[1..] + ys;
      SumAppend(xs[1..], ys);
    }
  }

  /** A sum of values that all lie in [lo, hi] lies between n*lo and n*hi. */
  lemma {:induction false} SumBounds(xs: seq<real>, lo: real, hi: real)
    requires forall i :: 0 <= i < |xs| ==> lo <= xs[i] <= hi
    ensures |xs| as real * lo <= Sum(xs) <= |xs| as real * hi
  {
    if |xs| > 0 {
      SumBounds(xs[1..], lo, hi);
    }
  }

  /** Arithmetic mean of a non-empty sequence. */
  function Mean(xs: seq<real>): real
    requires |xs| > 0
  {
    Sum(xs) / |xs| as real
  }

  /** The mean lies between any lower and upper bound of the values. */
  lemma MeanBounds(xs: seq<real>, lo: real, hi: real)
    requires |xs| > 0
    requires forall i :: 0 <= i < |xs| ==> lo <= xs[i] <= hi
    ensures lo <= Mean(xs) <= hi
  {
    SumBounds(xs, lo, hi);
    var n := |xs| as real;
    assert Sum(xs) / n >= (n * lo) / n;
    assert Sum(xs) / n <= (n * hi) / n;
  }
}

=== FILE: pattern.dfy ===
/**
 The part of Python regular expressions that the dashboard's search
 fragments use. pandas' str.contains treats its argument as a regular
 expression; the fragments in this code contain only literal text,
 backslash-escaped punctuation ("Лиды \(ИЗ\)") and plain groups
 ("Лиды (ИЗ)", which matches "Лиды ИЗ"). Compiling such a pattern gives the
 literal text it matches; an unbalanced parenthesis or a trailing backslash
 is a compile error (re.error), which the callers catch.
 */
module Pattern {
  import opened Wrappers
  import opened Text

  predicate IsMeta(c: char) {
    c == '\\' || c == '(' || c == ')'
  }

  /** A fragment with no regular-expression syntax: it matches itself. */
  predicate Plain(p: string) {
    forall i :: 0 <= i < |p| ==> !IsMeta(p[i])
  }

  /** Compiles the rest of a pattern with `depth` groups open. */
  function CompileFrom(p: string, depth: nat): (r: Option<string>)
    ensures r.Some? ==> |r.value| <= |p|
    decreases |p|
  {
    if |p| == 0 then
      if depth == 0 then Some("") else None
    else if p[0] == '\\' then
      if |p| == 1 then None
      else match CompileFrom(p[2..], depth)
        case Some(rest) => Some([p[1]] + rest)
        case None => None
    else if p[0] == '(' then
      CompileFrom(p[1..], depth + 1)
    else if p[0] == ')' then
      if depth == 0 then None else CompileFrom(p[1..], depth - 1)
    else match CompileFrom(p[1..], depth)
      case Some(rest) => Some([p[0]] + rest)
      case None => None
  }

  /** The literal text a pattern matches, or None when re.compile would fail. */
  function Compile(p: string): (r: Option<string>)
    ensures r.Some? ==> |r.value| <= |p|
    ensures Plain(p) ==> r == Some(p)
  {
    if Plain(p) then
      CompilePlain(p);
      CompileFrom(p, 0)
    else CompileFrom(p, 0)
  }

  /** A plain fragment compiles to itself. */
  lemma {:induction false} CompilePlain(p: string)
    requires Plain(p)
    ensures CompileFrom(p, 0) == Some(p)
  {
    if |p| > 0 {
      assert Plain(p[1..]);
      CompilePlain(p[1..]);
      assert [p[0]] + p[1..] == p;
    }
  }

  /** re.escape restricted to the syntax modelled here: a backslash before every metacharacter. */
  function Escape(s: string): (p: string)
    ensures |p| >= |s|
  {
    if |s| == 0 then ""
    else (if IsMeta(s[0]) then ['\\', s[0]] else [s[0]]) + Escape(s[1..])
  }

  /** Escaping any text gives a pattern that matches exactly that text. */
  lemma {:induction false} CompileEscape(s: string)
    ensures Compile(Escape(s)) == Some(s)
  {
    if |s| > 0 {
      CompileEscape(s[1..]);
      var e := Escape(s[1..]);
      if IsMeta(s[0]) {
        assert Escape(s) == ['\\', s[0]] + e;
        assert (['\\', s[0]] + e)[2..] == e;
      } else {
        assert Escape(s) == [s[0]] + e;
        assert ([s[0]] + e)[1..] == e;
      }
      assert [s[0]] + s[1..] == s;
    }
  }

  /** A plain prefix passes through compilation unchanged, whatever follows it. */
  lemma {:induction false} CompilePlainPrefix(p: string, rest: string, depth: nat)
    requires Plain(p)
    ensures CompileFrom(p + rest, depth) == match CompileFrom(rest, depth)
      case Some(x) => Some(p + x)
      case None => None
  {
    if |p| > 0 {
      assert (p + rest)[1..] == p[1..] + rest;
      assert Plain(p[1..]);
      CompilePlainPrefix(p[1..], rest, depth);
      if CompileFrom(rest, depth).Some? {
        assert [p[0]] + (p[1..] + CompileFrom(rest, depth).value) == p + CompileFrom(rest, depth).value;
      }
    } else {
      assert p + rest == rest;
      if CompileFrom(rest, depth).Some? {
        assert p + CompileFrom(rest, depth).value == CompileFrom(rest, depth).value;
      }
    }
  }

  /** A plain group between plain texts only groups: the parentheses match nothing. */
  lemma CompileGroup(a: string, b: string, c: string)
    requires Plain(a) && Plain(b) && Plain(c)
    ensures Compile(a + "(" + b + ")" + c) == Some(a + b + c)
  {
    var z := ")" + c;
    var y := b + z;
    var x := "(" + y;
    assert a + "(" + b + ")" + c == a + x;
    assert z[1..] == c;
    CompilePlainPrefix(c, "", 0);
    assert c + "" == c;
    assert CompileFrom(c, 0) == Some(c);
    assert CompileFrom(z, 1) == Some(c);
    CompilePlainPrefix(b, z, 1);
    assert x[1..] == y;
    assert CompileFrom(x, 0) == Some(b + c);
    CompilePlainPrefix(a, x, 0);
    assert a + (b + c) == a + b + c;
  }

  /** An escaped parenthesis matches the parenthesis itself. */
  lemma CompileEscapedParens(a: string, b: string, c: string)
    requires Plain(a) && Plain(b) && Plain(c)
    ensures Compile(a + "\\(" + b + "\\)" + c) == Some(a + "(" + b + ")" + c)
  {
    var z := "\\)" + c;
    var y := b + z;
    var x := "\\(" + y;
    assert a + "\\(" + b + "\\)" + c == a + x;
    assert z[2..] == c;
    CompilePlainPrefix(c, "", 0);
    assert c + "" == c;
    assert CompileFrom(z, 0) == Some(")" + c);
    CompilePlainPrefix(b, z, 0);
    assert x[2..] == y;
    assert CompileFrom(x, 0) == Some("(" + (b + (")" + c)));
    CompilePlainPrefix(a, x, 0);
    assert a + ("(" + (b + (")" + c))) == a + "(" + b + ")" + c;
  }

  /** pandas' str.contains(p, case=False) on one text; None is the compile error. */
  function Search(text: string, p: string): Option<bool> {
    match Compile(p)
    case Some(literal) => Some(ContainsIgnoringCase(text, literal))
    case None => None
  }
}

=== FILE: processor.dfy ===
/**
 DataProcessor (core/processor.py): day-column derivation, period
 aggregation over a 1-based inclusive day range, the cached-aggregate lookup
 and normalize_date.
 */
module Processor {
  import opened Wrappers
  import opened Text
  import opened Dates
  import opened Numbers
  import opened Table
  import Resolver

  /** The date a column label stands for, if any: a timestamp, or text pd.to_datetime can parse. */
  function DenotedDate(co: Coercion, col: ColumnLabel): Option<CalendarDate> {
    match col
    case Stamp(d) => Some(d)
    case Name(s) => co.toDate(s)
    case Other(_) => None
  }

  /** str(col) for a label that does not denote a date. */
  function Shown(col: ColumnLabel): string {
    match col
    case Name(s) => s
    case Stamp(d) => Iso(d)
    case Other(s) => s
  }

  /**
   DataProcessor.normalize_date: never fails. The key of a date label reads
   back as that date; any other label keeps its str() form.
   */
  function NormalizeDate(co: Coercion, col: ColumnLabel): (key: string)
    ensures DenotedDate(co, col).Some? ==> ParseIso(key) == Some(DenotedDate(co, col).value)
    ensures DenotedDate(co, col).None? ==> key == Shown(col)
  {
    match DenotedDate(co, col)
    case Some(d) => IsoRoundTrip(d); Iso(d)
    case None => Shown(col)
  }

  /** Two labels denoting different dates never share a key. */
  lemma DistinctDatesDistinctKeys(co: Coercion, a: ColumnLabel, b: ColumnLabel)
    requires DenotedDate(co, a).Some? && DenotedDate(co, b).Some?
    requires DenotedDate(co, a) != DenotedDate(co, b)
    ensures NormalizeDate(co, a) != NormalizeDate(co, b)
  {
  }

  /** df.columns[2:]: the day columns, every column after the first two. */
  function DayColumns(f: Frame): (days: seq<ColumnLabel>)
    ensures |days| == if |f.columns| <= 2 then 0 else |f.columns| - 2
    ensures forall k :: 0 <= k < |days| ==> days[k] == f.columns[k + 2]
  {
    if |f.columns| <= 2 then [] else f.columns[2..]
  }

  /** max_day. */
  function MaxDay(f: Frame): nat {
    |DayColumns(f)|
  }

  /** How Python normalises a slice bound `i` against a sequence of length `n`. */
  function SliceBound(i: int, n: nat): (r: nat)
    ensures r <= n
    ensures 0 <= i <= n ==> r == i
  {
    if i < 0 then (if i + n < 0 then 0 else i + n)
    else if i > n then n
    else i
  }

  /** The positions that the Python slice s[lo:hi] selects from a sequence of length `n`. */
  function SlicePositions(n: nat, lo: int, hi: int): (r: seq<nat>)
    ensures forall k :: 0 <= k < |r| ==> r[k] < n
    ensures forall k :: 0 <= k < |r| ==> r[k] == SliceBound(lo, n) + k
    ensures |r| == if SliceBound(lo, n) < SliceBound(hi, n) then SliceBound(hi, n) - SliceBound(lo, n) else 0
  {
    var a, b := SliceBound(lo, n), SliceBound(hi, n);
    if a < b then seq(b - a, k requires 0 <= k < b - a => a + k) else []
  }

  /** Day column `i` carries `key`, and no later day column does. */
  predicate IsLastWithKey(co: Coercion, days: seq<ColumnLabel>, i: int, key: string) {
    && 0 <= i < |days|
    && NormalizeDate(co, days[i]) == key
    && forall j :: i < j < |days| ==> NormalizeDate(co, days[j]) != key
  }

  /** No two day columns normalise to the same key. */
  predicate NoKeyCollision(co: Coercion, days: seq<ColumnLabel>) {
    forall i, j :: 0 <= i < j < |days| ==> NormalizeDate(co, days[i]) != NormalizeDate(co, days[j])
  }

  /** `m` sends every key of `days` to the last day column carrying it. */
  predicate MapsToLast(co: Coercion, days: seq<ColumnLabel>, m: map<string, nat>) {
    && (forall i :: 0 <= i < |days| ==> NormalizeDate(co, days[i]) in m)
    && (forall key :: key in m ==> IsLastWithKey(co, days, m[key], key))
  }

  /** A column that is last with its key stays last when a column with another key is appended. */
  lemma LastWithKeyExtends(co: Coercion, days: seq<ColumnLabel>, i: int, key: string)
    requires |days| > 0
    requires IsLastWithKey(co, days[..|days| - 1], i, key)
    requires NormalizeDate(co, days[|days| - 1]) != key
    ensures IsLastWithKey(co, days, i, key)
  {
    var init := days[..|days| - 1];
    forall j | i < j < |days|
      ensures NormalizeDate(co, days[j]) != key
    {
      if j < |days| - 1 {
        assert days[j] == init[j];
      }
    }
  }

  /** Mapping the key of an appended column to that column keeps the map pointing at last columns. */
  lemma MapsToLastExtends(co: Coercion, days: seq<ColumnLabel>, m: map<string, nat>)
    requires |days| > 0
    requires MapsToLast(co, days[..|days| - 1], m)
    ensures MapsToLast(co, days, m[NormalizeDate(co, days[|days| - 1]) := |days| - 1])
  {
    var n := |days| - 1;
    var init := days[..n];
    var last := NormalizeDate(co, days[n]);
    var m' := m[last := n];
    forall key | key in m'
      ensures IsLastWithKey(co, days, m'[key], key)
    {
      if key != last {
        assert key in m && m'[key] == m[key];
        LastWithKeyExtends(co, days, m[key], key);
      } else {
        assert m'[key] == n;
      }
    }
    forall i | 0 <= i < n
      ensures NormalizeDate(co, days[i]) in m'
    {
      assert days[i] == init[i];
      assert NormalizeDate(co, init[i]) in m;
    }
  }

  /**
   col_mapping = {normalize_date(col): col for col in df.columns[2:]}, with
   each key sent to the day index of its column. Dict construction lets a
   later column overwrite an earlier one with the same key.
   */
  function ColumnMap(co: Coercion, days: seq<ColumnLabel>): (m: map<string, nat>)
    ensures forall i :: 0 <= i < |days| ==> NormalizeDate(co, days[i]) in m
    ensures forall key :: key in m ==> IsLastWithKey(co, days, m[key], key)
    decreases |days|
  {
    if |days| == 0 then map[]
    else
      var n := |days| - 1;
      var m := ColumnMap(co, days[..n]);
      MapsToLastExtends(co, days, m);
      m[NormalizeDate(co, days[n]) := n]
  }

  /** [col_mapping[k] for k in keys if k in col_mapping]. */
  function Resolve(m: map<string, nat>, keys: seq<string>): (r: seq<nat>)
    ensures |r| <= |keys|
    ensures (forall k :: k in keys ==> k in m) ==>
      |r| == |keys| && forall i :: 0 <= i < |r| ==> r[i] == m[keys[i]]
    ensures forall x :: x in r ==> x in m.Values
  {
    if |keys| == 0 then []
    else if keys[0] in m then [m[keys[0]]] + Resolve(m, keys[1..])
    else Resolve(m, keys[1..])
  }

  /** The day positions data_columns[start_day - 1:end_day] selects. */
  function RangePositions(f: Frame, start: int, end: int): seq<nat> {
    SlicePositions(MaxDay(f), start - 1, end)
  }

  /** normalized_day_cols: the keys of the sliced day columns. */
  function SliceKeys(co: Coercion, days: seq<ColumnLabel>, pos: seq<nat>): (keys: seq<string>)
    requires forall k :: 0 <= k < |pos| ==> pos[k] < |days|
    ensures |keys| == |pos|
    ensures forall k :: 0 <= k < |pos| ==> keys[k] == NormalizeDate(co, days[pos[k]])
  {
    seq(|pos|, k requires 0 <= k < |pos| => NormalizeDate(co, days[pos[k]]))
  }

  /** Every key of a sliced day column is a key of col_mapping, so the lookup never drops one. */
  lemma SliceKeysMapped(co: Coercion, days: seq<ColumnLabel>, pos: seq<nat>)
    requires forall k :: 0 <= k < |pos| ==> pos[k] < |days|
    ensures forall key :: key in SliceKeys(co, days, pos) ==> key in ColumnMap(co, days)
  {
    var keys := SliceKeys(co, days, pos);
    forall key | key in keys
      ensures key in ColumnMap(co, days)
    {
      var k :| 0 <= k < |keys| && keys[k] == key;
      assert key == NormalizeDate(co, days[pos[k]]);
    }
  }

  /** The sliced day positions looked up through col_mapping: each resolves to the last day column sharing its key. */
  function SelectIn(co: Coercion, days: seq<ColumnLabel>, pos: seq<nat>): (sel: seq<nat>)
    requires forall k :: 0 <= k < |pos| ==> pos[k] < |days|
    ensures |sel| == |pos|
    ensures forall k :: 0 <= k < |sel| ==> sel[k] < |days|
    ensures forall k :: 0 <= k < |sel| ==> IsLastWithKey(co, days, sel[k], NormalizeDate(co, days[pos[k]]))
  {
    var keys := SliceKeys(co, days, pos);
    var m := ColumnMap(co, days);
    SliceKeysMapped(co, days, pos);
    var sel := Resolve(m, keys);
    assert forall k :: 0 <= k < |sel| ==> sel[k] == m[keys[k]];
    sel
  }

  /**
   selected_cols as day indices: the sliced labels are normalised and looked
   up again in col_mapping. Nothing is ever dropped (every sliced key is a
   key of the map); a sliced column whose key is shared resolves to the last
   day column carrying that key.
   */
  function SelectedDays(co: Coercion, f: Frame, start: int, end: int): (sel: seq<nat>)
    ensures |sel| == |RangePositions(f, start, end)|
    ensures forall k :: 0 <= k < |sel| ==> sel[k] < MaxDay(f)
    ensures forall k :: 0 <= k < |sel| ==>
      IsLastWithKey(co, DayColumns(f), sel[k], NormalizeDate(co, DayColumns(f)[RangePositions(f, start, end)[k]]))
  {
    SelectIn(co, DayColumns(f), RangePositions(f, start, end))
  }

  /** With no key collision, an in-range selection is exactly day columns start..end. */
  lemma SelectionIsPositional(co: Coercion, f: Frame, start: int, end: int)
    requires NoKeyCollision(co, DayColumns(f))
    requires 1 <= start <= end <= MaxDay(f)
    ensures |SelectedDays(co, f, start, end)| == end - start + 1
    ensures forall k :: 0 <= k < end - start + 1 ==> SelectedDays(co, f, start, end)[k] == start - 1 + k
  {
    var sel := SelectedDays(co, f, start, end);
    var pos := RangePositions(f, start, end);
    var days := DayColumns(f);
    forall k | 0 <= k < |sel|
      ensures sel[k] == start - 1 + k
    {
      assert IsLastWithKey(co, days, sel[k], NormalizeDate(co, days[pos[k]]));
    }
  }

  /**
   When a later day column shares the key of a selected one, the selection
   names a later column instead: the earlier column is then not counted at
   all and the later one is selected more than once.
   */
  lemma CollisionResolvesToLaterColumn(co: Coercion, f: Frame, start: int, end: int, k: int, j: int)
    requires 0 <= k < |RangePositions(f, start, end)|
    requires RangePositions(f, start, end)[k] < j < MaxDay(f)
    requires NormalizeDate(co, DayColumns(f)[j]) == NormalizeDate(co, DayColumns(f)[RangePositions(f, start, end)[k]])
    ensures SelectedDays(co, f, start, end)[k] >= j
  {
    var sel := SelectedDays(co, f, start, end);
    assert IsLastWithKey(co, DayColumns(f), sel[k], NormalizeDate(co, DayColumns(f)[j]));
  }

  /** Day columns that all denote pairwise different dates cannot collide. */
  lemma DistinctDatesNoCollision(co: Coercion, days: seq<ColumnLabel>)
    requires forall i :: 0 <= i < |days| ==> DenotedDate(co, days[i]).Some?
    requires forall i, j :: 0 <= i < j < |days| ==> DenotedDate(co, days[i]) != DenotedDate(co, days[j])
    ensures NoKeyCollision(co, days)
  {
    forall i, j | 0 <= i < j < |days|
      ensures NormalizeDate(co, days[i]) != NormalizeDate(co, days[j])
    {
      DistinctDatesDistinctKeys(co, days[i], days[j]);
    }
  }

  /** The labels of the given day columns, in the order given. */
  function LabelsAt(f: Frame, sel: seq<nat>): (keys: seq<ColumnLabel>)
    requires forall k :: 0 <= k < |sel| ==> sel[k] < MaxDay(f)
    ensures |keys| == |sel|
    ensures forall k :: 0 <= k < |sel| ==> sel[k] + 2 < |f.columns| && keys[k] == f.columns[sel[k] + 2]
  {
    var days := DayColumns(f);
    assert MaxDay(f) == |days|;
    seq(|sel|, k requires 0 <= k < |sel| => days[sel[k]])
  }

  /** selected_cols: the labels of the selected day columns, in selection order. */
  function SelectedLabels(co: Coercion, f: Frame, start: int, end: int): (keys: seq<ColumnLabel>)
    ensures |keys| == |SelectedDays(co, f, start, end)|
    ensures forall k :: 0 <= k < |keys| ==> keys[k] == DayColumns(f)[SelectedDays(co, f, start, end)[k]]
  {
    LabelsAt(f, SelectedDays(co, f, start, end))
  }

  /** Every row of a frame is as wide as its header. */
  lemma RowWidth(f: Frame, i: nat)
    requires i < |f.rows|
    ensures |f.rows[i]| == |f.columns|
  {
    assert f.rows[i] in f.rows;
  }

  /** pd.to_numeric(errors='coerce').fillna(0), cell by cell. */
  function Coerced(co: Coercion, cells: seq<string>): (vs: seq<real>)
    ensures |vs| == |cells|
    ensures forall k :: 0 <= k < |cells| ==> vs[k] == NumberOrZero(co, cells[k])
  {
    seq(|cells|, k requires 0 <= k < |cells| => NumberOrZero(co, cells[k]))
  }

  /**
   data_period: the indicator of every row, and the labels and cells of its
   day part. A label selected m times appears m times here, and each time
   brings every column of the frame that carries it.
   */
  datatype Period = Period(indicators: seq<string>, columns: seq<ColumnLabel>, cells: seq<seq<string>>)

  /** What process_data returns: data_period and data_period_aggregated. */
  datatype PeriodResult = PeriodResult(period: Period, aggregate: Aggregate)

  /** (pd.DataFrame(), pd.DataFrame()): nothing selected, or no indicator column. */
  const NoPeriod := PeriodResult(Period([], [], []), [])

  /** df[['Показатель'] + keys]: each row's indicator, then for each key every column carrying that label. */
  function SelectCells(f: Frame, ind: nat, keys: seq<ColumnLabel>): (p: Period)
    requires ind < |f.columns|
    ensures |p.indicators| == |p.cells| == |f.rows|
    ensures |p.columns| == SelectedCount(f.columns, keys)
    ensures p.columns == SelectByLabels(f.columns, f.columns, keys)
    ensures forall i :: 0 <= i < |f.rows| ==> p.indicators[i] == f.rows[i][ind]
    ensures forall i :: 0 <= i < |f.rows| ==> |p.cells[i]| == |p.columns|
    ensures forall i :: 0 <= i < |f.rows| ==> p.cells[i] == SelectByLabels(f.columns, f.rows[i], keys)
  {
    forall i | 0 <= i < |f.rows|
      ensures |f.rows[i]| == |f.columns|
    {
      RowWidth(f, i);
    }
    Period(seq(|f.rows|, i requires 0 <= i < |f.rows| => f.rows[i][ind]),
           SelectByLabels(f.columns, f.columns, keys),
           seq(|f.rows|, i requires 0 <= i < |f.rows| => SelectByLabels(f.columns, f.rows[i], keys)))
  }

  /**
   data_period_aggregated: per row, its indicator and the sum of
   data_period[keys] coerced, where each key again brings every column of
   data_period carrying it.
   */
  function AggregatePeriod(co: Coercion, p: Period, keys: seq<ColumnLabel>): (agg: Aggregate)
    requires |p.indicators| == |p.cells|
    ensures |agg| == |p.indicators|
    ensures forall i :: 0 <= i < |agg| ==>
      agg[i] == AggRow(p.indicators[i], Sum(SelectByLabels(p.columns, Coerced(co, p.cells[i]), keys)))
  {
    seq(|p.indicators|, i requires 0 <= i < |p.indicators| =>
      AggRow(p.indicators[i], Sum(SelectByLabels(p.columns, Coerced(co, p.cells[i]), keys))))
  }

  /** DataProcessor.process_data on a frame for the 1-based inclusive range (start, end). */
  function ProcessData(co: Coercion, f: Frame, start: int, end: int): (r: PeriodResult)
    ensures |SelectedDays(co, f, start, end)| == 0 || IndicatorColumn(f).None? ==> r == NoPeriod
    ensures |SelectedDays(co, f, start, end)| > 0 && IndicatorColumn(f).Some? ==>
      (var keys := SelectedLabels(co, f, start, end);
       && r.period == SelectCells(f, IndicatorColumn(f).value, keys)
       && r.aggregate == AggregatePeriod(co, r.period, keys))
  {
    var keys := SelectedLabels(co, f, start, end);
    if |keys| == 0 then NoPeriod
    else match IndicatorColumn(f)
      case None => NoPeriod
      case Some(ind) =>
        var p := SelectCells(f, ind, keys);
        PeriodResult(p, AggregatePeriod(co, p, keys))
  }

  /** The coerced cells of one row in the selected day columns (non-numeric cells become 0). */
  function SelectedValues(co: Coercion, row: seq<string>, sel: seq<nat>): (vs: seq<real>)
    requires forall k :: 0 <= k < |sel| ==> sel[k] + 2 < |row|
    ensures |vs| == |sel|
    ensures forall k :: 0 <= k < |sel| ==> vs[k] == NumberOrZero(co, row[sel[k] + 2])
  {
    seq(|sel|, k requires 0 <= k < |sel| => NumberOrZero(co, row[sel[k] + 2]))
  }

  /**
   On a frame whose column labels are all distinct, selecting the labels of
   some columns gives data_period exactly those columns, in the order asked.
   */
  lemma SelectCellsOfDistinctFrame(f: Frame, ind: nat, keys: seq<ColumnLabel>, pos: seq<nat>, i: nat)
    requires ind < |f.columns| && DistinctLabels(f.columns) && i < |f.rows|
    requires |keys| == |pos|
    requires forall k :: 0 <= k < |pos| ==> pos[k] < |f.columns| && keys[k] == f.columns[pos[k]]
    ensures SelectCells(f, ind, keys).columns == keys
    ensures |SelectCells(f, ind, keys).cells[i]| == |pos|
    ensures forall k :: 0 <= k < |pos| ==> SelectCells(f, ind, keys).cells[i][k] == f.rows[i][pos[k]]
  {
    RowWidth(f, i);
    SelectByPositions(f.columns, f.columns, pos, keys);
    SelectByPositions(f.columns, f.rows[i], pos, keys);
  }

  /**
   On a frame whose column labels are all distinct, selecting the labels of
   some day columns gives data_period those labels (repeats kept) and, in
   each row, those columns' cells.
   */
  lemma PeriodOfDistinctLabels(co: Coercion, f: Frame, ind: nat, sel: seq<nat>, i: nat)
    requires ind < |f.columns| && DistinctLabels(f.columns) && i < |f.rows|
    requires forall k :: 0 <= k < |sel| ==> sel[k] < MaxDay(f)
    ensures |f.rows[i]| == |f.columns|
    ensures SelectCells(f, ind, LabelsAt(f, sel)).columns == LabelsAt(f, sel)
    ensures Coerced(co, SelectCells(f, ind, LabelsAt(f, sel)).cells[i]) == SelectedValues(co, f.rows[i], sel)
  {
    RowWidth(f, i);
    var keys := LabelsAt(f, sel);
    var pos := seq(|sel|, k requires 0 <= k < |sel| => sel[k] + 2);
    SelectCellsOfDistinctFrame(f, ind, keys, pos, i);
    var p := SelectCells(f, ind, keys);
    var vs, ws := Coerced(co, p.cells[i]), SelectedValues(co, f.rows[i], sel);
    forall k | 0 <= k < |sel|
      ensures vs[k] == ws[k]
    {
      assert p.cells[i][k] == f.rows[i][pos[k]];
    }
  }

  /**
   On a frame whose column labels are all distinct, a row's total over a
   selection is Σ_k m_k copies of v_k, where v_k is the k-th selected cell
   and m_k how often its label was selected.
   */
  lemma AggregateOfDistinctLabels(co: Coercion, f: Frame, ind: nat, sel: seq<nat>, i: nat)
    requires ind < |f.columns| && DistinctLabels(f.columns) && i < |f.rows|
    requires forall k :: 0 <= k < |sel| ==> sel[k] < MaxDay(f)
    ensures |f.rows[i]| == |f.columns|
    ensures AggregatePeriod(co, SelectCells(f, ind, LabelsAt(f, sel)), LabelsAt(f, sel))[i].total ==
      WeightedSum(LabelsAt(f, sel), LabelsAt(f, sel), SelectedValues(co, f.rows[i], sel))
  {
    PeriodOfDistinctLabels(co, f, ind, sel, i);
    var keys := LabelsAt(f, sel);
    var vals := SelectedValues(co, f.rows[i], sel);
    SameLabelSameValue(co, f, sel, f.rows[i]);
    SelectSum(keys, vals, keys, vals);
    var p := SelectCells(f, ind, keys);
    assert AggregatePeriod(co, p, keys)[i].total == Sum(SelectByLabels(p.columns, Coerced(co, p.cells[i]), keys));
  }

  /** With distinct labels, two selection entries with one label read one column, hence one value. */
  lemma SameLabelSameValue(co: Coercion, f: Frame, sel: seq<nat>, row: seq<string>)
    requires DistinctLabels(f.columns) && |row| == |f.columns|
    requires forall k :: 0 <= k < |sel| ==> sel[k] < MaxDay(f)
    ensures forall k :: 0 <= k < |sel| ==> Uniform(LabelsAt(f, sel), SelectedValues(co, row, sel), LabelsAt(f, sel)[k], SelectedValues(co, row, sel)[k])
  {
    var keys := LabelsAt(f, sel);
    var vals := SelectedValues(co, row, sel);
    forall k | 0 <= k < |keys|
      ensures Uniform(keys, vals, keys[k], vals[k])
    {
      forall j | 0 <= j < |keys| && keys[j] == keys[k]
        ensures vals[j] == vals[k]
      {
        DistinctAt(f.columns, sel[k] + 2);
        assert f.columns[sel[j] + 2] == f.columns[sel[k] + 2];
        assert sel[j] == sel[k];
      }
    }
  }

  /** How many of the labels equal `key`. */
  function Count<L(==)>(labels: seq<L>, key: L): nat {
    if |labels| == 0 then 0 else (if labels[0] == key then 1 else 0) + Count(labels[1..], key)
  }

  /** `v` added up `n` times. */
  function Times(n: nat, v: real): real {
    if n == 0 then 0.0 else v + Times(n - 1, v)
  }

  /** Σ_k (how many labels equal keys[k]) copies of vals[k]. */
  function WeightedSum<L(==)>(labels: seq<L>, keys: seq<L>, vals: seq<real>): real {
    if |keys| == 0 || |vals| == 0 then 0.0
    else Times(Count(labels, keys[0]), vals[0]) + WeightedSum(labels, keys[1..], vals[1..])
  }

  /** Every column carrying `key` holds `v`. */
  predicate Uniform<L(==)>(labels: seq<L>, vals: seq<real>, key: L, v: real) {
    forall j :: 0 <= j < |labels| && j < |vals| && labels[j] == key ==> vals[j] == v
  }

  /** Selecting a label whose columns all hold `v` adds `v` once per such column. */
  lemma {:induction false} MatchingSum<L>(labels: seq<L>, vals: seq<real>, key: L, v: real)
    requires |labels| == |vals|
    requires Uniform(labels, vals, key, v)
    ensures Sum(Matching(labels, vals, key)) == Times(Count(labels, key), v)
  {
    if |labels| > 0 {
      var tail, tailVals := labels[1..], vals[1..];
      assert Uniform(tail, tailVals, key, v) by {
        forall j | 0 <= j < |tail| && j < |tailVals| && tail[j] == key
          ensures tailVals[j] == v
        {
          assert tail[j] == labels[j + 1];
        }
      }
      MatchingSum(tail, tailVals, key, v);
      var rest := Matching(tail, tailVals, key);
      if labels[0] == key {
        assert Matching(labels, vals, key) == [vals[0]] + rest;
        SumAppend([vals[0]], rest);
      } else {
        assert Matching(labels, vals, key) == rest;
      }
    }
  }

  /**
   frame[keys] summed, when every column carrying keys[k] holds kv[k]: each
   key adds its value once per column carrying it.
   */
  lemma {:induction false} SelectSum<L>(labels: seq<L>, vals: seq<real>, keys: seq<L>, kv: seq<real>)
    requires |labels| == |vals| && |keys| == |kv|
    requires forall k :: 0 <= k < |keys| ==> Uniform(labels, vals, keys[k], kv[k])
    ensures Sum(SelectByLabels(labels, vals, keys)) == WeightedSum(labels, keys, kv)
  {
    if |keys| > 0 {
      MatchingSum(labels, vals, keys[0], kv[0]);
      assert forall k :: 0 <= k < |keys[1..]| ==> keys[1..][k] == keys[k + 1] && kv[1..][k] == kv[k + 1];
      SelectSum(labels, vals, keys[1..], kv[1..]);
      SumAppend(Matching(labels, vals, keys[0]), SelectByLabels(labels, vals, keys[1..]));
    }
  }

  /**
   The total of a row is Σ_k m_k · v_k over the selection, where v_k is the
   k-th selected cell and m_k how often its label was selected: a day column
   selected m times counts m² times.
   */
  lemma AggregateWeighsRepeats(co: Coercion, f: Frame, start: int, end: int, i: int)
    requires DistinctLabels(f.columns)
    requires IndicatorColumn(f).Some? && |SelectedDays(co, f, start, end)| > 0
    requires 0 <= i < |f.rows|
    ensures forall k :: 0 <= k < |SelectedDays(co, f, start, end)| ==> SelectedDays(co, f, start, end)[k] + 2 < |f.rows[i]|
    ensures ProcessData(co, f, start, end).aggregate[i].total ==
      WeightedSum(SelectedLabels(co, f, start, end), SelectedLabels(co, f, start, end),
                  SelectedValues(co, f.rows[i], SelectedDays(co, f, start, end)))
  {
    AggregateOfDistinctLabels(co, f, IndicatorColumn(f).value, SelectedDays(co, f, start, end), i);
  }

  /** Two labels selected as [a, a, b] weigh the column of `a` four times and that of `b` once. */
  lemma RepeatedLabelCountsSquared(a: ColumnLabel, b: ColumnLabel, x: real, z: real)
    requires a != b
    ensures WeightedSum([a, a, b], [a, a, b], [x, x, z]) == 4.0 * x + z
  {
    var labels := [a, a, b];
    assert labels[1..] == [a, b] && [a, b][1..] == [b] && [b][1..] == [];
    assert Count([b], a) == 0 && Count([a, b], a) == 1 && Count(labels, a) == 2;
    assert Count([b], b) == 1 && Count([a, b], b) == 1 && Count(labels, b) == 1;
    assert Times(1, z) == z + Times(0, z);
    assert Times(2, x) == x + Times(1, x) && Times(1, x) == x + Times(0, x);
    assert [x, x, z][1..] == [x, z] && [x, z][1..] == [z] && [z][1..] == [];
    assert WeightedSum(labels, [b], [z]) == z;
    assert WeightedSum(labels, [a, b], [x, z]) == x + x + z;
  }

  /**
   For an in-range selection without key collisions on a frame whose labels
   are distinct, each indicator's total is the sum of its coerced cells in
   frame columns start+1 .. end+1 (day columns start..end), non-numeric
   cells counting as 0.
   */
  lemma PeriodSumIsPositionalSum(co: Coercion, f: Frame, start: int, end: int, i: int)
    requires DistinctLabels(f.columns) && NoKeyCollision(co, DayColumns(f))
    requires 1 <= start <= end <= MaxDay(f)
    requires IndicatorColumn(f).Some?
    requires 0 <= i < |f.rows|
    ensures end + 2 <= |f.rows[i]|
    ensures ProcessData(co, f, start, end).aggregate[i].total == Sum(RunValues(co, f.rows[i], start, end))
  {
    var sel := SelectedDays(co, f, start, end);
    SelectionIsPositional(co, f, start, end);
    var ind := IndicatorColumn(f).value;
    PeriodOfDistinctLabels(co, f, ind, sel, i);
    var keys := LabelsAt(f, sel);
    var p := SelectCells(f, ind, keys);
    var vals := SelectedValues(co, f.rows[i], sel);
    assert DistinctLabels(keys) by {
      forall a, b | 0 <= a < b < |keys|
        ensures keys[a] != keys[b]
      {
        assert f.columns[sel[a] + 2] != f.columns[sel[b] + 2];
      }
    }
    SelectDistinctLabels(keys, vals);
    assert AggregatePeriod(co, p, keys)[i].total == Sum(vals);
    SelectedValuesOfRun(co, f.rows[i], sel, start, end);
  }

  /**
   For an in-range selection without key collisions on a frame whose labels
   are distinct, data_period carries the labels of day columns start..end,
   each once, and each of its rows holds that row's cells in frame columns
   start+1 .. end+1.
   */
  lemma PeriodIsPositional(co: Coercion, f: Frame, start: int, end: int, i: int)
    requires DistinctLabels(f.columns) && NoKeyCollision(co, DayColumns(f))
    requires 1 <= start <= end <= MaxDay(f)
    requires IndicatorColumn(f).Some?
    requires 0 <= i < |f.rows|
    ensures end + 2 <= |f.rows[i]|
    ensures |ProcessData(co, f, start, end).period.cells| == |f.rows|
    ensures ProcessData(co, f, start, end).period.columns == SelectedLabels(co, f, start, end)
    ensures DistinctLabels(SelectedLabels(co, f, start, end))
    ensures ProcessData(co, f, start, end).period.cells[i] == f.rows[i][start + 1..end + 2]
  {
    SelectionIsPositional(co, f, start, end);
    SelectCellsOfRun(f, IndicatorColumn(f).value, SelectedDays(co, f, start, end), start, end, i);
  }

  /** Day columns start..end of a frame with distinct labels carry distinct labels. */
  lemma RunLabelsDistinct(f: Frame, sel: seq<nat>, start: int, end: int)
    requires DistinctLabels(f.columns)
    requires 1 <= start <= end <= MaxDay(f)
    requires |sel| == end - start + 1 && forall k :: 0 <= k < |sel| ==> sel[k] == start - 1 + k
    ensures DistinctLabels(LabelsAt(f, sel))
  {
    var keys := LabelsAt(f, sel);
    forall a, b | 0 <= a < b < |keys|
      ensures keys[a] != keys[b]
    {
      assert sel[a] + 2 < sel[b] + 2 < |f.columns|;
      assert f.columns[sel[a] + 2] != f.columns[sel[b] + 2];
    }
  }

  /** Selecting the labels of day columns start..end of a frame with distinct labels. */
  lemma SelectCellsOfRun(f: Frame, ind: nat, sel: seq<nat>, start: int, end: int, i: nat)
    requires ind < |f.columns| && DistinctLabels(f.columns) && i < |f.rows|
    requires 1 <= start <= end <= MaxDay(f)
    requires |sel| == end - start + 1 && forall k :: 0 <= k < |sel| ==> sel[k] == start - 1 + k
    ensures end + 2 <= |f.rows[i]|
    ensures SelectCells(f, ind, LabelsAt(f, sel)).columns == LabelsAt(f, sel)
    ensures DistinctLabels(LabelsAt(f, sel))
    ensures SelectCells(f, ind, LabelsAt(f, sel)).cells[i] == f.rows[i][start + 1..end + 2]
  {
    RowWidth(f, i);
    var keys := LabelsAt(f, sel);
    assert forall k :: 0 <= k < |keys| ==> keys[k] == f.columns[start + 1 + k];
    RunCellsOfDistinctFrame(f, ind, keys, start, end, i);
    RunLabelsDistinct(f, sel, start, end);
  }

  /** Selecting, on a frame with distinct labels, the labels of frame columns start+1 .. end+1 in order. */
  lemma RunCellsOfDistinctFrame(f: Frame, ind: nat, keys: seq<ColumnLabel>, start: int, end: int, i: nat)
    requires ind < |f.columns| && DistinctLabels(f.columns) && i < |f.rows|
    requires 1 <= start <= end && end + 2 <= |f.columns|
    requires |keys| == end - start + 1 && forall k :: 0 <= k < |keys| ==> keys[k] == f.columns[start + 1 + k]
    ensures SelectCells(f, ind, keys).columns == keys
    ensures end + 2 <= |f.rows[i]|
    ensures SelectCells(f, ind, keys).cells[i] == f.rows[i][start + 1..end + 2]
  {
    RowWidth(f, i);
    var pos := seq(|keys|, k requires 0 <= k < |keys| => start + 1 + k);
    forall k | 0 <= k < |pos|
      ensures pos[k] < |f.columns| && keys[k] == f.columns[pos[k]]
    {
      assert pos[k] == start + 1 + k;
    }
    SelectCellsOfDistinctFrame(f, ind, keys, pos, i);
    var cells := SelectCells(f, ind, keys).cells[i];
    forall k | 0 <= k < |cells|
      ensures cells[k] == f.rows[i][start + 1 + k]
    {
      assert cells[k] == f.rows[i][pos[k]];
    }
    CellsOfRun(f.rows[i], cells, start, end);
  }

  /** Cells that read row[start+1+k] for each k are the row's slice start+1 .. end+1. */
  lemma CellsOfRun(row: seq<string>, cells: seq<string>, start: int, end: int)
    requires 1 <= start <= end && end + 2 <= |row|
    requires |cells| == end - start + 1 && forall k :: 0 <= k < |cells| ==> cells[k] == row[start + 1 + k]
    ensures cells == row[start + 1..end + 2]
  {
  }

  /** Selecting a run of consecutive day columns reads the consecutive cells. */
  lemma SelectedValuesOfRun(co: Coercion, row: seq<string>, sel: seq<nat>, start: int, end: int)
    requires 1 <= start <= end && |sel| == end - start + 1
    requires forall k :: 0 <= k < |sel| ==> sel[k] == start - 1 + k
    requires end + 2 <= |row|
    ensures SelectedValues(co, row, sel) == RunValues(co, row, start, end)
  {
  }

  /** The coerced cells of frame columns start+1 .. end+1 of a row (day columns start..end), non-numeric cells as 0. */
  function RunValues(co: Coercion, row: seq<string>, start: int, end: int): (vs: seq<real>)
    requires 1 <= start <= end && end + 2 <= |row|
    ensures |vs| == end - start + 1
    ensures forall k :: 0 <= k < |vs| ==> vs[k] == NumberOrZero(co, row[start + 1 + k])
  {
    seq(end - start + 1, k requires 0 <= k < end - start + 1 => NumberOrZero(co, row[start + 1 + k]))
  }

  /** A DataProcessor: the loaded frame and the aggregate cached by the last successful process_data. */
  datatype DataProcessor = DataProcessor(frame: Frame, cache: Option<Aggregate>)

  /** load_from_gsheet: replaces the frame; data_columns and max_day follow from it; the cache is kept. */
  function LoadFromGsheet(p: DataProcessor, f: Frame): (q: DataProcessor)
    ensures q.frame == f && q.cache == p.cache
    ensures MaxDay(q.frame) == |DayColumns(f)|
  {
    p.(frame := f)
  }

  /** A processor freshly built and loaded with `f`: nothing cached yet. */
  function FreshProcessor(f: Frame): (p: DataProcessor)
    ensures p.frame == f && p.cache.None?
  {
    DataProcessor(f, None)
  }

  /** process_data as a state change: the aggregate is cached only when one is produced. */
  function Process(co: Coercion, p: DataProcessor, start: int, end: int): (out: (DataProcessor, PeriodResult))
    ensures out.1 == ProcessData(co, p.frame, start, end)
    ensures out.0.frame == p.frame
    ensures out.0.cache == if |SelectedDays(co, p.frame, start, end)| > 0 && IndicatorColumn(p.frame).Some?
      then Some(out.1.aggregate) else p.cache
  {
    var r := ProcessData(co, p.frame, start, end);
    if |SelectedDays(co, p.frame, start, end)| > 0 && IndicatorColumn(p.frame).Some? then
      (p.(cache := Some(r.aggregate)), r)
    else (p, r)
  }

  /**
   find_metric_value: 0 for an empty frame, a frame without an indicator
   column, or no cached aggregate; otherwise the substring resolver on the
   cached aggregate.
   */
  function FindMetricValue(p: DataProcessor, fragment: string): (r: real)
    ensures IsEmpty(p.frame) || IndicatorColumn(p.frame).None? || p.cache.None? ==> r == 0.0
    ensures !IsEmpty(p.frame) && IndicatorColumn(p.frame).Some? && p.cache.Some? ==>
      r == Resolver.SubstringValue(p.cache.value, fragment)
  {
    if IsEmpty(p.frame) || IndicatorColumn(p.frame).None? then 0.0
    else match p.cache
      case None => 0.0
      case Some(agg) => Resolver.SubstringValue(agg, fragment)
  }

  /**
   A lookup after process_data: a run that selected days reads its own
   aggregate; a run that selected none leaves every lookup as it was.
   */
  lemma LookupAfterProcess(co: Coercion, p: DataProcessor, start: int, end: int, fragment: string)
    ensures var (q, r) := Process(co, p, start, end);
      !IsEmpty(p.frame) && |SelectedDays(co, p.frame, start, end)| > 0 && IndicatorColumn(p.frame).Some? ==>
        FindMetricValue(q, fragment) == Resolver.SubstringValue(r.aggregate, fragment)
    ensures |SelectedDays(co, p.frame, start, end)| == 0 ==>
      FindMetricValue(Process(co, p, start, end).0, fragment) == FindMetricValue(p, fragment)
  {
  }
}

=== FILE: reasons.dfy ===
/**
 The refusal-reasons chart (ChartGenerator.create_reasons_bar): the reason
 labels are the stripped first-column cells between the "ОТКАЗЫ" header and
 the target-spend row; each is resolved through the substring resolver, the
 positive ones are kept, at most MaxReasonsDisplay of the largest survive,
 and they are shown in ascending order.
 */
module Reasons {
  import opened Wrappers
  import opened Text
  import opened Table
  import opened Config
  import Resolver

  /** One refusal reason and its period count. */
  datatype Reason = Reason(name: string, count: real)

  /** The stripped first column of the sheet, one cell per row; empty when the sheet has no columns. */
  function FirstColumn(f: Frame): (col: seq<string>)
    ensures |f.columns| > 0 ==> |col| == |f.rows| && forall i :: 0 <= i < |f.rows| ==> col[i] == Trim(f.rows[i][0])
    ensures |f.columns| == 0 ==> col == []
  {
    if |f.columns| == 0 then []
    else
      assert forall i :: 0 <= i < |f.rows| ==> |f.rows[i]| == |f.columns| by {
        forall i | 0 <= i < |f.rows|
          ensures |f.rows[i]| == |f.columns|
        {
          assert f.rows[i] in f.rows;
        }
      }
      seq(|f.rows|, i requires 0 <= i < |f.rows| => Trim(f.rows[i][0]))
  }

  /** The header that opens the reasons block. */
  predicate IsRefusalsHeader(cell: string) {
    Upper(cell) == "ОТКАЗЫ"
  }

  /** The row that closes the reasons block. */
  predicate IsTargetSpendRow(cell: string) {
    Contains(Lower(cell), "траты на таргет")
  }

  /** The block's first row: just after the first "ОТКАЗЫ" header, or ReasonsStartRow when there is none. */
  function BlockStart(col: seq<string>): (start: nat)
    ensures forall i :: 0 <= i < |col| && IsRefusalsHeader(col[i]) && (forall j :: 0 <= j < i ==> !IsRefusalsHeader(col[j])) ==> start == i + 1
    ensures (forall i :: 0 <= i < |col| ==> !IsRefusalsHeader(col[i])) ==> start == ReasonsStartRow
  {
    match Resolver.FirstWhere(col, IsRefusalsHeader)
    case Some(i) => i + 1
    case None => ReasonsStartRow
  }

  /** The block's end (exclusive): the first target-spend row, or the number of rows. */
  function BlockEnd(col: seq<string>): (end: nat)
    ensures end <= |col|
    ensures forall j :: 0 <= j < end ==> !IsTargetSpendRow(col[j])
    ensures forall i :: 0 <= i < |col| && IsTargetSpendRow(col[i]) && (forall j :: 0 <= j < i ==> !IsTargetSpendRow(col[j])) ==> end == i
    ensures (forall i :: 0 <= i < |col| ==> !IsTargetSpendRow(col[i])) ==> end == |col|
  {
    match Resolver.FirstWhere(col, IsTargetSpendRow)
    case Some(i) => i
    case None => |col|
  }

  /** The cells of a first column from the block start up to, not including, the first target-spend row. */
  function Block(col: seq<string>): (r: seq<string>)
    ensures forall x :: x in r ==> x in col
    ensures BlockStart(col) < BlockEnd(col) ==> r == col[BlockStart(col)..BlockEnd(col)]
    ensures BlockEnd(col) <= BlockStart(col) ==> r == []
    ensures forall k :: 0 <= k < |r| ==> !IsTargetSpendRow(r[k])
  {
    var lo, hi := BlockStart(col), BlockEnd(col);
    if lo < hi then Rows(col, lo, hi) else []
  }

  /** Rows lo..hi of a column none of whose first hi rows is a target-spend row. */
  function Rows(col: seq<string>, lo: nat, hi: nat): (r: seq<string>)
    requires lo < hi <= |col|
    requires forall j :: 0 <= j < hi ==> !IsTargetSpendRow(col[j])
    ensures r == col[lo..hi]
    ensures forall x :: x in r ==> x in col
    ensures forall k :: 0 <= k < |r| ==> !IsTargetSpendRow(r[k])
  {
    var r := col[lo..hi];
    assert forall k :: 0 <= k < |r| ==> r[k] == col[lo + k];
    r
  }

  /**
   The reason labels of the sheet: the first-column cells from the block
   start up to, not including, the first target-spend row.
   */
  function ReasonLabels(f: Frame): (r: seq<string>)
    ensures forall x :: x in r ==> x in FirstColumn(f)
    ensures BlockStart(FirstColumn(f)) < BlockEnd(FirstColumn(f)) ==>
      r == FirstColumn(f)[BlockStart(FirstColumn(f))..BlockEnd(FirstColumn(f))]
    ensures BlockEnd(FirstColumn(f)) <= BlockStart(FirstColumn(f)) ==> r == []
    ensures forall k :: 0 <= k < |r| ==> !IsTargetSpendRow(r[k])
  {
    Block(FirstColumn(f))
  }

  /** Each label with the substring resolver's count, the non-positive ones dropped, in sheet order. */
  function PositiveReasons(agg: Aggregate, labels: seq<string>): (r: seq<Reason>)
    ensures forall x :: x in r <==> x.name in labels && x.count > 0.0 && x.count == Resolver.SubstringValue(agg, x.name)
    ensures |labels| == 1 ==> r == ReasonIfPositive(agg, labels[0])
  {
    if |labels| == 0 then []
    else
      var v := Resolver.SubstringValue(agg, labels[0]);
      var rest := PositiveReasons(agg, labels[1..]);
      assert forall n :: n in labels <==> n == labels[0] || n in labels[1..];
      if v > 0.0 then [Reason(labels[0], v)] + rest else rest
  }

  /** The reason for one label if its count is positive, nothing otherwise. */
  function ReasonIfPositive(agg: Aggregate, name: string): seq<Reason> {
    var v := Resolver.SubstringValue(agg, name);
    if v > 0.0 then [Reason(name, v)] else []
  }

  /** The reasons of a run of labels are those of each part in turn: sheet order and repeats are kept. */
  lemma {:induction false} PositiveReasonsAppend(agg: Aggregate, a: seq<string>, b: seq<string>)
    ensures PositiveReasons(agg, a + b) == PositiveReasons(agg, a) + PositiveReasons(agg, b)
  {
    if |a| == 0 {
      assert a + b == b;
    } else {
      assert (a + b)[0] == a[0] && (a + b)[1..] == a[1..] + b;
      PositiveReasonsAppend(agg, a[1..], b);
    }
  }

  /** Counts never increase along the sequence. */
  predicate Descending(s: seq<Reason>) {
    forall i, j :: 0 <= i < j < |s| ==> s[i].count >= s[j].count
  }

  /** Counts never decrease along the sequence. */
  predicate Ascending(s: seq<Reason>) {
    forall i, j :: 0 <= i < j < |s| ==> s[i].count <= s[j].count
  }

  /** An entry counting at least every entry of a descending sequence can go in front of it. */
  lemma PrependDescending(a: Reason, s: seq<Reason>)
    requires Descending(s)
    requires forall e :: e in s ==> e.count <= a.count
    ensures Descending([a] + s)
  {
    var r := [a] + s;
    forall i, j | 0 <= i < j < |r|
      ensures r[i].count >= r[j].count
    {
      if i == 0 {
        assert r[j] in s;
      } else {
        assert r[i] == s[i - 1] && r[j] == s[j - 1];
      }
    }
  }

  /** Putting the head of `s` back in front of `x` inserted into the tail is `x` inserted into `s`. */
  lemma InsertBehindHead(x: Reason, s: seq<Reason>, rest: seq<Reason>)
    requires Descending(s) && |s| > 0 && x.count < s[0].count
    requires Descending(rest)
    requires multiset(rest) == multiset(s[1..]) + multiset{x}
    requires forall e :: e in rest ==> e == x || e in s[1..]
    ensures Descending([s[0]] + rest)
    ensures multiset([s[0]] + rest) == multiset(s) + multiset{x}
    ensures forall e :: e in [s[0]] + rest ==> e == x || e in s
  {
    assert s == [s[0]] + s[1..];
    forall e | e in rest
      ensures e.count <= s[0].count
    {
      if e != x {
        var j :| 0 <= j < |s[1..]| && s[1..][j] == e;
        assert s[j + 1] == e;
      }
    }
    PrependDescending(s[0], rest);
  }

  /** Inserts `x` into a descending sequence ahead of every entry with a count it does not fall below. */
  function InsertDescending(x: Reason, s: seq<Reason>): (r: seq<Reason>)
    requires Descending(s)
    ensures Descending(r)
    ensures multiset(r) == multiset(s) + multiset{x}
    ensures forall e :: e in r ==> e == x || e in s
  {
    if |s| == 0 then [x]
    else if x.count >= s[0].count then
      PrependDescending(x, s);
      [x] + s
    else
      var rest := InsertDescending(x, s[1..]);
      InsertBehindHead(x, s, rest);
      [s[0]] + rest
  }

  /**
   Stable sort by decreasing count: entries with equal counts keep their
   order, so a prefix holds the largest counts preferring earlier entries,
   which is how nlargest(n, keep='first') chooses.
   */
  function SortDescending(s: seq<Reason>): (r: seq<Reason>)
    ensures Descending(r)
    ensures multiset(r) == multiset(s)
  {
    if |s| == 0 then []
    else
      assert s == [s[0]] + s[1..];
      InsertDescending(s[0], SortDescending(s[1..]))
  }

  /** The sequence in reverse order. */
  function Reverse<T>(s: seq<T>): (r: seq<T>)
    ensures |r| == |s|
    ensures forall i :: 0 <= i < |s| ==> r[i] == s[|s| - 1 - i]
  {
    if |s| == 0 then [] else Reverse(s[1..]) + [s[0]]
  }

  /** Reversing keeps every element with its multiplicity. */
  lemma {:induction false} ReverseMultiset<T>(s: seq<T>)
    ensures multiset(Reverse(s)) == multiset(s)
  {
    if |s| > 0 {
      ReverseMultiset(s[1..]);
      assert s == [s[0]] + s[1..];
    }
  }

  /** The smaller of two counts of entries. */
  function Min(a: nat, b: nat): nat {
    if a < b then a else b
  }

  /** In a descending sequence every entry after position k counts at most every entry before it. */
  lemma DescendingPrefixDominates(s: seq<Reason>, k: nat)
    requires Descending(s) && k <= |s|
    ensures forall x, y :: x in s[k..] && y in s[..k] ==> x.count <= y.count
  {
    forall x, y | x in s[k..] && y in s[..k]
      ensures x.count <= y.count
    {
      var i :| 0 <= i < |s[k..]| && s[k..][i] == x;
      var j :| 0 <= j < |s[..k]| && s[..k][j] == y;
      assert s[j] == y && s[k + i] == x;
    }
  }

  /** Reversing a descending sequence gives an ascending one. */
  lemma ReverseDescending(s: seq<Reason>)
    requires Descending(s)
    ensures Ascending(Reverse(s))
  {
    var r := Reverse(s);
    forall i, j | 0 <= i < j < |r|
      ensures r[i].count <= r[j].count
    {
      assert r[i] == s[|s| - 1 - i] && r[j] == s[|s| - 1 - j];
    }
  }

  /** Taking the parts of a split apart: what is left after removing the front is the back. */
  lemma MultisetSplit(s: seq<Reason>, k: nat)
    requires k <= |s|
    ensures multiset(s) - multiset(s[..k]) == multiset(s[k..])
  {
    assert s == s[..k] + s[k..];
  }

  /** The reversed first k entries of a descending arrangement of `kept` are an ascending selection of its k largest. */
  lemma ReversedPrefixIsTop(kept: seq<Reason>, sorted: seq<Reason>, k: nat)
    requires Descending(sorted) && multiset(sorted) == multiset(kept) && k <= |sorted|
    ensures Ascending(Reverse(sorted[..k]))
    ensures |Reverse(sorted[..k])| == k && |sorted| == |kept|
    ensures multiset(Reverse(sorted[..k])) <= multiset(kept)
    ensures forall x, y :: x in multiset(kept) - multiset(Reverse(sorted[..k])) && y in Reverse(sorted[..k]) ==> x.count <= y.count
  {
    var front, back := sorted[..k], sorted[k..];
    var r := Reverse(front);
    assert |multiset(kept)| == |kept| == |sorted| by {
      assert |multiset(sorted)| == |sorted|;
    }
    ReverseMultiset(front);
    ReverseDescending(front);
    MultisetSplit(sorted, k);
    assert multiset(kept) - multiset(r) == multiset(back);
    assert multiset(r) <= multiset(kept) by {
      assert multiset(sorted) == multiset(front) + multiset(back) by {
        assert sorted == front + back;
      }
    }
    DescendingPrefixDominates(sorted, k);
    forall x, y | x in multiset(kept) - multiset(r) && y in r
      ensures x.count <= y.count
    {
      assert y in multiset(r);
      assert y in front;
      assert x in multiset(back);
      assert x in back;
    }
  }

  /** The entries of `s` whose count is `c`, in their order in `s`. */
  function WithCount(s: seq<Reason>, c: real): (r: seq<Reason>)
    ensures |r| <= |s|
    ensures |s| == 1 ==> r == if s[0].count == c then s else []
  {
    if |s| == 0 then []
    else (if s[0].count == c then [s[0]] else []) + WithCount(s[1..], c)
  }

  /** Picking the entries of one count from two runs picks them from each run in turn. */
  lemma {:induction false} WithCountAppend(a: seq<Reason>, b: seq<Reason>, c: real)
    ensures WithCount(a + b, c) == WithCount(a, c) + WithCount(b, c)
  {
    if |a| == 0 {
      assert a + b == b;
    } else {
      assert (a + b)[0] == a[0] && (a + b)[1..] == a[1..] + b;
      WithCountAppend(a[1..], b, c);
    }
  }

  /** Picking the entries of one count keeps each of them with its multiplicity and drops the rest. */
  lemma {:induction false} WithCountMultiset(s: seq<Reason>, c: real)
    ensures forall x :: multiset(WithCount(s, c))[x] == if x.count == c then multiset(s)[x] else 0
  {
    if |s| > 0 {
      WithCountMultiset(s[1..], c);
      assert s == [s[0]] + s[1..];
      WithCountAppend([s[0]], s[1..], c);
    }
  }

  /** Insertion puts `x` ahead of the entries that count as much as it does. */
  lemma {:induction false} InsertWithCount(x: Reason, s: seq<Reason>, c: real)
    requires Descending(s)
    ensures WithCount(InsertDescending(x, s), c) == (if x.count == c then [x] else []) + WithCount(s, c)
  {
    var front := if x.count == c then [x] else [];
    assert WithCount([x], c) == front;
    if |s| == 0 {
      assert InsertDescending(x, s) == [x];
      assert WithCount(s, c) == [];
    } else if x.count >= s[0].count {
      assert InsertDescending(x, s) == [x] + s;
      WithCountAppend([x], s, c);
    } else {
      var rest := InsertDescending(x, s[1..]);
      assert InsertDescending(x, s) == [s[0]] + rest;
      InsertWithCount(x, s[1..], c);
      var head := WithCount([s[0]], c);
      WithCountAppend([s[0]], rest, c);
      assert s == [s[0]] + s[1..];
      WithCountAppend([s[0]], s[1..], c);
      assert head == [] || front == [];
      calc {
        WithCount(InsertDescending(x, s), c);
        head + (front + WithCount(s[1..], c));
        front + (head + WithCount(s[1..], c));
        front + WithCount(s, c);
      }
    }
  }

  /** The sort is stable: the entries of any one count keep their relative order. */
  lemma {:induction false} SortStable(s: seq<Reason>, c: real)
    ensures WithCount(SortDescending(s), c) == WithCount(s, c)
  {
    if |s| > 0 {
      SortStable(s[1..], c);
      InsertWithCount(s[0], SortDescending(s[1..]), c);
      assert s == [s[0]] + s[1..];
      WithCountAppend([s[0]], s[1..], c);
    }
  }

  /**
   Among entries with equal counts, `r` holds the earliest ones of `kept`:
   for every count, the entries of `r` with that count are, as a multiset,
   the first that many entries of `kept` with that count.
   */
  ghost predicate KeepsFirstTies(r: seq<Reason>, kept: seq<Reason>) {
    forall c :: |WithCount(r, c)| <= |WithCount(kept, c)| &&
      multiset(WithCount(r, c)) == multiset(WithCount(kept, c)[..|WithCount(r, c)|])
  }

  /** Reversing a prefix of a stable descending sort of `kept` keeps the first entries of each count. */
  lemma ReversedPrefixKeepsFirstTies(kept: seq<Reason>, k: nat)
    requires k <= |SortDescending(kept)|
    ensures KeepsFirstTies(Reverse(SortDescending(kept)[..k]), kept)
  {
    var r := Reverse(SortDescending(kept)[..k]);
    forall c
      ensures |WithCount(r, c)| <= |WithCount(kept, c)|
      ensures multiset(WithCount(r, c)) == multiset(WithCount(kept, c)[..|WithCount(r, c)|])
    {
      PrefixKeepsFirstOfCount(kept, k, c);
    }
  }

  /** The entries of count `c` in the reversed first k sorted entries are the first ones of `kept`. */
  lemma PrefixKeepsFirstOfCount(kept: seq<Reason>, k: nat, c: real)
    requires k <= |SortDescending(kept)|
    ensures |WithCount(Reverse(SortDescending(kept)[..k]), c)| <= |WithCount(kept, c)|
    ensures multiset(WithCount(Reverse(SortDescending(kept)[..k]), c)) ==
      multiset(WithCount(kept, c)[..|WithCount(Reverse(SortDescending(kept)[..k]), c)|])
  {
    var sorted := SortDescending(kept);
    var p := sorted[..k];
    var r := Reverse(p);
    SortStable(kept, c);
    assert sorted == p + sorted[k..];
    WithCountAppend(p, sorted[k..], c);
    var wp := WithCount(p, c);
    assert WithCount(kept, c)[..|wp|] == wp;
    ReverseMultiset(p);
    SameCountSameMultiset(p, r, c);
  }

  /** Two arrangements of one multiset have the same entries of each count. */
  lemma SameCountSameMultiset(p: seq<Reason>, r: seq<Reason>, c: real)
    requires multiset(r) == multiset(p)
    ensures multiset(WithCount(r, c)) == multiset(WithCount(p, c))
    ensures |WithCount(r, c)| == |WithCount(p, c)|
  {
    WithCountMultiset(p, c);
    WithCountMultiset(r, c);
    assert multiset(WithCount(r, c)) == multiset(WithCount(p, c));
    assert |WithCount(r, c)| == |multiset(WithCount(r, c))|;
    assert |WithCount(p, c)| == |multiset(WithCount(p, c))|;
  }

  /** nlargest(limit) when there are more than `limit` entries, then sort_values ascending. */
  function TopAscending(kept: seq<Reason>, limit: nat): (r: seq<Reason>)
    ensures Ascending(r)
    ensures |r| == Min(limit, |kept|)
    ensures multiset(r) <= multiset(kept)
    ensures forall x, y :: x in multiset(kept) - multiset(r) && y in r ==> x.count <= y.count
    ensures KeepsFirstTies(r, kept)
  {
    var sorted := SortDescending(kept);
    ReversedPrefixIsTop(kept, sorted, Min(limit, |sorted|));
    ReversedPrefixKeepsFirstTies(kept, Min(limit, |sorted|));
    Reverse(sorted[..Min(limit, |sorted|)])
  }

  /** Two reasons tie for the one place left: the one earlier in the sheet is shown. */
  lemma TieKeepsEarlier(a: Reason, b: Reason)
    requires a.count == b.count
    ensures TopAscending([a, b], 1) == [a]
  {
    var r := TopAscending([a, b], 1);
    assert |r| == 1;
    assert r[0] in multiset([a, b]);
    assert r[0].count == a.count;
    assert WithCount(r, a.count) == r;
    assert [a, b][1..] == [b] && WithCount([b], a.count) == [b];
    assert WithCount([a, b], a.count) == [a, b];
    assert multiset(r) == multiset([a, b][..1]);
    assert r[0] in multiset([a]);
  }

  /** Every entry of a sub-multiset is an entry of the whole. */
  lemma SubMultisetMembers(part: seq<Reason>, whole: seq<Reason>)
    requires multiset(part) <= multiset(whole)
    ensures forall x :: x in part ==> x in whole
  {
    forall x | x in part
      ensures x in whole
    {
      assert x in multiset(part);
    }
  }

  /** A sub-multiset as large as the whole is the whole. */
  lemma SubMultisetOfSameSize(part: multiset<Reason>, whole: multiset<Reason>)
    requires part <= whole && |part| == |whole|
    ensures part == whole
  {
    var rest := whole - part;
    assert part + rest == whole;
    assert |rest| == 0;
  }

  /**
   create_reasons_bar: the positive reasons of the sheet; all of them when
   there are at most MaxReasonsDisplay, else that many of the largest
   (nothing left out counts more than anything drawn); ascending by count.
   Empty means an empty figure.
   */
  function ReasonsBar(agg: Aggregate, f: Frame): (r: seq<Reason>)
    ensures Ascending(r)
    ensures |r| == Min(MaxReasonsDisplay, |PositiveReasons(agg, ReasonLabels(f))|)
    ensures multiset(r) <= multiset(PositiveReasons(agg, ReasonLabels(f)))
    ensures |PositiveReasons(agg, ReasonLabels(f))| <= MaxReasonsDisplay ==>
      multiset(r) == multiset(PositiveReasons(agg, ReasonLabels(f)))
    ensures forall x, y :: x in multiset(PositiveReasons(agg, ReasonLabels(f))) - multiset(r) && y in r ==> x.count <= y.count
    ensures KeepsFirstTies(r, PositiveReasons(agg, ReasonLabels(f)))
    ensures forall x :: x in r ==> x.count > 0.0 && x.name in ReasonLabels(f) && x.count == Resolver.SubstringValue(agg, x.name)
  {
    var kept := PositiveReasons(agg, ReasonLabels(f));
    var r := TopAscending(kept, MaxReasonsDisplay);
    SubMultisetMembers(r, kept);
    if |kept| <= MaxReasonsDisplay then
      SubMultisetOfSameSize(multiset(r), multiset(kept));
      r
    else r
  }
}

=== FILE: resolver.dfy ===
/**
 Looking up an indicator's period total by a name fragment. Two resolvers
 exist in the source:
 - the substring resolver (ChartGenerator._safe_find_metric, viz _safe_value,
   DataProcessor.find_metric_value): the first row whose indicator contains
   the fragment, case-insensitively, else 0;
 - the tiered resolver (MetricsCalculator._safe_find_metric): an exact
   trimmed match first, then the substring rule, then, for spend-related
   fragments, the first row naming both "траты" and "таргет", else 0.
 Ties are broken by row order. A fragment that is not a valid pattern makes
 str.contains raise; both resolvers catch that and answer 0.
 */
module Resolver {
  import opened Wrappers
  import opened Text
  import opened Pattern
  import opened Table

  /** Index of the first element satisfying `p`. */
  function FirstWhere<T>(s: seq<T>, p: T -> bool): (r: Option<nat>)
    ensures r.Some? ==> r.value < |s| && p(s[r.value])
    ensures r.Some? ==> forall j :: 0 <= j < r.value ==> !p(s[j])
    ensures r.None? ==> forall j :: 0 <= j < |s| ==> !p(s[j])
  {
    if |s| == 0 then None
    else if p(s[0]) then Some(0)
    else match FirstWhere(s[1..], p)
      case Some(i) => Some(i + 1)
      case None => None
  }

  /** The row's indicator contains `literal`, ignoring case. */
  predicate Mentions(row: AggRow, literal: string) {
    ContainsIgnoringCase(row.indicator, literal)
  }

  /** The row's trimmed indicator equals the trimmed fragment. */
  predicate NamedExactly(row: AggRow, fragment: string) {
    Trim(row.indicator) == Trim(fragment)
  }

  /** The row names both spend keywords. */
  predicate NamesTargetSpend(row: AggRow) {
    Mentions(row, "траты") && Mentions(row, "таргет")
  }

  /** The fragment is spend-related, so the keyword tier applies to it. */
  predicate AsksForTargetSpend(fragment: string) {
    Contains(Lower(fragment), "траты") || Contains(Lower(fragment), "таргет")
  }

  predicate FirstMention(agg: Aggregate, i: int, literal: string) {
    && 0 <= i < |agg|
    && Mentions(agg[i], literal)
    && forall j :: 0 <= j < i ==> !Mentions(agg[j], literal)
  }

  predicate NoMention(agg: Aggregate, literal: string) {
    forall j :: 0 <= j < |agg| ==> !Mentions(agg[j], literal)
  }

  predicate FirstExact(agg: Aggregate, i: int, fragment: string) {
    && 0 <= i < |agg|
    && NamedExactly(agg[i], fragment)
    && forall j :: 0 <= j < i ==> !NamedExactly(agg[j], fragment)
  }

  predicate NoExact(agg: Aggregate, fragment: string) {
    forall j :: 0 <= j < |agg| ==> !NamedExactly(agg[j], fragment)
  }

  predicate FirstTargetSpend(agg: Aggregate, i: int) {
    && 0 <= i < |agg|
    && NamesTargetSpend(agg[i])
    && forall j :: 0 <= j < i ==> !NamesTargetSpend(agg[j])
  }

  predicate NoTargetSpend(agg: Aggregate) {
    forall j :: 0 <= j < |agg| ==> !NamesTargetSpend(agg[j])
  }

  /** Total of the first row mentioning `literal`, or 0 when none does. */
  function FirstMentionTotal(agg: Aggregate, literal: string): (r: real)
    ensures forall i :: FirstMention(agg, i, literal) ==> r == agg[i].total
    ensures NoMention(agg, literal) ==> r == 0.0
  {
    match FirstWhere(agg, (row: AggRow) => Mentions(row, literal))
    case Some(i) => agg[i].total
    case None => 0.0
  }

  /** The substring resolver. */
  function SubstringValue(agg: Aggregate, fragment: string): (r: real)
    ensures Compile(fragment).None? ==> r == 0.0
    ensures Compile(fragment).Some? ==>
      forall i :: FirstMention(agg, i, Compile(fragment).value) ==> r == agg[i].total
    ensures Compile(fragment).Some? && NoMention(agg, Compile(fragment).value) ==> r == 0.0
  {
    match Compile(fragment)
    case Some(literal) => FirstMentionTotal(agg, literal)
    case None => 0.0
  }

  /** The keyword tier: the first row naming both "траты" and "таргет". */
  function TargetSpendTotal(agg: Aggregate): (r: real)
    ensures forall i :: FirstTargetSpend(agg, i) ==> r == agg[i].total
    ensures NoTargetSpend(agg) ==> r == 0.0
  {
    match FirstWhere(agg, NamesTargetSpend)
    case Some(i) => agg[i].total
    case None => 0.0
  }

  /** Tiers two to four of the tiered resolver, reached when no row is named exactly. */
  function ContainmentTiers(agg: Aggregate, fragment: string): (r: real)
    ensures Compile(fragment).None? ==> r == 0.0
    ensures Compile(fragment).Some? ==>
      forall i :: FirstMention(agg, i, Compile(fragment).value) ==> r == agg[i].total
    ensures Compile(fragment).Some? && NoMention(agg, Compile(fragment).value) ==>
      if AsksForTargetSpend(fragment) then
        (forall i :: FirstTargetSpend(agg, i) ==> r == agg[i].total) && (NoTargetSpend(agg) ==> r == 0.0)
      else r == 0.0
  {
    match Compile(fragment)
    case None => 0.0
    case Some(literal) =>
      match FirstWhere(agg, (row: AggRow) => Mentions(row, literal))
      case Some(i) => agg[i].total
      case None => if AsksForTargetSpend(fragment) then TargetSpendTotal(agg) else 0.0
  }

  /** Index of the first row named exactly `fragment`. */
  function ExactIndex(agg: Aggregate, fragment: string): (r: Option<nat>)
    ensures r.Some? ==> FirstExact(agg, r.value, fragment)
    ensures r.None? ==> NoExact(agg, fragment)
  {
    FirstWhere(agg, (row: AggRow) => NamedExactly(row, fragment))
  }

  /** At most one row is the first exact match. */
  lemma FirstExactUnique(agg: Aggregate, fragment: string, i: int, k: int)
    requires FirstExact(agg, i, fragment) && FirstExact(agg, k, fragment)
    ensures i == k
  {
  }

  /** The tiered resolver. */
  function TieredValue(agg: Aggregate, fragment: string): (r: real)
    ensures |agg| == 0 ==> r == 0.0
    ensures forall i :: FirstExact(agg, i, fragment) ==> r == agg[i].total
    ensures NoExact(agg, fragment) ==> r == ContainmentTiers(agg, fragment)
  {
    if |agg| == 0 then 0.0
    else match ExactIndex(agg, fragment)
      case Some(i) =>
        assert forall k :: FirstExact(agg, k, fragment) ==> k == i by {
          forall k | FirstExact(agg, k, fragment) {
            FirstExactUnique(agg, fragment, i, k);
          }
        }
        agg[i].total
      case None => ContainmentTiers(agg, fragment)
  }

  /** An empty aggregate (no data for the range) resolves every fragment to 0 in both resolvers. */
  lemma EmptyAggregateResolvesToZero(fragment: string)
    ensures SubstringValue([], fragment) == 0.0
    ensures TieredValue([], fragment) == 0.0
  {
  }

  /** "Непринятые ВЗ" (missed calls) contains "Принятые ВЗ" (accepted calls) once lower-cased. */
  lemma MissedMentionsAccepted(total: real)
    ensures Mentions(AggRow("Непринятые ВЗ", total), "Принятые ВЗ")
  {
    assert OccursAt(Lower("Непринятые ВЗ"), Lower("Принятые ВЗ"), 2);
  }

  /**
   The substring resolver answers the first row that merely contains the
   fragment, while the tiered resolver prefers a later row named exactly by it.
   */
  lemma ExactTierOverridesEarlierContainment(agg: Aggregate, fragment: string, i: int, j: int)
    requires Plain(fragment)
    requires FirstMention(agg, i, fragment)
    requires FirstExact(agg, j, fragment)
    ensures SubstringValue(agg, fragment) == agg[i].total
    ensures TieredValue(agg, fragment) == agg[j].total
  {
    CompilePlain(fragment);
  }

  /** The accepted-calls fragment has no regular-expression syntax and no surrounding whitespace. */
  lemma AcceptedFragmentPlain()
    ensures Plain("Принятые ВЗ") && Trimmed("Принятые ВЗ")
  {
    var p := "Принятые ВЗ";
    forall i | 0 <= i < |p|
      ensures !IsMeta(p[i])
    {
      assert p[i] == ' ' || 'А' <= p[i] <= 'я';
    }
  }

  /** The missed-calls row is not named exactly by the accepted-calls fragment. */
  lemma MissedNotNamedAccepted(total: real)
    ensures !NamedExactly(AggRow("Непринятые ВЗ", total), "Принятые ВЗ")
  {
    TrimFixesTrimmed("Непринятые ВЗ");
    AcceptedFragmentPlain();
    TrimFixesTrimmed("Принятые ВЗ");
    assert |"Непринятые ВЗ"| != |"Принятые ВЗ"|;
  }

  /** The accepted-calls row is named exactly by its own fragment. */
  lemma AcceptedNamedAccepted(total: real)
    ensures NamedExactly(AggRow("Принятые ВЗ", total), "Принятые ВЗ")
  {
  }

  /**
   Two rows, the first merely containing a plain fragment and the second named
   exactly by it: the substring resolver answers the first, the tiered one the second.
   */
  lemma TwoRowOverride(first: AggRow, second: AggRow, fragment: string)
    requires Plain(fragment)
    requires Mentions(first, fragment) && !NamedExactly(first, fragment)
    requires NamedExactly(second, fragment)
    ensures SubstringValue([first, second], fragment) == first.total
    ensures TieredValue([first, second], fragment) == second.total
  {
    var agg := [first, second];
    assert FirstExact(agg, 1, fragment);
    assert FirstMention(agg, 0, fragment);
    ExactTierOverridesEarlierContainment(agg, fragment, 0, 1);
  }

  /** A missed-calls row listed before the accepted-calls row is what the substring resolver reports as accepted calls. */
  lemma AcceptedCallsMisattributed(missed: real, accepted: real)
    ensures SubstringValue([AggRow("Непринятые ВЗ", missed), AggRow("Принятые ВЗ", accepted)], "Принятые ВЗ") == missed
    ensures TieredValue([AggRow("Непринятые ВЗ", missed), AggRow("Принятые ВЗ", accepted)], "Принятые ВЗ") == accepted
  {
    MissedMentionsAccepted(missed);
    MissedNotNamedAccepted(missed);
    AcceptedNamedAccepted(accepted);
    AcceptedFragmentPlain();
    TwoRowOverride(AggRow("Непринятые ВЗ", missed), AggRow("Принятые ВЗ", accepted), "Принятые ВЗ");
  }

  /** When no row is named exactly and some row contains the fragment, the two resolvers agree. */
  lemma TieredAgreesWithSubstring(agg: Aggregate, fragment: string)
    requires NoExact(agg, fragment)
    requires Compile(fragment).Some? && !NoMention(agg, Compile(fragment).value)
    ensures TieredValue(agg, fragment) == SubstringValue(agg, fragment)
  {
    var literal := Compile(fragment).value;
    var i := FirstWhere(agg, (row: AggRow) => Mentions(row, literal));
    assert i.Some?;
    assert FirstMention(agg, i.value, literal);
  }
}

=== FILE: scripts.dfy ===
/**
 Script-compliance bars (ChartGenerator.create_scripts_bar): for each staff
 member, the mean of the parseable percentage cells of the first period row
 naming that member's script metric, rounded to one decimal, with a colour
 band per value.
 */
module Scripts {
  import opened Wrappers
  import opened Text
  import opened Numbers
  import opened Table
  import opened Config
  import Processor
  import Resolver

  /** The metric name searched for a staff member: "Выполнение скрипта " followed by the name. */
  function ScriptMetric(name: string): string {
    "Выполнение скрипта " + name
  }

  /** One cell read as a percentage: '%' signs removed, stripped, then parsed as a number. */
  function ParsePercent(co: Coercion, cell: string): Option<real> {
    co.toNumber(Trim(RemoveChar(cell, '%')))
  }

  /** A '%' sign anywhere in a cell is ignored. */
  lemma PercentSignIgnored(co: Coercion, a: string, b: string)
    ensures ParsePercent(co, a + "%" + b) == ParsePercent(co, a + b)
  {
    RemoveCharAppend(a + "%", b, '%');
    RemoveCharAppend(a, "%", '%');
    RemoveCharAppend(a, b, '%');
    assert RemoveChar("%", '%') == "";
    assert RemoveChar(a, '%') + "" == RemoveChar(a, '%');
  }

  /** A cell without '%' is read as the number its stripped text denotes. */
  lemma PlainCellIsNumber(co: Coercion, cell: string)
    requires '%' !in cell
    ensures ParsePercent(co, cell) == co.toNumber(Trim(cell))
  {
    RemoveAbsentChar(cell, '%');
  }

  /** The values `parse` accepts, in cell order; cells it rejects are skipped. */
  function Parsed(parse: string -> Option<real>, cells: seq<string>): (vs: seq<real>)
    ensures |vs| <= |cells|
    ensures |cells| == 1 ==> vs == (if parse(cells[0]).Some? then [parse(cells[0]).value] else [])
    ensures forall i :: 0 <= i < |cells| && parse(cells[i]).Some? ==> parse(cells[i]).value in vs
    ensures forall x :: x in vs ==> exists i :: 0 <= i < |cells| && parse(cells[i]) == Some(x)
  {
    if |cells| == 0 then []
    else
      var rest := Parsed(parse, cells[1..]);
      assert forall i :: 1 <= i < |cells| ==> cells[1..][i - 1] == cells[i];
      assert forall x :: x in rest ==> exists i :: 0 <= i < |cells| && parse(cells[i]) == Some(x) by {
        forall x | x in rest
          ensures exists i :: 0 <= i < |cells| && parse(cells[i]) == Some(x)
        {
          var j :| 0 <= j < |cells[1..]| && parse(cells[1..][j]) == Some(x);
          assert parse(cells[j + 1]) == Some(x);
        }
      }
      match parse(cells[0])
      case Some(v) => [v] + rest
      case None => rest
  }

  /** Parsing a run of cells is parsing each part in turn: order and repeats are kept. */
  lemma {:induction false} ParsedAppend(parse: string -> Option<real>, a: seq<string>, b: seq<string>)
    ensures Parsed(parse, a + b) == Parsed(parse, a) + Parsed(parse, b)
  {
    if |a| == 0 {
      assert a + b == b;
    } else {
      assert (a + b)[0] == a[0] && (a + b)[1..] == a[1..] + b;
      var head := if parse(a[0]).Some? then [parse(a[0]).value] else [];
      calc {
        Parsed(parse, a + b);
        { ParsedUnfolds(parse, a + b); }
        head + Parsed(parse, a[1..] + b);
        { ParsedAppend(parse, a[1..], b); }
        head + (Parsed(parse, a[1..]) + Parsed(parse, b));
        (head + Parsed(parse, a[1..])) + Parsed(parse, b);
        { ParsedUnfolds(parse, a); }
        Parsed(parse, a) + Parsed(parse, b);
      }
    }
  }

  /** One step of `Parsed`: the first cell's value, if any, then the rest. */
  lemma ParsedUnfolds(parse: string -> Option<real>, cells: seq<string>)
    requires |cells| > 0
    ensures Parsed(parse, cells)
      == (if parse(cells[0]).Some? then [parse(cells[0]).value] else []) + Parsed(parse, cells[1..])
  {
  }

  /** The cleaned values of one row: its cells read as percentages, unparseable ones skipped. */
  function CleanValues(co: Coercion, cells: seq<string>): (vs: seq<real>)
    ensures |vs| <= |cells|
    ensures |cells| == 1 ==> vs == (if ParsePercent(co, cells[0]).Some? then [ParsePercent(co, cells[0]).value] else [])
    ensures forall i :: 0 <= i < |cells| && ParsePercent(co, cells[i]).Some? ==> ParsePercent(co, cells[i]).value in vs
    ensures forall x :: x in vs ==> exists i :: 0 <= i < |cells| && ParsePercent(co, cells[i]) == Some(x)
  {
    var parse := cell => ParsePercent(co, cell);
    var vs := Parsed(parse, cells);
    assert forall i :: 0 <= i < |cells| ==> parse(cells[i]) == ParsePercent(co, cells[i]);
    vs
  }

  /** Cleaning a row is cleaning its parts in turn. */
  lemma CleanValuesAppend(co: Coercion, a: seq<string>, b: seq<string>)
    ensures CleanValues(co, a + b) == CleanValues(co, a) + CleanValues(co, b)
  {
    ParsedAppend(cell => ParsePercent(co, cell), a, b);
  }

  /** Cleaning cells whose readable values all lie in [lo, hi] gives values in [lo, hi]. */
  lemma CleanValuesWithin(co: Coercion, cells: seq<string>, lo: real, hi: real)
    requires forall k :: 0 <= k < |cells| && ParsePercent(co, cells[k]).Some? ==> lo <= ParsePercent(co, cells[k]).value <= hi
    ensures forall k :: 0 <= k < |CleanValues(co, cells)| ==> lo <= CleanValues(co, cells)[k] <= hi
  {
    var vs := CleanValues(co, cells);
    forall k | 0 <= k < |vs|
      ensures lo <= vs[k] <= hi
    {
      assert vs[k] in vs;
    }
  }

  /** matched_row[selected_cols]: the cells of period row `i` under the selected labels, repeats included. */
  function ScriptCells(period: Processor.Period, keys: seq<ColumnLabel>, i: nat): (cells: seq<string>)
    requires i < |period.cells|
    ensures forall c :: c in cells ==> c in period.cells[i]
    ensures |period.cells[i]| == |period.columns| ==> |cells| == SelectedCount(period.columns, keys)
  {
    SelectByLabels(period.columns, period.cells[i], keys)
  }

  /**
   For an in-range selection without key collisions on a frame whose labels
   are distinct, matched_row[selected_cols] reads the row's cells of day
   columns start..end, in order.
   */
  lemma ScriptCellsArePositional(co: Coercion, f: Frame, start: int, end: int, i: int)
    requires DistinctLabels(f.columns) && Processor.NoKeyCollision(co, Processor.DayColumns(f))
    requires 1 <= start <= end <= Processor.MaxDay(f)
    requires IndicatorColumn(f).Some?
    requires 0 <= i < |f.rows|
    ensures end + 2 <= |f.rows[i]|
    ensures |Processor.ProcessData(co, f, start, end).period.cells| == |f.rows|
    ensures ScriptCells(Processor.ProcessData(co, f, start, end).period, Processor.SelectedLabels(co, f, start, end), i) ==
      f.rows[i][start + 1..end + 2]
  {
    Processor.PeriodIsPositional(co, f, start, end, i);
    var p := Processor.ProcessData(co, f, start, end).period;
    SelectDistinctLabels(p.columns, p.cells[i]);
  }

  /** The first period row whose indicator contains `metric`, ignoring case. */
  function ScriptRow(period: Processor.Period, metric: string): (r: Option<nat>)
    ensures r.Some? ==> r.value < |period.indicators| && ContainsIgnoringCase(period.indicators[r.value], metric)
    ensures r.Some? ==> forall j :: 0 <= j < r.value ==> !ContainsIgnoringCase(period.indicators[j], metric)
    ensures r.None? ==> forall j :: 0 <= j < |period.indicators| ==> !ContainsIgnoringCase(period.indicators[j], metric)
  {
    Resolver.FirstWhere(period.indicators, (s: string) => ContainsIgnoringCase(s, metric))
  }

  /**
   safe_script_average: 0 without a matching row or without parseable cells
   among matched_row[selected_cols], else the rounded mean.
   */
  function ScriptAverage(co: Coercion, period: Processor.Period, keys: seq<ColumnLabel>, name: string): (r: real)
    requires |period.indicators| == |period.cells|
    ensures ScriptRow(period, ScriptMetric(name)).None? ==> r == 0.0
    ensures ScriptRow(period, ScriptMetric(name)).Some? ==>
      var vs := CleanValues(co, ScriptCells(period, keys, ScriptRow(period, ScriptMetric(name)).value));
      (|vs| == 0 ==> r == 0.0) && (|vs| > 0 ==> -0.05 <= r - Mean(vs) <= 0.05)
  {
    match ScriptRow(period, ScriptMetric(name))
    case None => 0.0
    case Some(i) =>
      var vs := CleanValues(co, ScriptCells(period, keys, i));
      if |vs| == 0 then 0.0 else Round(Mean(vs), One)
  }

  /**
   When every parseable cell lies in [lo, hi] and 0 does too, the average
   does: percentages stay percentages.
   */
  lemma ScriptAverageWithin(co: Coercion, period: Processor.Period, keys: seq<ColumnLabel>, name: string, lo: int, hi: int)
    requires |period.indicators| == |period.cells|
    requires lo <= 0 <= hi
    requires forall i, k :: 0 <= i < |period.cells| && 0 <= k < |period.cells[i]| && ParsePercent(co, period.cells[i][k]).Some? ==>
      lo as real <= ParsePercent(co, period.cells[i][k]).value <= hi as real
    ensures lo as real <= ScriptAverage(co, period, keys, name) <= hi as real
  {
    match ScriptRow(period, ScriptMetric(name))
    case None =>
    case Some(i) =>
      var cells := ScriptCells(period, keys, i);
      forall k | 0 <= k < |cells| && ParsePercent(co, cells[k]).Some?
        ensures lo as real <= ParsePercent(co, cells[k]).value <= hi as real
      {
        assert cells[k] in period.cells[i];
        var m :| 0 <= m < |period.cells[i]| && period.cells[i][m] == cells[k];
      }
      CleanValuesWithin(co, cells, lo as real, hi as real);
      var vs := CleanValues(co, cells);
      if |vs| > 0 {
        MeanBounds(vs, lo as real, hi as real);
        RoundWithin(Mean(vs), lo, hi, One);
      }
  }

  /** Colour band of a compliance percentage. */
  datatype Band = Red | Orange | Green {
    /** Position of the band from worst to best. */
    function Rank(): nat {
      match this
      case Red => 0
      case Orange => 1
      case Green => 2
    }
  }

  /** Below 50 is red, below 80 orange, anything else green. */
  function BandOf(v: real): (b: Band)
    ensures b == Red <==> v < 50.0
    ensures b == Orange <==> 50.0 <= v < 80.0
    ensures b == Green <==> 80.0 <= v
  {
    if v < 50.0 then Red else if v < 80.0 then Orange else Green
  }

  /** A higher percentage never gets a worse band. */
  lemma BandMonotone(v1: real, v2: real)
    requires v1 <= v2
    ensures BandOf(v1).Rank() <= BandOf(v2).Rank()
  {
  }

  /** One bar of the chart. */
  datatype ScriptBar = ScriptBar(manager: string, percent: real, band: Band)

  /** The bars, one per staff member in config order. */
  function ScriptBars(co: Coercion, period: Processor.Period, keys: seq<ColumnLabel>): (r: seq<ScriptBar>)
    requires |period.indicators| == |period.cells|
    ensures |r| == |StaffNames|
    ensures forall k :: 0 <= k < |r| ==> r[k].manager == StaffNames[k] && r[k].band == BandOf(r[k].percent)
    ensures forall k :: 0 <= k < |r| ==> r[k].percent == ScriptAverage(co, period, keys, StaffNames[k])
  {
    seq(|StaffNames|, k requires 0 <= k < |StaffNames| =>
      var v := ScriptAverage(co, period, keys, StaffNames[k]);
      ScriptBar(StaffNames[k], v, BandOf(v)))
  }
}

=== FILE: stock.dfy ===
/**
 The stock sheet (load_stock_to_store): each model cell is split into a
 model root and a modification, and every row that is not a car takes the
 role of a section header whose status applies to the cars below it.
 */
module Stock {
  import opened Wrappers
  import opened Text

  /** The model roots, tried in this order. */
  const RootModels: seq<string> := ["718", "911", "Cayenne", "Panamera", "Macan", "Taycan"]

  /** A car's model root and its modification ("Base" when nothing follows the root). */
  datatype ModelSplit = ModelSplit(root: string, modification: string)

  /** Index of the first of `roots` the value starts with, searching from position k. */
  function FirstRootFrom(roots: seq<string>, value: string, k: nat): (r: Option<nat>)
    requires k <= |roots|
    ensures r.Some? ==> k <= r.value < |roots| && StartsWith(value, roots[r.value])
    ensures r.Some? ==> forall j :: k <= j < r.value ==> !StartsWith(value, roots[j])
    ensures r.None? ==> forall j :: k <= j < |roots| ==> !StartsWith(value, roots[j])
    decreases |roots| - k
  {
    if k == |roots| then None
    else if StartsWith(value, roots[k]) then Some(k)
    else FirstRootFrom(roots, value, k + 1)
  }

  /** What follows a root, stripped; "Base" when nothing is left. */
  function ModificationOf(rest: string): (m: string)
    ensures m != "" && Trimmed(m)
    ensures Trim(rest) != "" ==> m == Trim(rest)
  {
    assert Trimmed("Base") by {
      assert "Base"[0] == 'B' && "Base"[3] == 'e';
    }
    if Trim(rest) == "" then "Base" else Trim(rest)
  }

  /** `roots[k]` is the first of the roots the value starts with. */
  predicate FirstRootIs(roots: seq<string>, value: string, k: nat) {
    && k < |roots| && StartsWith(value, roots[k])
    && forall j :: 0 <= j < k ==> !StartsWith(value, roots[j])
  }

  /**
   The split of a stripped value against `roots`: the first root it starts
   with, and the stripped rest after that root, "Base" when nothing is left.
   */
  function SplitAgainst(roots: seq<string>, value: string): (r: Option<ModelSplit>)
    ensures r.None? <==> forall j :: 0 <= j < |roots| ==> !StartsWith(value, roots[j])
    ensures forall k: nat :: FirstRootIs(roots, value, k) ==> r == Some(ModelSplit(roots[k], ModificationOf(value[|roots[k]|..])))
    ensures r.Some? ==> r.value.root in roots && StartsWith(value, r.value.root)
    ensures r.Some? ==> r.value.modification != "" && Trimmed(r.value.modification)
  {
    match FirstRootFrom(roots, value, 0)
    case None =>
      assert forall j: nat :: !FirstRootIs(roots, value, j);
      None
    case Some(k) =>
      assert forall j: nat :: FirstRootIs(roots, value, j) ==> j == k;
      Some(ModelSplit(roots[k], ModificationOf(value[|roots[k]|..])))
  }

  /** extract_model_and_mod on the stripped model cell; None marks a header row. */
  function ExtractModelAndMod(cell: string): (r: Option<ModelSplit>)
    ensures r.None? <==> forall j :: 0 <= j < |RootModels| ==> !StartsWith(Trim(cell), RootModels[j])
    ensures forall k: nat :: FirstRootIs(RootModels, Trim(cell), k) ==>
      r == Some(ModelSplit(RootModels[k], ModificationOf(Trim(cell)[|RootModels[k]|..])))
    ensures r.Some? ==> r.value.root in RootModels && StartsWith(Trim(cell), r.value.root)
    ensures r.Some? ==> r.value.modification != "" && Trimmed(r.value.modification)
  {
    SplitAgainst(RootModels, Trim(cell))
  }

  /** Every root is non-empty and stripped, and no two roots share a first character. */
  predicate DistinctInitials(roots: seq<string>) {
    && (forall k :: 0 <= k < |roots| ==> |roots[k]| > 0 && Trimmed(roots[k]))
    && (forall j, k :: 0 <= j < k < |roots| ==> roots[j][0] != roots[k][0])
  }

  /** The six Porsche roots start with six different characters. */
  lemma RootModelsDistinctInitials()
    ensures DistinctInitials(RootModels)
  {
    var initials := "79CPMT";
    assert forall k :: 0 <= k < |RootModels| ==> |RootModels[k]| > 0 && RootModels[k][0] == initials[k];
    assert forall k :: 0 <= k < |RootModels| ==> Trimmed(RootModels[k]);
  }

  /** With distinct initials, a root followed by a space and a stripped modification splits back into the two. */
  lemma SplitAgainstRootAndModification(roots: seq<string>, k: nat, modification: string)
    requires DistinctInitials(roots) && k < |roots|
    requires modification != "" && Trimmed(modification)
    ensures SplitAgainst(roots, roots[k] + " " + modification) == Some(ModelSplit(roots[k], modification))
  {
    var root := roots[k];
    var value := root + " " + modification;
    assert value[..|root|] == root;
    forall j | 0 <= j < k
      ensures !StartsWith(value, roots[j])
    {
      assert roots[j][0] != value[0];
    }
    assert FirstRootFrom(roots, value, 0) == Some(k);
    assert value[|root|..] == " " + modification;
    TrimFixesTrimmed(modification);
    assert TrimStart(" " + modification) == TrimStart(modification);
  }

  /** With distinct initials, a bare root splits into that root and "Base". */
  lemma SplitAgainstBareRoot(roots: seq<string>, k: nat)
    requires DistinctInitials(roots) && k < |roots|
    ensures SplitAgainst(roots, roots[k]) == Some(ModelSplit(roots[k], "Base"))
  {
    var root := roots[k];
    assert root[..|root|] == root;
    forall j | 0 <= j < k
      ensures !StartsWith(root, roots[j])
    {
      assert roots[j][0] != root[0];
    }
    assert FirstRootFrom(roots, root, 0) == Some(k);
    assert root[|root|..] == "";
  }

  /** "911 Turbo S" style cells: a root, a space and a stripped modification split back into the two. */
  lemma SplitsRootAndModification(k: nat, modification: string)
    requires k < |RootModels|
    requires modification != "" && Trimmed(modification)
    ensures ExtractModelAndMod(RootModels[k] + " " + modification) == Some(ModelSplit(RootModels[k], modification))
  {
    var value := RootModels[k] + " " + modification;
    RootModelsDistinctInitials();
    assert value[0] == RootModels[k][0] && value[|value| - 1] == modification[|modification| - 1];
    TrimFixesTrimmed(value);
    SplitAgainstRootAndModification(RootModels, k, modification);
  }

  /** A bare root is the base modification of that model. */
  lemma BareRootIsBase(k: nat)
    requires k < |RootModels|
    ensures ExtractModelAndMod(RootModels[k]) == Some(ModelSplit(RootModels[k], "Base"))
  {
    RootModelsDistinctInitials();
    TrimFixesTrimmed(RootModels[k]);
    SplitAgainstBareRoot(RootModels, k);
  }

  /** The cells of a stock row the status logic reads, with the model cell already split. */
  datatype StockRow = StockRow(body: string, split: Option<ModelSplit>, volume: string)

  /** The row as the status loop sees it after the split columns were added. */
  function SplitRow(body: string, model: string, volume: string): (row: StockRow)
    ensures row.split == ExtractModelAndMod(model)
  {
    StockRow(body, ExtractModelAndMod(model), volume)
  }

  /** A row whose model cell matches no root. */
  predicate IsHeader(row: StockRow) {
    row.split.None?
  }

  /** A header's status: its stripped non-empty body number and engine volume joined by a space. */
  function HeaderStatus(row: StockRow): (s: string)
    ensures Trim(row.body) == "" && Trim(row.volume) == "" ==> s == ""
    ensures Trim(row.body) == "" && Trim(row.volume) != "" ==> s == Trim(row.volume)
    ensures Trim(row.body) != "" && Trim(row.volume) == "" ==> s == Trim(row.body)
    ensures Trim(row.body) != "" && Trim(row.volume) != "" ==> s == Trim(row.body) + " " + Trim(row.volume)
  {
    var parts := (if Trim(row.body) != "" then [Trim(row.body)] else []) + (if Trim(row.volume) != "" then [Trim(row.volume)] else []);
    JoinWithSpace(parts)
  }

  /** The last row strictly before row i that `isHeader` picks out. */
  function LastHeaderBefore<R>(rows: seq<R>, isHeader: R -> bool, i: nat): (r: Option<nat>)
    requires i <= |rows|
    ensures r.Some? ==> r.value < i && isHeader(rows[r.value])
    ensures r.Some? ==> forall j :: r.value < j < i ==> !isHeader(rows[j])
    ensures r.None? ==> forall j :: 0 <= j < i ==> !isHeader(rows[j])
  {
    if i == 0 then None
    else if isHeader(rows[i - 1]) then Some(i - 1)
    else LastHeaderBefore(rows, isHeader, i - 1)
  }

  /** The status of the closest header above row i, if any. */
  function Carried<R>(rows: seq<R>, isHeader: R -> bool, headerStatus: R -> string, i: nat): Option<string>
    requires i <= |rows|
  {
    match LastHeaderBefore(rows, isHeader, i)
    case None => None
    case Some(j) => Some(headerStatus(rows[j]))
  }

  /** The status a row should carry: none for a header, else the status of the closest header above, if any. */
  function ExpectedStatus<R>(rows: seq<R>, isHeader: R -> bool, headerStatus: R -> string, i: nat): Option<string>
    requires i < |rows|
  {
    if isHeader(rows[i]) then None else Carried(rows, isHeader, headerStatus, i)
  }

  /** The status loop: a header resets the current status and gets none itself; other rows get the current one. */
  method PropagateStatus<R>(rows: seq<R>, isHeader: R -> bool, headerStatus: R -> string) returns (status: seq<Option<string>>)
    ensures |status| == |rows|
    ensures forall i :: 0 <= i < |rows| ==> status[i] == ExpectedStatus(rows, isHeader, headerStatus, i)
  {
    status := [];
    var current: Option<string> := None;
    var i := 0;
    while i < |rows|
      invariant 0 <= i <= |rows|
      invariant |status| == i
      invariant forall k :: 0 <= k < i ==> status[k] == ExpectedStatus(rows, isHeader, headerStatus, k)
      invariant current == Carried(rows, isHeader, headerStatus, i)
    {
      if isHeader(rows[i]) {
        current := Some(headerStatus(rows[i]));
        status := status + [None];
      } else {
        status := status + [current];
      }
      i := i + 1;
    }
  }

  /** The "Статус" column of the stock sheet. */
  method Statuses(rows: seq<StockRow>) returns (status: seq<Option<string>>)
    ensures |status| == |rows|
    ensures forall i :: 0 <= i < |rows| && IsHeader(rows[i]) ==> status[i].None?
    ensures forall i :: 0 <= i < |rows| && !IsHeader(rows[i]) ==>
      status[i] == Carried(rows, IsHeader, HeaderStatus, i)
  {
    status := PropagateStatus(rows, IsHeader, HeaderStatus);
  }
}

=== FILE: table.dfy ===
/**
 The data model shared by the pipeline: a pandas DataFrame as it reaches
 the processor (column labels plus rows of text cells, as Google Sheets
 delivers them), the per-period aggregate, and the two conversions pandas
 performs on cell text (pd.to_numeric and pd.to_datetime), which are
 parameters of the model.
 */
module Table {
  import opened Wrappers
  import opened Dates

  /** A column label: text, a timestamp (Excel date headers) or any other value shown by str(). */
  datatype ColumnLabel = Name(text: string) | Stamp(date: CalendarDate) | Other(shown: string)

  datatype RawFrame = RawFrame(columns: seq<ColumnLabel>, rows: seq<seq<string>>) {
    predicate Rectangular() {
      forall r :: r in rows ==> |r| == |columns|
    }
  }

  /** A DataFrame: every row has one cell per column. */
  type Frame = f: RawFrame | f.Rectangular() witness RawFrame([], [])

  /** pd.DataFrame(): no columns and no rows. */
  const EmptyFrame: Frame := RawFrame([], [])

  /** The name of the indicator column. */
  const IndicatorName: string := "Показатель"

  /** DataFrame.empty: true when either axis has length zero. */
  predicate IsEmpty(f: Frame) {
    |f.columns| == 0 || |f.rows| == 0
  }

  /** The first column labelled "Показатель", if any. */
  function IndicatorColumn(f: Frame): (r: Option<nat>)
    ensures r.Some? ==> r.value < |f.columns| && f.columns[r.value] == Name(IndicatorName)
    ensures r.Some? ==> forall j :: 0 <= j < r.value ==> f.columns[j] != Name(IndicatorName)
    ensures r.None? <==> Name(IndicatorName) !in f.columns
  {
    IndexOf(f.columns, Name(IndicatorName))
  }

  function IndexOf<T(==)>(s: seq<T>, x: T): (r: Option<nat>)
    ensures r.Some? ==> r.value < |s| && s[r.value] == x && x !in s[..r.value]
    ensures r.None? <==> x !in s
  {
    if |s| == 0 then None
    else if s[0] == x then Some(0)
    else match IndexOf(s[1..], x)
      case Some(i) =>
        assert s[..i + 1] == [s[0]] + s[1..][..i];
        Some(i + 1)
      case None => None
  }

  /**
   The text conversions pandas performs. `toNumber` is pd.to_numeric (and
   float() after '%' removal) on one cell, None where errors='coerce' gives NaN;
   `toDate` is pd.to_datetime(errors='coerce') on one label, None for NaT.
   */
  datatype Coercion = Coercion(toNumber: string -> Option<real>, toDate: string -> Option<CalendarDate>)

  /** pd.to_numeric(cell, errors='coerce') followed by fillna(0). */
  function NumberOrZero(co: Coercion, cell: string): real {
    co.toNumber(cell).GetOr(0.0)
  }

  /**
   The cells of a row whose column label is `key`, in column order: what
   selecting one label gives when several columns carry it.
   */
  function Matching<L(==), T>(labels: seq<L>, cells: seq<T>, key: L): (r: seq<T>)
    ensures |labels| == |cells| ==> |r| == multiset(labels)[key]
    ensures forall x :: x in r ==> x in cells
    ensures |labels| == 1 && |cells| == 1 ==> r == if labels[0] == key then cells else []
  {
    if |labels| == 0 || |cells| == 0 then []
    else
      assert labels == [labels[0]] + labels[1..];
      (if labels[0] == key then [cells[0]] else []) + Matching(labels[1..], cells[1..], key)
  }

  /** The columns of a row split in two: selecting a label selects it in the first part, then in the second. */
  lemma {:induction false} MatchingAppend<L, T>(l1: seq<L>, c1: seq<T>, l2: seq<L>, c2: seq<T>, key: L)
    requires |l1| == |c1|
    ensures Matching(l1 + l2, c1 + c2, key) == Matching(l1, c1, key) + Matching(l2, c2, key)
  {
    if |l1| == 0 {
      assert l1 + l2 == l2 && c1 + c2 == c2;
    } else {
      assert (l1 + l2)[0] == l1[0] && (l1 + l2)[1..] == l1[1..] + l2;
      assert (c1 + c2)[0] == c1[0] && (c1 + c2)[1..] == c1[1..] + c2;
      MatchingAppend(l1[1..], c1[1..], l2, c2, key);
    }
  }

  /** How many columns frame[keys] has: each key contributes every column carrying it. */
  function SelectedCount<L(==)>(labels: seq<L>, keys: seq<L>): nat {
    if |keys| == 0 then 0 else multiset(labels)[keys[0]] + SelectedCount(labels, keys[1..])
  }

  /**
   frame[keys] on one row whose column labels may repeat: for each key in
   turn, every cell whose column carries that label.
   */
  function SelectByLabels<L(==), T>(labels: seq<L>, cells: seq<T>, keys: seq<L>): (r: seq<T>)
    ensures |labels| == |cells| ==> |r| == SelectedCount(labels, keys)
    ensures forall x :: x in r ==> x in cells
    ensures |keys| == 1 ==> r == Matching(labels, cells, keys[0])
  {
    if |keys| == 0 then []
    else Matching(labels, cells, keys[0]) + SelectByLabels(labels, cells, keys[1..])
  }

  /** Selecting two runs of labels one after the other gives the first selection, then the second. */
  lemma {:induction false} SelectByLabelsAppend<L, T>(labels: seq<L>, cells: seq<T>, k1: seq<L>, k2: seq<L>)
    ensures SelectByLabels(labels, cells, k1 + k2) == SelectByLabels(labels, cells, k1) + SelectByLabels(labels, cells, k2)
  {
    if |k1| == 0 {
      assert k1 + k2 == k2;
    } else {
      assert (k1 + k2)[0] == k1[0] && (k1 + k2)[1..] == k1[1..] + k2;
      SelectByLabelsAppend(labels, cells, k1[1..], k2);
    }
  }

  /** No two columns share a label. */
  predicate DistinctLabels<L(==)>(labels: seq<L>) {
    forall i, j :: 0 <= i < j < |labels| ==> labels[i] != labels[j]
  }

  /** In distinct labels, no other position carries the label at `k`. */
  lemma DistinctAt<L>(labels: seq<L>, k: nat)
    requires DistinctLabels(labels) && k < |labels|
    ensures forall j :: 0 <= j < |labels| && j != k ==> labels[j] != labels[k]
  {
    forall j | 0 <= j < |labels| && j != k
      ensures labels[j] != labels[k]
    {
      if j < k {
        assert labels[j] != labels[k];
      } else {
        assert labels[k] != labels[j];
      }
    }
  }

  /** Selecting a label carried by exactly one column gives that column's cell. */
  lemma {:induction false} MatchingSingle<L, T>(labels: seq<L>, cells: seq<T>, k: nat)
    requires |labels| == |cells| && k < |labels|
    requires forall j :: 0 <= j < |labels| && j != k ==> labels[j] != labels[k]
    ensures Matching(labels, cells, labels[k]) == [cells[k]]
  {
    var key := labels[k];
    if k == 0 {
      assert key !in multiset(labels[1..]) by {
        forall j | 0 <= j < |labels[1..]|
          ensures labels[1..][j] != key
        {
          assert labels[1..][j] == labels[j + 1];
        }
      }
      assert |Matching(labels[1..], cells[1..], key)| == 0;
    } else {
      assert labels[0] != key;
      forall j | 0 <= j < |labels[1..]| && j != k - 1
        ensures labels[1..][j] != labels[1..][k - 1]
      {
        assert labels[1..][j] == labels[j + 1];
      }
      MatchingSingle(labels[1..], cells[1..], k - 1);
    }
  }

  /**
   With distinct labels, selecting the labels of some positions gives the
   cells at those positions, in the order asked for.
   */
  lemma {:induction false} SelectByPositions<L, T>(labels: seq<L>, cells: seq<T>, pos: seq<nat>, keys: seq<L>)
    requires |labels| == |cells| && DistinctLabels(labels)
    requires |keys| == |pos|
    requires forall k :: 0 <= k < |pos| ==> pos[k] < |labels| && keys[k] == labels[pos[k]]
    ensures |SelectByLabels(labels, cells, keys)| == |pos|
    ensures forall k :: 0 <= k < |pos| ==> SelectByLabels(labels, cells, keys)[k] == cells[pos[k]]
  {
    if |pos| > 0 {
      DistinctAt(labels, pos[0]);
      MatchingSingle(labels, cells, pos[0]);
      SelectByPositions(labels, cells, pos[1..], keys[1..]);
      var r := SelectByLabels(labels, cells, keys);
      assert r == [cells[pos[0]]] + SelectByLabels(labels, cells, keys[1..]);
      forall k | 0 <= k < |pos|
        ensures r[k] == cells[pos[k]]
      {
        if k > 0 {
          assert r[k] == SelectByLabels(labels, cells, keys[1..])[k - 1];
          assert pos[1..][k - 1] == pos[k];
        }
      }
    }
  }

  /** With distinct labels, selecting the columns by their own labels gives the row back. */
  lemma SelectDistinctLabels<L, T>(labels: seq<L>, cells: seq<T>)
    requires |labels| == |cells| && DistinctLabels(labels)
    ensures SelectByLabels(labels, cells, labels) == cells
  {
    var pos := seq(|labels|, k requires 0 <= k < |labels| => k);
    SelectByPositions(labels, cells, pos, labels);
  }

  /** One row of the aggregate: the indicator and its "Сумма за период". */
  datatype AggRow = AggRow(indicator: string, total: real)

  type Aggregate = seq<AggRow>
}

=== FILE: text.dfy ===
/**
 The string operations the pipeline relies on: Python's str.strip, str.lower,
 str.upper, str.startswith and the literal part of pandas' case-insensitive
 str.contains.
 */
module Text {

  /** Python's str.isspace, for the characters a spreadsheet cell realistically holds. */
  predicate IsSpace(c: char) {
    || c == ' ' || c == '\t' || c == '\n' || c == '\r'
    || c == '\U{000B}' || c == '\U{000C}'
    || ('\U{001C}' <= c <= '\U{001F}')
    || c == '\U{0085}' || c == '\U{00A0}' || c == '\U{1680}'
    || ('\U{2000}' <= c <= '\U{200A}')
    || c == '\U{2028}' || c == '\U{2029}' || c == '\U{202F}' || c == '\U{205F}' || c == '\U{3000}'
  }

  /** Leading whitespace removed (str.lstrip). */
  function TrimStart(s: string): (r: string)
    ensures |r| <= |s| && r == s[|s| - |r|..]
    ensures forall i :: 0 <= i < |s| - |r| ==> IsSpace(s[i])
    ensures |r| > 0 ==> !IsSpace(r[0])
  {
    if |s| > 0 && IsSpace(s[0]) then TrimStart(s[1..]) else s
  }

  /** Trailing whitespace removed (str.rstrip). */
  function TrimEnd(s: string): (r: string)
    ensures |r| <= |s| && r == s[..|r|]
    ensures forall i :: |r| <= i < |s| ==> IsSpace(s[i])
    ensures |r| > 0 ==> !IsSpace(r[|r| - 1])
  {
    if |s| > 0 && IsSpace(s[|s| - 1]) then TrimEnd(s[..|s| - 1]) else s
  }

  /** True when a string has no whitespace at either end. */
  predicate Trimmed(s: string) {
    |s| == 0 || (!IsSpace(s[0]) && !IsSpace(s[|s| - 1]))
  }

  /** Python's str.strip(). */
  function Trim(s: string): (r: string)
    ensures Trimmed(r)
    ensures |r| <= |s|
  {
    TrimEnd(TrimStart(s))
  }

  /** Stripping leaves an already stripped string alone, so strip is idempotent. */
  lemma TrimFixesTrimmed(s: string)
    requires Trimmed(s)
    ensures Trim(s) == s
  {
  }

  lemma TrimIdempotent(s: string)
    ensures Trim(Trim(s)) == Trim(s)
  {
    TrimFixesTrimmed(Trim(s));
  }

  /** str.lower for Latin, Latin-1 and Cyrillic letters; other characters are unchanged. */
  function LowerChar(c: char): char {
    if 'A' <= c <= 'Z' || 'А' <= c <= 'Я' || ('À' <= c <= 'Þ' && c != '×') then (c as int + 0x20) as char
    else if 'Ѐ' <= c <= 'Џ' then (c as int + 0x50) as char
    else c
  }

  /** str.upper for Latin, Latin-1 and Cyrillic letters; other characters are unchanged. */
  function UpperChar(c: char): char {
    if 'a' <= c <= 'z' || 'а' <= c <= 'я' || ('à' <= c <= 'þ' && c != '÷') then (c as int - 0x20) as char
    else if 'ѐ' <= c <= 'џ' then (c as int - 0x50) as char
    else c
  }

  function Lower(s: string): (r: string)
    ensures |r| == |s|
  {
    seq(|s|, i requires 0 <= i < |s| => LowerChar(s[i]))
  }

  function Upper(s: string): (r: string)
    ensures |r| == |s|
  {
    seq(|s|, i requires 0 <= i < |s| => UpperChar(s[i]))
  }

  predicate StartsWith(s: string, prefix: string) {
    |prefix| <= |s| && s[..|prefix|] == prefix
  }

  /** `needle` occurs in `hay` starting at position `i`. */
  predicate OccursAt(hay: string, needle: string, i: nat) {
    i + |needle| <= |hay| && hay[i..i + |needle|] == needle
  }

  /** Literal substring test (Python's `needle in hay`). */
  predicate Contains(hay: string, needle: string) {
    exists i: nat :: i <= |hay| && OccursAt(hay, needle, i)
  }

  /** Case-insensitive literal containment. */
  predicate ContainsIgnoringCase(hay: string, needle: string) {
    Contains(Lower(hay), Lower(needle))
  }

  /** Every string contains itself, whatever its case. */
  lemma ContainsSelf(s: string)
    ensures ContainsIgnoringCase(s, s)
  {
    assert OccursAt(Lower(s), Lower(s), 0);
  }

  /** Every string contains the empty string (pandas matches an empty pattern everywhere). */
  lemma ContainsEmpty(s: string)
    ensures Contains(s, "")
  {
    assert OccursAt(s, "", 0);
  }

  /** All occurrences of `c` removed (str.replace(c, '')). */
  function RemoveChar(s: string, c: char): (r: string)
    ensures |r| <= |s|
    ensures forall i :: 0 <= i < |r| ==> r[i] != c
    ensures forall x :: x in s && x != c ==> x in r
    ensures forall x :: x in r ==> x in s
  {
    if |s| == 0 then ""
    else if s[0] == c then RemoveChar(s[1..], c)
    else [s[0]] + RemoveChar(s[1..], c)
  }

  /** Removing a character commutes with concatenation. */
  lemma {:induction false} RemoveCharAppend(a: string, b: string, c: char)
    ensures RemoveChar(a + b, c) == RemoveChar(a, c) + RemoveChar(b, c)
  {
    if |a| > 0 {
      assert (a + b)[0] == a[0] && (a + b)[1..] == a[1..] + b;
      RemoveCharAppend(a[1..], b, c);
    } else {
      assert a + b == b;
    }
  }

  /** A string without `c` is left as it is. */
  lemma {:induction false} RemoveAbsentChar(s: string, c: char)
    requires c !in s
    ensures RemoveChar(s, c) == s
  {
    if |s| > 0 {
      assert s[0] != c && c !in s[1..];
      RemoveAbsentChar(s[1..], c);
      assert s == [s[0]] + s[1..];
    }
  }

  /** " ".join(parts). */
  function JoinWithSpace(parts: seq<string>): (r: string)
    ensures |parts| == 1 ==> r == parts[0]
    ensures |parts| == 0 ==> r == ""
  {
    if |parts| == 0 then ""
    else if |parts| == 1 then parts[0]
    else parts[0] + " " + JoinWithSpace(parts[1..])
  }
}

=== FILE: trend.dfy ===
/**
 The calls trend (ChartGenerator.create_calls_trend), as far as the
 dashboard depends on it: the chart is built from a day axis and four
 series, and pandas refuses to build it unless all five are equally long.
 The values drawn, the moving average and the fitted line are not modelled.
 */
module Trend {
  import opened Table
  import opened Text
  import Processor
  import Resolver

  /** The metrics whose daily series the trend draws, in legend order. */
  const TrendFragments: seq<string> := ["Входящие звонки - ВЗ", "Принятые ВЗ", "Непринятые ВЗ", "Переадресованные успешно ВЗ"]

  /** len(range(start, end + 1)): the length of the day axis. */
  function DayCount(start: int, end: int): (n: nat)
    ensures start <= end ==> n == end - start + 1
    ensures end < start ==> n == 0
  {
    if start <= end then end - start + 1 else 0
  }

  /**
   get_series: the day cells of the first period row containing the
   fragment (every day column of data_period), or one 0 per selected label
   when no row does.
   */
  function SeriesLength(p: Processor.Period, keys: seq<ColumnLabel>, fragment: string): (n: nat)
    ensures (exists i :: 0 <= i < |p.indicators| && ContainsIgnoringCase(p.indicators[i], fragment)) ==> n == |p.columns|
    ensures (forall i :: 0 <= i < |p.indicators| ==> !ContainsIgnoringCase(p.indicators[i], fragment)) ==> n == |keys|
    ensures n == |p.columns| || n == |keys|
  {
    match Resolver.FirstWhere(p.indicators, (s: string) => ContainsIgnoringCase(s, fragment))
    case Some(_) => |p.columns|
    case None => |keys|
  }

  /** The day axis and all four series have one length, so the chart's frame can be built. */
  predicate TrendBuilds(p: Processor.Period, keys: seq<ColumnLabel>, start: int, end: int) {
    forall k :: 0 <= k < |TrendFragments| ==> SeriesLength(p, keys, TrendFragments[k]) == DayCount(start, end)
  }

  /** A 1-based range inside the sheet selects one column per day. */
  lemma InRangeSelectsEveryDay(co: Coercion, f: Frame, start: int, end: int)
    requires 1 <= start <= end <= Processor.MaxDay(f)
    ensures |Processor.SelectedLabels(co, f, start, end)| == end - start + 1
  {
    var n := Processor.MaxDay(f);
    assert Processor.SliceBound(start - 1, n) == start - 1 && Processor.SliceBound(end, n) == end;
  }

  /**
   On a frame whose column labels are distinct, a 1-based range inside the
   sheet always gives equally long series: the trend chart is built.
   */
  lemma InRangeTrendBuilds(co: Coercion, f: Frame, start: int, end: int)
    requires DistinctLabels(f.columns)
    requires 1 <= start <= end <= Processor.MaxDay(f)
    requires IndicatorColumn(f).Some?
    ensures TrendBuilds(Processor.ProcessData(co, f, start, end).period, Processor.SelectedLabels(co, f, start, end), start, end)
  {
    var keys := Processor.SelectedLabels(co, f, start, end);
    var p := Processor.ProcessData(co, f, start, end).period;
    InRangeSelectsEveryDay(co, f, start, end);
    if |f.rows| > 0 {
      Processor.PeriodOfDistinctLabels(co, f, IndicatorColumn(f).value, Processor.SelectedDays(co, f, start, end), 0);
      assert p.columns == keys;
    } else {
      assert |p.indicators| == 0;
    }
  }

  /**
   A range running past the last day column selects fewer columns than the
   day axis has days: on a frame with distinct labels the trend chart
   cannot be built.
   */
  lemma RangePastLastDayFails(co: Coercion, f: Frame, start: int, end: int)
    requires DistinctLabels(f.columns)
    requires 1 <= start <= Processor.MaxDay(f) < end
    requires IndicatorColumn(f).Some?
    ensures !TrendBuilds(Processor.ProcessData(co, f, start, end).period, Processor.SelectedLabels(co, f, start, end), start, end)
  {
    var keys := Processor.SelectedLabels(co, f, start, end);
    var p := Processor.ProcessData(co, f, start, end).period;
    var n := Processor.MaxDay(f);
    assert Processor.SliceBound(start - 1, n) == start - 1 && Processor.SliceBound(end, n) == n;
    assert |keys| == n - start + 1 < DayCount(start, end);
    if |f.rows| > 0 {
      Processor.PeriodOfDistinctLabels(co, f, IndicatorColumn(f).value, Processor.SelectedDays(co, f, start, end), 0);
      assert p.columns == keys;
    } else {
      assert |p.indicators| == 0;
    }
    assert SeriesLength(p, keys, TrendFragments[0]) != DayCount(start, end);
  }
}

=== FILE: wrappers.dfy ===
/** Option and Result, the two failure-carrying shapes the rest of the model uses. */
module Wrappers {

  datatype Option<+T> = None | Some(value: T) {

    function GetOr(default: T): T {
      match this
      case Some(v) => v
      case None => default
    }
  }

  datatype Result<+R, +E> = Success(value: R) | Failure(error: E)
}
